=== FILE: README.md ===
# XMPP web client core, modelled in Dafny

This project models the data core of a browser XMPP chat client written in
TypeScript, and proves properties of the model. It covers:

- the validated address type (JID) and the older address helpers that
  wrap it;
- the IndexedDB message store: de-duplicating batch saves, the status and
  timestamp merge rule, observers, per-conversation queries in index
  order, and the optimistic-send id swap;
- building the conversation list from the server archive (XEP-0313),
  reconciling it with the stored list, and decorating it from the roster;
- the start-up synchronisation: a full download, or an incremental pass
  over stored per-conversation cursors;
- the real-time service: delivery receipts (XEP-0184), chat states,
  handler fan-out, and lifecycle;
- the messaging context: storing live messages and chat markers
  (XEP-0333), then telling subscribers;
- the global "sync running" flag;
- how one message row is drawn: which marker decides its ticks;
- the pure parts of the chat page: which messages still need a displayed
  marker, which rows are drawn and where the day separators go, the
  header name, and the send guard.

The model has one module per source file. Shared records are in
`records.dfy`, JavaScript string behaviour is in `text.dfy`
(`trim`, ASCII `toLowerCase`, `split(c)[0]`, UTF-16 lengths), `Option` and
`Result` are in `wrappers.dfy`, and registration-ordered callback sets are
in `listeners.dfy`. `index_order.dfy` holds the key order of the IndexedDB
indexes that queries return.

These are parameters rather than modelled:

- the clock (`now`);
- generated ids;
- the outcome of each network request;
- the set of callbacks or steps that throw.

Effects on stores the model does not see (the conversation store's
`incrementUnread`, the metadata `updateLastSync`, vCard and roster
fetches, list reloads) are recorded in an effect log and never
interpreted. Three writes of the start-up synchronisation are interpreted
on a modelled conversation list and metadata record, with the meaning each
"## Left out" line below gives: the conversation store's `saveAll`
(`SyncInitializer.SaveAll`), its `update` (`SyncInitializer.Refreshed`),
and the metadata `save` of the full sync (`SyncInitializer.FullSync`).

## Model

| member | source | states |
|---|---|---|
| Jid.MatchJid | web-client/src/types/jid.ts:44 | A match of the address pattern re-renders to the text, its bare part is the text before the first '/', and its resource is what follows |
| Jid.MatchRender | web-client/src/types/jid.ts:44 | Every well-formed triple of parts is matched back to itself, so the pattern and the renderer are inverse |
| Jid.Validate | web-client/src/types/jid.ts:50-87 | Accepts exactly the texts that match the pattern, have no surrounding whitespace, have a domain with a dot or equal to localhost, and have parts of at most 1023 UTF-16 units; the captures re-render to the input |
| Jid.ValidateComplete | web-client/src/types/jid.ts:50-87 | Completeness: every acceptable, well-formed triple with no surrounding whitespace written out is validated to exactly those captures |
| Jid.CheckParts | web-client/src/types/jid.ts:66-86 | The domain and length checks pass exactly for acceptable captures, and leave them unchanged |
| Jid.CreateJid | web-client/src/types/jid.ts:93-97 | Succeeds exactly for valid addresses, returning the text unchanged; otherwise fails with the validator's error |
| Jid.CreateBareJid | web-client/src/types/jid.ts:102-108 | Succeeds exactly for valid addresses, returning the bare part: a prefix of the input with no '/' |
| Jid.TryCreateJid | web-client/src/types/jid.ts:113-118 | Some exactly for valid addresses, holding the text itself |
| Jid.TryCreateBareJid | web-client/src/types/jid.ts:124-129 | Some exactly for valid addresses, holding the text before the first '/' |
| Jid.NormalizeJid | web-client/src/types/jid.ts:148-160 | Succeeds exactly when the text before the first '/' is a valid address, giving that text ASCII-lower-cased |
| Jid.NormalizeIsIdempotent | web-client/src/types/jid.ts:148-160 | A normalised address has no '/' and no upper-case letter, and normalising it again gives it back |
| Jid.NormalizeIgnoresResource | web-client/src/types/jid.ts:153 | Any resource appended to a bare text leaves the normalised form unchanged |
| Jid.NormalizeIsCaseInsensitive | web-client/src/types/jid.ts:159 | Lower-casing the input first does not change a successful normalisation |
| Jid.NormalizeAcceptsEmptyResource | web-client/src/types/jid.ts:148-160 | "a@b.com/" is not a valid address, yet it normalises to "a@b.com" |
| Jid.ToBareJid | web-client/src/types/jid.ts:216-218 | Is the same function as normalisation |
| Jid.ParseJid | web-client/src/types/jid.ts:166-182 | Succeeds exactly for valid addresses. The local part and domain are the captures lower-cased, the resource is the captured one, full is the input, and bare is the lower-cased text before '/' |
| Jid.GetDomain | web-client/src/types/jid.ts:189-192 | Succeeds exactly for valid addresses, giving the lower-cased captured domain |
| Jid.GetLocal | web-client/src/types/jid.ts:198-201 | Succeeds exactly for valid addresses. The result is the lower-cased captured local part, present exactly when the bare text holds an '@' |
| Jid.GetResource | web-client/src/types/jid.ts:207-210 | Succeeds exactly for valid addresses. The result is present exactly when the text holds a '/', and then the text is the bare part, '/' and the resource |
| Jid.ParseBareAgreesWithNormalize | web-client/src/types/jid.ts:148-182 | For a valid address whose bare part does not end in whitespace, normalising gives the parsed bare form |
| Jid.NormalizeRejectsValidJid | web-client/src/types/jid.ts:148-160 | "a@b.c /r" is a valid address, but normalising it fails with the surrounding-whitespace error |
| Jid.NormalizeValid | web-client/src/types/jid.ts:148-182 | The corrected normaliser succeeds exactly for valid addresses and always agrees with the parsed bare form |
| Jid.NormalizeValidFollowsValidity | web-client/src/types/jid.ts:135-160 | On "a@b.c /r" and "a@b.com/" the corrected normaliser follows validity, while the one as written does the opposite |
| Jid.WithResource | web-client/src/types/jid.ts:224-233 | Fails with the normalisation error or for an empty resource or one with surrounding whitespace. On success the result is the bare form, '/' and the resource, and it is a valid address |
| Jid.WithResourceParses | web-client/src/types/jid.ts:224-233 | Parsing the result of attaching a resource gives back that resource and the bare form of the input |
| Jid.AreJidsEqualProperties | web-client/src/types/jid.ts:238-253 | Address equality is symmetric and ignores case and resources. An address equals itself exactly when it normalises |
| JidUtils.NormalizeJid | web-client/src/utils/jid.ts:43-45 | Agrees with the validated normaliser: success exactly for a valid bare part, lower-cased, with no '/', and a fixed point of normalisation |
| JidUtils.GetBareJid | web-client/src/utils/jid.ts:73-75 | Equals the old normaliser and the bare-address conversion; for a text without '/' it is the text lower-cased |
| JidUtils.IsValidJid | web-client/src/utils/jid.ts:50-52 | True exactly when the text is some acceptable well-formed address written out, with no surrounding whitespace |
| JidUtils.ParseJid | web-client/src/utils/jid.ts:57-68 | Succeeds exactly for valid addresses, fails with the validator's error otherwise, and flattens the parsed record with '' for a missing local part |
| JidUtils.ParseJidJoinsBack | web-client/src/utils/jid.ts:57-68 | The user name is empty exactly when the bare text has no '@'. Both parts are lower-case, and joined with '@' they give the lower-cased bare text |
| Text.TrimEmptyIffAllWhitespace | web-client/src/components/MessageItem.tsx:70 | `trim()` yields the empty string exactly when every character is JavaScript whitespace |
| Text.TrimIsIdempotent | web-client/src/pages/ChatPage.tsx:288-290 | Trimming twice is trimming once |
| Text.TrimIsIdentity | web-client/src/types/jid.ts:55 | A text is unchanged by `trim()` exactly when it is empty or neither end is whitespace |
| Text.LowerIsIdempotent | web-client/src/services/conversations.ts:12-14 | ASCII lower-casing twice is lower-casing once, and leaves no upper-case letter |
| Text.Before | web-client/src/services/conversations.ts:13 | `split(c)[0]`: the longest prefix without `c`, followed in the text by `c` when `c` occurs |
| Text.Utf16Length | web-client/src/types/jid.ts:76-86 | The JavaScript length lies between the number of code points and twice that |
| Listeners.Add | web-client/src/services/sync-status.ts:32-39 | `Set.add`: the callback is present, the old ones are kept in order, and no duplicate is created |
| Listeners.Remove | web-client/src/services/sync-status.ts:35-37 | `Set.delete`: exactly the other callbacks remain, with no duplicate created |
| Listeners.RemoveUndoesAdd | web-client/src/services/real-time-messaging.ts:319-326 | Removing a freshly added callback restores the registry |
| Listeners.CallUntilThrow | web-client/src/contexts/MessagingContext.tsx:61-107 | Steps run in order until the first that throws. The run escapes exactly when some step throws, and then the throwing step is the last one run |
| IndexOrder.SortedIsUnique | web-client/src/services/repositories/MessageRepository.ts:152-193 | There is one strictly key-ordered arrangement of a set of records, so index order is determined |
| IndexOrder.InIndexOrder | web-client/src/services/repositories/MessageRepository.ts:152-193 | Every set of records with distinct keys has an arrangement in index-key order holding exactly those records |
| IndexOrder.KeyLessTotal | web-client/src/services/repositories/MessageRepository.ts:152-193 | The compound index key (conversation, timestamp, key) orders any two distinct records |
| MessageRepository.Observe | web-client/src/services/repositories/MessageRepository.ts:25-30 | Adds the callback to the conversation's set only; the store and other sets are unchanged |
| MessageRepository.UnobserveUndoesObserve | web-client/src/services/repositories/MessageRepository.ts:25-35 | The returned unsubscribe function undoes `observe` for every conversation |
| MessageRepository.UnobserveAllUndoesObserveAll | web-client/src/services/repositories/MessageRepository.ts:42-48 | The returned unsubscribe function undoes `observeAll` |
| MessageRepository.NotifyListeners | web-client/src/services/repositories/MessageRepository.ts:53-80 | The conversation's callbacks are called, then the global ones, each once with the conversation; a throwing callback stops none of the others |
| MessageRepository.AffectedConversations | web-client/src/services/repositories/MessageRepository.ts:91-96 | Exactly the batch's conversations, each once |
| MessageRepository.ShouldUpdateExisting | web-client/src/services/repositories/MessageRepository.ts:126-147 | Only status and timestamp change. The status goes from pending to sent exactly when the incoming copy is sent, and never otherwise. The timestamp is replaced exactly when the stored one is within 5 seconds of now and the incoming one is not. The update flag is true exactly when something changed |
| MessageRepository.SaveAll | web-client/src/services/repositories/MessageRepository.ts:86-121 | An empty batch does nothing. Otherwise each message is inserted or merged through the update rule, and afterwards only the batch's conversations are notified |
| MessageRepository.SaveAllIsIdempotent | web-client/src/services/repositories/MessageRepository.ts:86-121 | Saving the same batch again at the same time leaves the store unchanged |
| MessageRepository.NewMessageStoredAsGiven | web-client/src/services/repositories/MessageRepository.ts:101-103 | A key new to the store that occurs once in the batch is stored exactly as given |
| MessageRepository.NoStatusRegression | web-client/src/services/repositories/MessageRepository.ts:126-147 | A stored status either stays or goes from pending to sent |
| MessageRepository.SaveAllNotifiesOncePerConversation | web-client/src/services/repositories/MessageRepository.ts:91-116 | After a non-empty batch each callback is called once for each affected conversation it listens to, and once more if it is global |
| MessageRepository.LimitNewest | web-client/src/services/repositories/MessageRepository.ts:185-187 | `slice(-limit)`: a suffix; the whole list for no limit, a zero limit or a short list; exactly `limit` records otherwise; for a negative limit the list minus its first records |
| MessageRepository.GetForConversation | web-client/src/services/repositories/MessageRepository.ts:152-193 | Fails with a DataError exactly for an empty or inverted range. Otherwise it returns records of the range in (timestamp, messageId) index order: all of them with no limit or a zero limit, the last `limit` for a positive limit, and all but the oldest `-limit` for a negative one. Every record of the range left out comes before every record returned in index order, so a tie in timestamp at the cut keeps the records with the later keys |
| MessageRepository.KeepsNewest | web-client/src/services/repositories/MessageRepository.ts:185-187 | A suffix of an index-ordered list is ordered and holds the newest records |
| MessageRepository.QueryIsIndexOrder | web-client/src/services/repositories/MessageRepository.ts:152-193 | Without a limit the query returns the one index-ordered arrangement of the range |
| MessageRepository.CountForConversation | web-client/src/services/repositories/MessageRepository.ts:198-205 | The number of stored records that belong to the conversation: zero exactly when there are none, and never more than the number of stored records |
| MessageRepository.CountAfterReplaceAll | web-client/src/services/repositories/MessageRepository.ts:198-205 | After the conversation is replaced by messages of that conversation with distinct keys, its count is the number of messages given |
| MessageRepository.QueryBoundedByCount | web-client/src/services/repositories/MessageRepository.ts:152-205 | A query returns at most the conversation's count |
| MessageRepository.UpdateStatus | web-client/src/services/repositories/MessageRepository.ts:211-232 | Only the status of the given key changes. Missing keys change nothing and notify nobody. A stored key with a conversation notifies that conversation; one with an empty conversation is updated without notification |
| MessageRepository.GetByTempId | web-client/src/services/repositories/MessageRepository.ts:267-274 | None exactly when no record has the temporary id; otherwise the stored record with the smallest key among those that have it |
| MessageRepository.UpdateMessageId | web-client/src/services/repositories/MessageRepository.ts:237-262 | An unknown temporary id changes nothing. Otherwise the found record is removed and stored again under the new key with status sent; no callback is notified |
| MessageRepository.Delete | web-client/src/services/repositories/MessageRepository.ts:279-290 | Removes exactly the given key |
| MessageRepository.ClearForConversation | web-client/src/services/repositories/MessageRepository.ts:330-351 | Removes every record of the conversation, keeps all others, and notifies the conversation |
| MessageRepository.Clear | web-client/src/services/repositories/MessageRepository.ts:356-367 | Leaves no record in any conversation and keeps the observers |
| MessageRepository.ReplaceAllForConversation | web-client/src/services/repositories/MessageRepository.ts:297-324 | Removes the conversation's records, then puts the new ones in order, and notifies the conversation |
| MessageRepository.ReplaceAllIsExact | web-client/src/services/repositories/MessageRepository.ts:297-324 | With distinct keys all in the conversation, afterwards the conversation holds exactly the new records |
| MessageRepository.PlaceholderIsConfirmed | web-client/src/services/repositories/MessageRepository.ts:86-121 | An optimistic placeholder saved and then confirmed is stored under the server id with status sent, and the temporary key is gone |
| Conversations.NormalizeJid | web-client/src/services/conversations.ts:12-14 | The key has no '/' and no upper-case letter, and agrees with the validating normaliser wherever that succeeds |
| Conversations.NormalizeIsIdempotent | web-client/src/services/conversations.ts:12-14 | Normalising a key again gives it back |
| Conversations.ContactIsOtherParty | web-client/src/services/conversations.ts:19-30 | A message from the owner's normalised address goes to its recipient; a message not from the owner goes to its sender |
| Conversations.CapitalisedOwnSender | web-client/src/services/conversations.ts:19-30 | A capitalised own sender "Me@x.org/phone" is not recognised, so the owner's own address becomes the contact |
| Conversations.FirstAppearances | web-client/src/services/conversations.ts:57-93 | The contacts of the batch, each once |
| Conversations.NewestOf | web-client/src/services/conversations.ts:81-90 | None exactly when the contact has no chat message. Otherwise the position of its newest message, the earliest among equal times |
| Conversations.GroupMessagesByContact | web-client/src/services/conversations.ts:57-93 | One entry per contact that has a chat message with text, each holding that contact's newest message |
| Conversations.InsertKeepsNewestFirst | web-client/src/services/conversations.ts:150-153 | Inserting into a newest-first list keeps it newest first |
| Conversations.SortNewestFirst | web-client/src/services/conversations.ts:150-153 | The result is newest first and has the length of the input |
| Conversations.SortIsStable | web-client/src/services/conversations.ts:150-153 | The sort is stable: for every time, the summaries with that time keep their input order |
| Conversations.SortIsPermutation | web-client/src/services/conversations.ts:150-153 | Sorting is a permutation |
| Conversations.SortKeepsNewestFirst | web-client/src/services/conversations.ts:150-153 | An already sorted list is returned unchanged, so the sort is stable on sorted input |
| Conversations.LoadFromServer | web-client/src/services/conversations.ts:99-161 | The next cursor is the page's. The list is complete unless the server said otherwise. The conversations are distinct and newest first, one per contact, each summarising the contact's newest message, unread 0 |
| Conversations.Put | web-client/src/services/conversations.ts:213-240 | `Map.set`: the key maps to the new value and every other key is unchanged; a new key is appended |
| Conversations.ReconcileRule | web-client/src/services/conversations.ts:213-240 | A stored conversation is kept unless the server has it. A new one is taken as is. A known one is replaced only by a strictly newer one, keeping the stored unread count |
| Conversations.Missing | web-client/src/services/conversations.ts:201-210 | Exactly the stored conversations the server no longer lists, each once |
| Conversations.Limited | web-client/src/services/conversations.ts:263 | `slice(0, limit)`: a prefix of length `limit` when that is shorter |
| Conversations.LoadConversations | web-client/src/services/conversations.ts:168-268 | Query from the last sync only when incremental, for 3 times the limit or 100. Prunes only when not incremental and removal is asked. Saves the reconciled list newest first, and returns the first `limit` |
| Conversations.LoadMore | web-client/src/services/conversations.ts:274-294 | Queries after the cursor for twice the limit. Saves the page. More remain exactly when the server is not complete and gave a non-empty cursor. Returns the first `limit` stored conversations |
| Conversations.EnrichWithRoster | web-client/src/services/conversations.ts:300-323 | Only display names change. A failed roster fetch changes nothing, and a conversation not in the roster is unchanged. The last roster entry with the conversation's key decides: a non-empty name replaces the display name, an empty one keeps it |
| Conversations.EnrichIsIdempotent | web-client/src/services/conversations.ts:300-323 | Decorating twice with the same roster is decorating once |
| Conversations.UpdateOnNewMessage | web-client/src/services/conversations.ts:328-363 | No update exactly when the contact is empty or the owner. Otherwise the contact, one unread unless own, the message's body, sender, time, and id or a fallback |
| Conversations.LiveAgreesWithArchive | web-client/src/services/conversations.ts:19-93 | For a live chat message with text and an id, the live update and the archive summary agree on the contact and the last message |
| SyncInitializer.FullSync | web-client/src/services/sync-initializer.ts:32-69 | Download first; vCards and roster only for a non-empty download; the metadata is written on success with the server cursor and no per-conversation cursors; on failure the metadata is untouched |
| SyncInitializer.FullSyncStoresDownload | web-client/src/services/sync-initializer.ts:39-57 | After a successful full sync every downloaded conversation is stored under its key, decorated by the roster |
| SyncInitializer.NewPage | web-client/src/services/sync-initializer.ts:98-116 | A page is used only for a conversation with a non-empty cursor whose fetch succeeded with messages |
| SyncInitializer.Refreshed | web-client/src/services/sync-initializer.ts:116-129 | The last message and update time come from the page's last message; nothing else changes; no page leaves the conversation alone |
| SyncInitializer.TokensAfterHit | web-client/src/services/sync-initializer.ts:131-141 | A conversation whose fetch returned a cursor ends with that cursor stored |
| SyncInitializer.TokensAfterMiss | web-client/src/services/sync-initializer.ts:131-141 | A conversation without a new cursor keeps its old one |
| SyncInitializer.FetchLogRule | web-client/src/services/sync-initializer.ts:96-114 | A fetch after cursor t for a conversation happens exactly when it is stored and t is its non-empty stored cursor |
| SyncInitializer.NoTokensNoFetches | web-client/src/services/sync-initializer.ts:61-66 | With the metadata a full sync writes, an incremental pass fetches nothing |
| SyncInitializer.IncrementalPass | web-client/src/services/sync-initializer.ts:95-148 | Every stored conversation is refreshed from its own page. The cursors are updated from the fetches. One progress report per conversation, and the fetches follow the cursor rule |
| SyncInitializer.IncrementalSync | web-client/src/services/sync-initializer.ts:74-154 | Without metadata or a server cursor, it is the full sync after one report. Otherwise it is the refresh pass, followed by the last-sync update, and cannot fail |
| SyncInitializer.InitialSync | web-client/src/services/sync-initializer.ts:160-185 | Reports the check, then the full sync for an empty store or the incremental one. Its state, effects and error are those of the full sync for an empty store or a missing global cursor, and otherwise those of the incremental pass: no error, one fetch per stored cursor, each conversation refreshed from its page, and the cursors recorded. Completion is reported exactly when there was no error, and then last |
| SyncInitializer.OlderPageStillOverwrites | web-client/src/services/sync-initializer.ts:116-129 | A fetched page older than the stored last message still replaces it |
| RealTimeMessaging.Resolve | web-client/src/services/real-time-messaging.ts:62-67 | An option left out defaults to on, one given as undefined is off, and one given is its value |
| RealTimeMessaging.NewService | web-client/src/services/real-time-messaging.ts:61-68 | The options resolve as above. There is no client, no handlers, and the service is not ready |
| RealTimeMessaging.Initialize | web-client/src/services/real-time-messaging.ts:73-94 | Re-initialising with the same client does nothing. Otherwise the client is stored and the listeners are attached to it, and the service is ready |
| RealTimeMessaging.Destroy | web-client/src/services/real-time-messaging.ts:99-110 | Detaches both listeners from a present client, clears all handlers and the client, and keeps the configuration |
| RealTimeMessaging.Subscribe | web-client/src/services/real-time-messaging.ts:319-348 | Adds the handler to its own registry only |
| RealTimeMessaging.UnsubscribeUndoesSubscribe | web-client/src/services/real-time-messaging.ts:319-348 | The returned function undoes the registration |
| RealTimeMessaging.Fanout | web-client/src/services/real-time-messaging.ts:183-198 | Every handler in order, then the configured callback, each given the same payload |
| RealTimeMessaging.ReceiptAnswer | web-client/src/services/real-time-messaging.ts:153-155 | A receipt is sent exactly when receipts are on and the message is a chat with an id that asks for one, addressed to the sender with the message id |
| RealTimeMessaging.Dispatch | web-client/src/services/real-time-messaging.ts:152-199 | The receipt answer comes first. A receipt goes to the receipt handlers unless its id is empty. A blank or non-chat message goes nowhere. Any other message goes to the message handlers |
| RealTimeMessaging.HandleInbound | web-client/src/services/real-time-messaging.ts:146-199 | Nothing happens without a client or a sender. An unnormalisable sender or own address throws before any effect; otherwise the message is dispatched |
| RealTimeMessaging.HandleChatState | web-client/src/services/real-time-messaging.ts:204-224 | An unnormalisable sender throws; otherwise every chat-state handler and the callback get the normalised sender and state |
| RealTimeMessaging.OnlyChatMessagesReachMessageHandlers | web-client/src/services/real-time-messaging.ts:158-180 | Receipts, blank messages and non-chat types never reach a message handler |
| RealTimeMessaging.UnsubscribedHandlerIsNotCalled | web-client/src/services/real-time-messaging.ts:319-348 | An unsubscribed message or receipt handler is never called |
| MessagingContext.ExtractContactJid | web-client/src/contexts/MessagingContext.tsx:23-34 | Fails when the owner's or the chosen address does not normalise. Otherwise it is the recipient when the sender starts with the owner's address, ignoring case, and the sender otherwise, normalised |
| MessagingContext.OwnMessageGoesToRecipient | web-client/src/contexts/MessagingContext.tsx:23-34 | However the owner's address is capitalised, an own message is filed under its recipient |
| MessagingContext.AgreesWithArchiveRule | web-client/src/contexts/MessagingContext.tsx:23-34 | For a lower-case sender the live rule and the archive rule pick the same contact |
| MessagingContext.ToRecord | web-client/src/contexts/MessagingContext.tsx:63-76 | The stored record takes the message id or a generated one, the contact, the body, and the delay stamp or now; it is mine exactly when the sender starts with the owner's address |
| MessagingContext.Plan | web-client/src/contexts/MessagingContext.tsx:79-104 | Save, update the conversation, raise unread only for a contact's message, reload, then each subscriber in order |
| MessagingContext.RunPlan | web-client/src/contexts/MessagingContext.tsx:61-107 | Runs a prefix of the plan. It stops at the first step that throws, reporting it caught, and runs all of the plan otherwise |
| MessagingContext.HandleMessage | web-client/src/contexts/MessagingContext.tsx:53-108 | An empty body is ignored. A contact that cannot be worked out is caught before any write. Otherwise the plan runs |
| MessagingContext.NotifiedOnlyAfterWrites | web-client/src/contexts/MessagingContext.tsx:79-104 | A subscriber is notified only after the save, the unread increment for a contact's message, and the reload |
| MessagingContext.MarkerRecord | web-client/src/contexts/MessagingContext.tsx:120-129 | The marker record has the generated key, the contact, an empty body, now, the contact as author, status sent, the kind, and the marked id |
| MessagingContext.HandleMarker | web-client/src/contexts/MessagingContext.tsx:111-164 | No marker id does nothing. An unnormalisable sender is caught with nothing saved. Otherwise one marker record is saved |
| MessagingContext.HandleMarkerEvent | web-client/src/contexts/MessagingContext.tsx:111-164 | As above, with the contact the normalised sender: the saved record is filed under the sender lower-cased without its resource |
| MessagingContext.SubscribeToMessages | web-client/src/contexts/MessagingContext.tsx:177-179 | Adds the callback and keeps the others in order |
| MessagingContext.UnsubscribeFromMessages | web-client/src/contexts/MessagingContext.tsx:181-183 | Removes exactly that callback |
| MessagingContext.SubscriberIsNotified | web-client/src/contexts/MessagingContext.tsx:101-104 | When nothing throws, a subscribed callback is told of the message |
| MessagingContext.UnsubscribedIsNotNotified | web-client/src/contexts/MessagingContext.tsx:177-184 | An unsubscribed callback is never told |
| SyncStatus.New | web-client/src/services/sync-status.ts:8-9 | A new service is not syncing and has no listener |
| SyncStatus.SetSyncing | web-client/src/services/sync-status.ts:15-20 | Stores the value. The same value calls nobody. A change calls every listener in order with the new value, whichever throw |
| SyncStatus.Subscribe | web-client/src/services/sync-status.ts:32-34 | Adds the listener once and keeps the flag |
| SyncStatus.Unsubscribe | web-client/src/services/sync-status.ts:35-38 | Removes exactly that listener |
| SyncStatus.ChangeReachesSubscriber | web-client/src/services/sync-status.ts:15-52 | A subscriber hears every change |
| SyncStatus.UnsubscribedIsNotCalled | web-client/src/services/sync-status.ts:32-52 | An unsubscribed listener is never called |
| SyncStatus.RunNotifiesOncePerChange | web-client/src/services/sync-status.ts:15-52 | Over any run of updates the flag ends at the last value, the listeners are kept, and each listener is called once per change of value |
| MessageItem.Priority | web-client/src/components/MessageItem.tsx:21-28 | Acknowledged 3, displayed 2, received 1, no kind 0 |
| MessageItem.FindLatestMarker | web-client/src/components/MessageItem.tsx:15-34 | None exactly when no record marks the message. Otherwise a marker of it that no other marker sorts before |
| MessageItem.FindLatestMarkerIsStable | web-client/src/components/MessageItem.tsx:29-33 | Ties keep list order: every earlier marker in the list sorts strictly after the chosen one |
| MessageItem.EffectiveStatus | web-client/src/components/MessageItem.tsx:75 | The chosen marker's kind wins over the stored status |
| MessageItem.Checkmarks | web-client/src/components/MessageItem.tsx:39-53 | Each of pending, displayed, acknowledged and failed has its own mark; every other text gets the single tick |
| MessageItem.Render | web-client/src/components/MessageItem.tsx:66-127 | A record with text is a bubble, with ticks from the effective status exactly on the owner's messages. A blank marker draws nothing. Any other blank record draws a placeholder |
| MessageItem.MarkerRecordsAreNotDrawn | web-client/src/components/MessageItem.tsx:104-106 | The records the marker handlers save are never drawn |
| MessageItem.AcknowledgedShowsBlue | web-client/src/components/MessageItem.tsx:15-95 | Once acknowledged, an own message shows the blue double tick |
| MessageItem.DisplayedShowsDouble | web-client/src/components/MessageItem.tsx:15-95 | Displayed and not acknowledged shows the grey double tick |
| ChatPage.LiveContact | web-client/src/pages/ChatPage.tsx:160-163 | The recipient's bare form when the sender's bare form is the owner's, the sender's otherwise; never with a '/' |
| ChatPage.OwnAddressIsExact | web-client/src/pages/ChatPage.tsx:160-163 | The owner's address with any resource is the owner, and a longer address sharing it as a prefix is not |
| ChatPage.OwnEchoMarksRead | web-client/src/pages/ChatPage.tsx:158-170 | An echo of the owner's message to the open contact marks the conversation read |
| ChatPage.CapitalisedOwnerIsOwn | web-client/src/pages/ChatPage.tsx:160-163 | A sender that spells the owner's bare address in any letter case, from any resource, is the owner, and its message is filed under the recipient |
| ChatPage.ExtendedAddressDisagrees | web-client/src/pages/ChatPage.tsx:160-163 | "a@b.cd" passes the messaging context's prefix test for owner "a@b.c", but the page treats it as the contact |
| ChatPage.HasDisplayedMarker | web-client/src/pages/ChatPage.tsx:193-197 | True exactly when some record is a displayed marker for the id |
| ChatPage.UnmarkedMessages | web-client/src/pages/ChatPage.tsx:187-199 | Exactly the contact's messages with text and no marker kind for which no displayed marker is stored |
| ChatPage.StoredMarkerStopsResending | web-client/src/pages/ChatPage.tsx:187-199 | Once the displayed marker record for a message is stored, the message is no longer selected |
| ChatPage.VisibleMessages | web-client/src/pages/ChatPage.tsx:332 | Exactly the records without a marker kind |
| ChatPage.EveryRowHasItsDay | web-client/src/pages/ChatPage.tsx:333-334 | Every drawn row lies under a date separator for its own day: some earlier or same row shows the date, and every row between is on that day |
| ChatPage.ContactName | web-client/src/pages/ChatPage.tsx:324-326 | Never empty. A non-empty display name wins. Otherwise the text before the first '@' if non-empty, else "Chat" |
| ChatPage.HandleSend | web-client/src/pages/ChatPage.tsx:287-315 | Nothing is sent while sending or for blank input. Otherwise the trimmed text is sent and the input cleared. A refusal or a throw restores the trimmed text, and only a throw shows an error |
| ChatPage.RetrySendsSameText | web-client/src/pages/ChatPage.tsx:287-315 | After a failed send, sending again sends the same text |

## Left out

- I/O, asynchrony and IndexedDB itself: every operation is one atomic step. Interleavings of concurrent calls are not modelled.
- MessageRepository.SaveAll: a rejected IndexedDB transaction has no failure outcome in the model. This also applies to UpdateStatus, ReplaceAllForConversation and Clear. Every transaction commits.
- SyncInitializer.SaveAll: the conversation store is not part of this model. Its `saveAll` is assumed to replace a stored conversation with the same key and to append a new one. `SaveAllStored` and `FullSyncStoresDownload` rest on that assumption.
- SyncInitializer.Refreshed: the conversation store's `update` is assumed to overwrite the stored conversation's `lastMessage` and `updatedAt` with the given values and keep its other fields. The store's implementation is not part of this model. `IncrementalSync`, `InitialSync` and `OlderPageStillOverwrites` rest on that assumption.
- SyncInitializer.FullSync: the metadata store is one record that `metadataRepo.save` replaces whole. The full sync's record has no `conversationTokens`, which the model writes as the empty map. `NoTokensNoFetches` applies to the full sync only through that reading.
- MessageRepository.ShouldUpdateExisting: one `now` per call, where the source reads the clock afresh for each message.
- Conversations.Time: one `now` for the whole batch, where the source calls `new Date()` for each message without a stamp. Server stamps arrive already parsed as numbers.
- Conversations.LoadConversations: `limit` is a natural number with 0 for "absent". A negative limit, which `slice(0, limit)` would treat as "drop the last n", is not modelled.
- Conversations.LoadMore: `limit` is a natural number as well. A negative limit, for `slice(0, limit)` and the query's `max`, is not modelled.
- RealTimeMessaging.IsValidChatMessage: an empty `type` is treated as absent. The source's `includes` check rejects `''` and accepts only `undefined`.
- IndexOrder.StrLess: keys compare by code point. IndexedDB compares UTF-16 code units, which order differently above U+FFFF.
- RealTimeMessaging.Initialize: the `await` on enabling carbons is not modelled. A call that interleaves between storing the client and attaching the listeners is not covered.
- Text.Lower: only ASCII letters are lower-cased. `toLowerCase` also maps other scripts.
- Progress texts, log lines and the message of each error are not modelled; only the phase, counters and error kinds are.
- The order in which the conversation store's `getAll` returns conversations is taken as given.
- `updateLastSync`, vCard fetching, roster fetching, reloads, `sendChatState`, `sendMessageWithReceipt` and `markDisplayed` are logged effects. Their content is not modelled.
- MessagingContext.HandleMarker: it takes the normalised sender as an argument. `HandleMarkerEvent` supplies it from the event's sender.
- Old-client listeners are not detached when `initialize` is given a different client, as in the source. The model records the new attachments only.
- ChatPage.EveryRowHasItsDay: `isSameDay` is a function `dayOf` from timestamps to day numbers. The local time zone is not modelled.
- The React state, effects and rendering markup of the pages and components are not modelled; only the pure selections they compute are.

## Findings

| source | as written | input that shows it | evidently intended | confidence | as-written member | corrected member |
|---|---|---|---|---|---|---|
| web-client/src/services/conversations.ts:19-30 | The owner is recognised by a case-sensitive prefix test of the raw sender against the lower-cased own address | sender "Me@x.org/phone", owner "me@x.org": the owner's own address becomes the contact | Compare the sender's lower-cased bare form with the owner's, as the chat page does | medium, not executed | Conversations.CapitalisedOwnSender | ChatPage.CapitalisedOwnerIsOwn |
| web-client/src/contexts/MessagingContext.tsx:23-34 | The owner is recognised when the lower-cased sender merely starts with the owner's bare address | sender "a@b.cd", owner "a@b.c": a contact's message is filed as the owner's, under its recipient | Equality of bare forms, as the chat page uses at ChatPage.tsx:160-163 | medium, not executed | ChatPage.ExtendedAddressDisagrees | ChatPage.OwnAddressIsExact |
| web-client/src/types/jid.ts:148-160 | `normalizeJID` validates only the text before '/' | "a@b.c /r" is a valid address but normalising it throws; "a@b.com/" is invalid but normalises | Normalise exactly the valid addresses, agreeing with the parsed bare form | low, not executed | Jid.NormalizeRejectsValidJid | Jid.NormalizeValidFollowsValidity |

Three more places do less than the source's own comments announce. The model follows the code, and the code gives no value from which a corrected form could be built, so each is stated as a property of the code as written.

- sync-initializer.ts:72 describes the incremental sync as downloading only the messages after the stored cursor. A full sync, however, writes metadata without per-conversation cursors (sync-initializer.ts:61-66), and the only code that writes one is the incremental pass itself, for a conversation that already has one (l.98-141). So after a full sync the incremental pass fetches nothing (`SyncInitializer.NoTokensNoFetches`).
- MessageRepository.ts:84, 209, 295 and 328 announce a listener notification after each write of the message store. `updateMessageId` (MessageRepository.ts:234-262) re-keys a record and notifies no one (`MessageRepository.UpdateMessageId`).
- sync-initializer.ts:119 says the conversation's last message is updated "if necessary", but the update at l.120-128 has no condition. The pass overwrites the last message even with an older one (`SyncInitializer.OlderPageStillOverwrites`).

=== FILE: chat_page.dfy ===
/** The pure decisions of the chat page: which live messages belong to the
    open conversation, which received messages still need a displayed marker
    (XEP-0333), which records are drawn and where a date separator goes, the
    title, and the guard and input handling of the send button. */
module ChatPage {
  import opened Wrappers
  import opened Text
  import opened Records
  import Conversations
  import MessagingContext
  import MessageItem

  // ------------------------------------------------------------ live messages

  /** `x.split('/')[0].toLowerCase()`, with `''` for an absent address. This
      is the non-validating normaliser of the conversation list. */
  function Bare(s: string): (r: string)
    ensures '/' !in r
  {
    Conversations.NormalizeJid(s)
  }

  /** The page's own-message test: the sender's bare address EQUALS the
      owner's, letter case aside. */
  predicate IsOwnAddress(from: string, myJid: string) {
    Bare(from) == Bare(myJid)
  }

  /** The other party of a live message, as the page's subscriber computes it. */
  function LiveContact(m: MessagingContext.Stanza, myJid: string): (r: string)
    ensures IsOwnAddress(m.from, myJid) ==> r == Bare(m.to)
    ensures !IsOwnAddress(m.from, myJid) ==> r == Bare(m.from)
    ensures '/' !in r
  {
    if Bare(m.from) == Bare(myJid) then Bare(m.to) else Bare(m.from)
  }

  /** The subscriber marks the open conversation `jid` read exactly when the
      live message's contact is `jid.toLowerCase()`. */
  predicate MarksAsRead(m: MessagingContext.Stanza, myJid: string, jid: string) {
    LiveContact(m, myJid) == Lower(jid)
  }

  /** Any resource of the owner and any spelling of the owner's address is
      the owner; an address that merely begins with the owner's is not. */
  lemma OwnAddressIsExact(myJid: string, resource: string, other: string)
    requires '/' !in Bare(myJid) + other && other != []
    ensures IsOwnAddress(Bare(myJid) + "/" + resource, myJid)
    ensures !IsOwnAddress(Bare(myJid) + other, myJid)
  {
    var me := Bare(myJid);
    BeforeOfConcat(me, '/', resource);
    assert me + "/" + resource == me + ['/'] + resource;
    LowerOfLowerCase(me);
    Conversations.NormalizeIsIdempotent(myJid);
    BeforeOfFree(me + other, '/');
    assert |Bare(me + other)| == |me + other| > |me|;
  }

  /** A message the owner wrote from another device, in the open
      conversation, marks that conversation read. */
  lemma OwnEchoMarksRead(myJid: string, resource: string, to: string, id: string, body: string)
    requires '/' !in Bare(myJid)
    ensures MarksAsRead(MessagingContext.Stanza(id, Bare(myJid) + "/" + resource, to, body, None), myJid, Bare(to))
  {
    OwnAddressIsExact(myJid, resource, "x");
    Conversations.NormalizeIsIdempotent(to);
    LowerOfLowerCase(Bare(to));
  }

  /** A sender that spells the owner's bare address in any letter case,
      from any resource, is the owner, and the message belongs to its
      recipient. */
  lemma CapitalisedOwnerIsOwn(spelled: string, resource: string, myJid: string, m: MessagingContext.Stanza)
    requires '/' !in spelled && Lower(spelled) == Bare(myJid)
    requires m.from == spelled + "/" + resource
    ensures IsOwnAddress(spelled, myJid)
    ensures IsOwnAddress(m.from, myJid)
    ensures LiveContact(m, myJid) == Bare(m.to)
  {
    BeforeOfConcat(spelled, '/', resource);
    assert spelled + "/" + resource == spelled + ['/'] + resource;
    BeforeOfFree(spelled, '/');
  }

  /** The messaging context's prefix test takes an address that extends the
      owner's for the owner, while the page's equality test does not: the two
      disagree about which conversation such a message belongs to. */
  lemma ExtendedAddressDisagrees()
    ensures MessagingContext.SentByMe("a@b.cd", "a@b.c")
    ensures !IsOwnAddress("a@b.cd", "a@b.c")
    ensures LiveContact(MessagingContext.Stanza("1", "a@b.cd", "a@b.c", "hi", None), "a@b.c") == "a@b.cd"
  {
    LowerOfLowerCase("a@b.cd");
    LowerOfLowerCase("a@b.c");
    assert "a@b.c" <= "a@b.cd";
    BeforeOfFree("a@b.cd", '/');
    BeforeOfFree("a@b.c", '/');
  }

  // ------------------------------------------------------------ displayed markers

  /** `messages.some(m => m.markerType === 'displayed' && m.markerFor === id)` */
  function HasDisplayedMarker(messages: seq<Message>, id: string): (b: bool)
    ensures b <==> exists k :: 0 <= k < |messages| && messages[k].markerType == Some(DisplayedMarker) && messages[k].markerFor == Some(id)
    decreases |messages|
  {
    if |messages| == 0 then false
    else
      var rest := HasDisplayedMarker(messages[1..], id);
      assert forall k :: 1 <= k < |messages| ==> messages[k] == messages[1..][k - 1];
      (messages[0].markerType == Some(DisplayedMarker) && messages[0].markerFor == Some(id)) || rest
  }

  /** The filter of `unmarkedMessages`: from the contact, with a body, not a
      marker, and no displayed marker in the list names it. */
  predicate NeedsDisplayedMarker(msg: Message, messages: seq<Message>) {
    msg.from == Them && msg.body != "" && msg.markerType.None? && !HasDisplayedMarker(messages, msg.messageId)
  }

  /** The elements of `candidates` that pass the filter against `messages`, in order. */
  function Unmarked(candidates: seq<Message>, messages: seq<Message>): (r: seq<Message>)
    ensures |r| <= |candidates|
    ensures forall m :: m in r <==> m in candidates && NeedsDisplayedMarker(m, messages)
    decreases |candidates|
  {
    if |candidates| == 0 then []
    else
      var rest := Unmarked(candidates[1..], messages);
      assert forall m :: m in candidates <==> m == candidates[0] || m in candidates[1..];
      if NeedsDisplayedMarker(candidates[0], messages) then [candidates[0]] + rest else rest
  }

  /** `unmarkedMessages`: the received messages a displayed marker is sent
      for, each time the list changes. */
  function UnmarkedMessages(messages: seq<Message>): (r: seq<Message>)
    ensures |r| <= |messages|
    ensures forall m :: m in r <==> (&& m in messages && m.from == Them && m.body != "" && m.markerType.None?
                                     && !exists k :: 0 <= k < |messages| && messages[k].markerType == Some(DisplayedMarker)
                                                                         && messages[k].markerFor == Some(m.messageId))
  {
    Unmarked(messages, messages)
  }

  /** A displayed-marker record saved by the messaging context for a
      message's id takes that message out of the list. */
  lemma StoredMarkerStopsResending(messages: seq<Message>, msg: Message, contact: string, now: int, generatedId: string)
    ensures msg !in UnmarkedMessages(messages + [MessagingContext.MarkerRecord(DisplayedMarker, contact, msg.messageId, now, generatedId)])
  {
    var x := MessagingContext.MarkerRecord(DisplayedMarker, contact, msg.messageId, now, generatedId);
    var ms := messages + [x];
    assert ms[|messages|] == x;
  }

  // ------------------------------------------------------------ drawing the list

  /** `visibleMessages`: the records without a marker kind, in order. */
  function VisibleMessages(messages: seq<Message>): (r: seq<Message>)
    ensures |r| <= |messages|
    ensures forall m :: m in r <==> m in messages && m.markerType.None?
    decreases |messages|
  {
    if |messages| == 0 then []
    else
      var rest := VisibleMessages(messages[1..]);
      assert forall m :: m in messages <==> m == messages[0] || m in messages[1..];
      if messages[0].markerType.None? then [messages[0]] + rest else rest
  }

  /** Nothing in the visible list is a record `MessageItem` would draw as nothing. */
  lemma VisibleAreDrawn(messages: seq<Message>, m: Message)
    requires m in VisibleMessages(messages)
    ensures MessageItem.Render(m, messages) != MessageItem.Nothing
  {
  }

  /** `showDate` of row `i`: the first row, and every row whose local
      calendar day (`dayOf`, which depends on the time zone) differs from the
      previous row's. */
  predicate ShowDate(visible: seq<Message>, dayOf: int -> int, i: nat)
    requires i < |visible|
  {
    i == 0 || dayOf(visible[i - 1].timestamp) != dayOf(visible[i].timestamp)
  }

  /** The rows `j..i` all fall on the day of row `i`, and only row `j` shows a date. */
  predicate IntroducedAt(visible: seq<Message>, dayOf: int -> int, j: nat, i: nat)
    requires j <= i < |visible|
  {
    && ShowDate(visible, dayOf, j)
    && (forall k :: j <= k <= i ==> dayOf(visible[k].timestamp) == dayOf(visible[i].timestamp))
    && (forall k :: j < k <= i ==> !ShowDate(visible, dayOf, k))
  }

  /** Every row is introduced by a separator showing its own day: the
      nearest row at or above it that shows a date is of the same day, and
      all rows in between share that day. */
  lemma {:induction false} EveryRowHasItsDay(visible: seq<Message>, dayOf: int -> int, i: nat)
    requires i < |visible|
    ensures exists j: nat :: j <= i && IntroducedAt(visible, dayOf, j, i)
  {
    if !ShowDate(visible, dayOf, i) {
      EveryRowHasItsDay(visible, dayOf, i - 1);
      var j: nat :| j <= i - 1 && IntroducedAt(visible, dayOf, j, i - 1);
      assert IntroducedAt(visible, dayOf, j, i);
    } else {
      assert IntroducedAt(visible, dayOf, i, i);
    }
  }

  // ------------------------------------------------------------ title and sending

  /** `getContactName`: the stored display name, else the text before the
      first '@' of the address, else "Chat"; an empty name counts as none. */
  function ContactName(displayName: Option<string>, jid: string): (r: string)
    ensures r != []
    ensures displayName.Some? && displayName.value != [] ==> r == displayName.value
    ensures !(displayName.Some? && displayName.value != []) && Before(jid, '@') == [] ==> r == "Chat"
    ensures !(displayName.Some? && displayName.value != []) && Before(jid, '@') != [] ==>
              (&& r <= jid && '@' !in r
               && (|r| == |jid| || jid[|r|] == '@'))
  {
    if displayName.Some? && displayName.value != [] then displayName.value
    else if Before(jid, '@') != [] then Before(jid, '@')
    else "Chat"
  }

  /** How the awaited send ended: a result with `success`, one without, or
      an exception. */
  datatype SendOutcome = Delivered | Refused | Threw

  /** What `handleSend` did: the text it sent, if any, the input box
      afterwards, whether this call raised the send error, and whether it is
      still sending. A call that returns early leaves any earlier error on
      screen; `error` is false for it. */
  datatype SendRun = SendRun(sent: Option<string>, input: string, error: bool, sending: bool)

  /** `handleSend`: nothing happens while a send is running or when the input
      is blank; otherwise the trimmed text is sent, the box is cleared, and
      the trimmed text is put back if the send was refused or threw (with an
      error message for a throw). The sending flag is down afterwards. */
  function HandleSend(input: string, sending: bool, outcome: SendOutcome): (r: SendRun)
    ensures r.sent.None? <==> sending || IsBlank(input)
    ensures r.sent.None? ==> r.input == input && r.sending == sending && !r.error
    ensures r.sent.Some? ==> r.sent.value == Trim(input) && !IsBlank(r.sent.value) && !r.sending
    ensures r.sent.Some? ==> (r.input == [] <==> outcome == Delivered)
    ensures r.sent.Some? && outcome != Delivered ==> r.input == r.sent.value
    ensures r.error <==> r.sent.Some? && outcome == Threw
  {
    if IsBlank(input) || sending then SendRun(None, input, false, sending)
    else
      var text := Trim(input);
      TrimIsIdempotent(input);
      match outcome
      case Delivered => SendRun(Some(text), [], false, false)
      case Refused => SendRun(Some(text), text, false, false)
      case Threw => SendRun(Some(text), text, true, false)
  }

  /** A failed send loses only the surrounding whitespace: pressing send
      again sends the same text. */
  lemma RetrySendsSameText(input: string, first: SendOutcome, second: SendOutcome)
    requires HandleSend(input, false, first).sent.Some? && first != Delivered
    ensures HandleSend(HandleSend(input, false, first).input, false, second).sent
            == HandleSend(input, false, first).sent
  {
    TrimIsIdempotent(input);
  }
}

=== FILE: conversations.dfy ===
/** The conversation list's reconciliation with the server archive: grouping
    archived messages by contact, turning each contact's newest message into a
    conversation summary, merging those summaries into the stored ones, adding
    roster names, and the summary update for a live message. Calls to the
    server are replaced by their answers, passed in; writes to the
    conversation store are returned as values. */
module Conversations {
  import opened Wrappers
  import opened Text
  import opened Records
  import opened Listeners
  import Jid

  // ------------------------------------------------------------ addresses

  /** `normalizeJid`: the text before the first '/', lower-cased. Unlike the
      validating normaliser it accepts any text; where that one accepts, the
      two agree. */
  function NormalizeJid(jid: string): (r: string)
    ensures '/' !in r && |r| <= |jid|
    ensures Jid.NoAsciiUpper(r)
    ensures Jid.NormalizeJid(jid).Success? ==> Jid.NormalizeJid(jid).value == r
  {
    var b := Before(jid, '/');
    LowerKeepsOthers(b, '/');
    LowerIsIdempotent(b);
    Lower(b)
  }

  lemma NormalizeIsIdempotent(jid: string)
    ensures NormalizeJid(NormalizeJid(jid)) == NormalizeJid(jid)
  {
    var r := NormalizeJid(jid);
    BeforeOfFree(r, '/');
    LowerOfLowerCase(r);
  }

  /** A message was sent by the account owner: its raw sender starts with the
      owner's normalised address. The test is case-sensitive. */
  predicate IsOwn(from: string, myJid: string) {
    StartsWith(from, NormalizeJid(myJid))
  }

  /** `extractContactJid`: the other party of a message. */
  function ExtractContactJid(from: string, to: string, myJid: string): (r: string)
    ensures '/' !in r && Jid.NoAsciiUpper(r)
  {
    if IsOwn(from, myJid) then NormalizeJid(to) else NormalizeJid(from)
  }

  /** A message sent from any of the owner's resources is filed under its
      recipient; any other message under its sender. */
  lemma ContactIsOtherParty(myJid: string, resource: string, from: string, to: string)
    ensures ExtractContactJid(NormalizeJid(myJid) + resource, to, myJid) == NormalizeJid(to)
    ensures !IsOwn(from, myJid) ==> ExtractContactJid(from, to, myJid) == NormalizeJid(from)
  {
    assert StartsWith(NormalizeJid(myJid) + resource, NormalizeJid(myJid));
  }

  /** The prefix test is case-sensitive while the owner's address is
      lower-cased: a message whose sender spells the owner's address with a
      capital letter is taken for an incoming one, and its contact is the
      owner. */
  lemma CapitalisedOwnSender()
    ensures !IsOwn("Me@x.org/phone", "me@x.org")
    ensures ExtractContactJid("Me@x.org/phone", "bob@x.org", "me@x.org") == NormalizeJid("me@x.org")
  {
    assert "Me@x.org/phone"[0] != "me@x.org"[0];
    assert Before("Me@x.org/phone", '/') == "Me@x.org" by {
      BeforeOfConcat("Me@x.org", '/', "phone");
      assert "Me@x.org" + ['/'] + "phone" == "Me@x.org/phone";
    }
    BeforeOfFree("me@x.org", '/');
  }

  // ------------------------------------------------------ archive grouping

  /** One result of an archive query (XEP-0313): the archive id and the fields
      of the archived stanza the reconciliation reads. Absent text is the
      empty string; `stamp` is the delay stamp, already parsed. */
  datatype ArchivedMessage = ArchivedMessage(
    id: string, from: string, to: string, body: string, kind: string, stamp: Option<int>)

  /** `extractTimestamp`: the delay stamp when there is one, else now. */
  function Time(m: ArchivedMessage, now: int): int {
    if m.stamp.Some? then m.stamp.value else now
  }

  /** A one-to-one chat message with text: type absent or 'chat', and a body
      that is not blank. */
  predicate IsChatWithText(m: ArchivedMessage) {
    (m.kind == "" || m.kind == "chat") && !IsBlank(m.body)
  }

  function ContactOf(m: ArchivedMessage, myJid: string): string {
    ExtractContactJid(m.from, m.to, myJid)
  }

  /** The contact the grouping files `m` under, or None when it drops `m`:
      not a chat message with text, no contact, or the owner. */
  function KeyOf(m: ArchivedMessage, myJid: string): Option<string> {
    var c := ContactOf(m, myJid);
    if IsChatWithText(m) && c != "" && c != NormalizeJid(myJid) then Some(c) else None
  }

  /** The keys of a page of results, one per result. */
  function Keys(ms: seq<ArchivedMessage>, myJid: string): (r: seq<Option<string>>)
    ensures |r| == |ms|
  {
    if |ms| == 0 then [] else [KeyOf(ms[0], myJid)] + Keys(ms[1..], myJid)
  }

  lemma {:induction false} KeysAt(ms: seq<ArchivedMessage>, myJid: string, i: nat)
    requires i < |ms|
    ensures Keys(ms, myJid)[i] == KeyOf(ms[i], myJid)
    decreases i
  {
    if i > 0 {
      KeysAt(ms[1..], myJid, i - 1);
    }
  }

  function Times(ms: seq<ArchivedMessage>, now: int): (r: seq<int>)
    ensures |r| == |ms| && forall i :: 0 <= i < |ms| ==> r[i] == Time(ms[i], now)
  {
    seq(|ms|, i requires 0 <= i < |ms| => Time(ms[i], now))
  }

  /** The contacts of `keys`, in order of first appearance (the key order of
      the grouping `Map`). */
  function FirstAppearances(keys: seq<Option<string>>): (r: seq<string>)
    ensures NoDuplicates(r)
    ensures forall c :: c in r <==> Some(c) in keys
    decreases |keys|
  {
    if |keys| == 0 then []
    else
      var init := keys[..|keys| - 1];
      var rest := FirstAppearances(init);
      var k := keys[|keys| - 1];
      assert keys == init + [k];
      if k.Some? && k.value !in rest then
        assert forall x :: x in rest + [k.value] <==> x in rest || x == k.value;
        rest + [k.value]
      else rest
  }

  /** Position `k` holds what the grouping keeps for contact `c`: a message of
      `c` with the greatest timestamp, and the first such in archive order
      (the sort is stable and its first element is taken). */
  predicate IsNewestAt(keys: seq<Option<string>>, times: seq<int>, k: int, c: string)
    requires |keys| == |times|
  {
    0 <= k < |keys| && keys[k] == Some(c)
    && (forall i :: 0 <= i < |keys| && keys[i] == Some(c) ==> times[i] <= times[k])
    && (forall i :: 0 <= i < k && keys[i] == Some(c) ==> times[i] < times[k])
  }

  /** The position of the message kept for contact `c`, if it has any. */
  function NewestOf(keys: seq<Option<string>>, times: seq<int>, c: string): (r: Option<nat>)
    requires |keys| == |times|
    ensures r.None? <==> Some(c) !in keys
    ensures r.Some? ==> IsNewestAt(keys, times, r.value, c)
    decreases |keys|
  {
    if |keys| == 0 then None
    else
      var tail := NewestOf(keys[1..], times[1..], c);
      assert forall i :: 1 <= i < |keys| ==> keys[i] == keys[1..][i - 1] && times[i] == times[1..][i - 1];
      assert keys == [keys[0]] + keys[1..];
      if tail.None? then
        if keys[0] == Some(c) then Some(0) else None
      else if keys[0] != Some(c) || times[1 + tail.value] > times[0] then
        Some(1 + tail.value)
      else Some(0)
  }

  /** A contact and the archived message kept for it. */
  datatype Latest = Latest(contact: string, message: ArchivedMessage)

  function LatestFor(ms: seq<ArchivedMessage>, keys: seq<Option<string>>, times: seq<int>, cs: seq<string>): (r: seq<Latest>)
    requires |keys| == |times| == |ms|
    requires forall c :: c in cs ==> Some(c) in keys
    ensures |r| == |cs|
    ensures forall i :: 0 <= i < |r| ==> r[i].contact == cs[i]
    ensures forall i :: 0 <= i < |r| ==>
      NewestOf(keys, times, cs[i]).Some? && r[i].message == ms[NewestOf(keys, times, cs[i]).value]
  {
    seq(|cs|, i requires 0 <= i < |cs| => Latest(cs[i], ms[NewestOf(keys, times, cs[i]).value]))
  }

  /** The grouping over precomputed keys and times. */
  method GroupBy(ms: seq<ArchivedMessage>, keys: seq<Option<string>>, times: seq<int>) returns (r: seq<Latest>)
    requires |keys| == |times| == |ms|
    ensures NoDuplicates(ContactsOf(r))
    ensures forall c :: c in ContactsOf(r) <==> Some(c) in keys
    ensures forall i :: 0 <= i < |r| ==> exists k :: IsNewestAt(keys, times, k, r[i].contact) && r[i].message == ms[k]
  {
    var cs := FirstAppearances(keys);
    r := LatestFor(ms, keys, times, cs);
    var names := ContactsOf(r);
    assert |names| == |cs| && forall i :: 0 <= i < |cs| ==> names[i] == cs[i];
    assert names == cs;
    forall i | 0 <= i < |r| ensures exists k :: IsNewestAt(keys, times, k, r[i].contact) && r[i].message == ms[k] {
      var k := NewestOf(keys, times, cs[i]).value;
      assert IsNewestAt(keys, times, k, r[i].contact) && r[i].message == ms[k];
    }
  }

  /** `groupMessagesByContact`: one entry per contact of a kept message, in
      order of first appearance, holding that contact's newest message. */
  method GroupMessagesByContact(ms: seq<ArchivedMessage>, myJid: string, now: int) returns (r: seq<Latest>)
    ensures NoDuplicates(ContactsOf(r))
    ensures forall c :: c in ContactsOf(r) <==> Some(c) in Keys(ms, myJid)
    ensures forall i :: 0 <= i < |r| ==>
      exists k :: IsNewestAt(Keys(ms, myJid), Times(ms, now), k, r[i].contact) && r[i].message == ms[k]
  {
    r := GroupBy(ms, Keys(ms, myJid), Times(ms, now));
  }

  function ContactsOf(es: seq<Latest>): (r: seq<string>)
    ensures |r| == |es| && forall i :: 0 <= i < |es| ==> r[i] == es[i].contact
  {
    seq(|es|, i requires 0 <= i < |es| => es[i].contact)
  }

  // ------------------------------------------------ summaries from the archive

  function Jids(s: seq<Conversation>): (r: seq<string>)
    ensures |r| == |s| && forall i :: 0 <= i < |s| ==> r[i] == s[i].jid
  {
    seq(|s|, i requires 0 <= i < |s| => s[i].jid)
  }

  /** At most one summary per contact, as in a store keyed by `jid`. */
  predicate DistinctJids(s: seq<Conversation>) {
    forall i, j :: 0 <= i < j < |s| ==> s[i].jid != s[j].jid
  }

  /** Newest first: the last-message timestamps never increase along the list. */
  predicate NewestFirst(s: seq<Conversation>) {
    forall i, j :: 0 <= i < j < |s| ==> s[i].lastMessage.timestamp >= s[j].lastMessage.timestamp
  }

  /** Puts `c`, which came before every element of `s`, in front of the
      first element that is not newer than it. */
  function InsertByTime(c: Conversation, s: seq<Conversation>): (r: seq<Conversation>)
    ensures |r| == |s| + 1
    decreases |s|
  {
    if |s| == 0 || s[0].lastMessage.timestamp <= c.lastMessage.timestamp then
      [c] + s
    else
      assert s == [s[0]] + s[1..];
      [s[0]] + InsertByTime(c, s[1..])
  }

  /** Inserting adds `c` and nothing else. */
  lemma {:induction false} InsertMembers(c: Conversation, s: seq<Conversation>)
    ensures multiset(InsertByTime(c, s)) == multiset(s) + multiset{c}
    ensures forall x :: x in InsertByTime(c, s) <==> x == c || x in s
    decreases |s|
  {
    if |s| > 0 && s[0].lastMessage.timestamp > c.lastMessage.timestamp {
      InsertMembers(c, s[1..]);
      assert s == [s[0]] + s[1..];
    }
  }

  lemma {:induction false} InsertKeepsNewestFirst(c: Conversation, s: seq<Conversation>)
    requires NewestFirst(s)
    ensures NewestFirst(InsertByTime(c, s))
    decreases |s|
  {
    if |s| > 0 && s[0].lastMessage.timestamp > c.lastMessage.timestamp {
      var t := s[1..];
      NewestTail(s);
      InsertKeepsNewestFirst(c, t);
      InsertMembers(c, t);
      NewestCons(s[0], InsertByTime(c, t));
    }
  }

  lemma {:induction false} InsertKeepsDistinct(c: Conversation, s: seq<Conversation>)
    requires DistinctJids(s)
    requires forall x :: x in s ==> x.jid != c.jid
    ensures DistinctJids(InsertByTime(c, s))
    decreases |s|
  {
    if |s| > 0 && s[0].lastMessage.timestamp > c.lastMessage.timestamp {
      var t := s[1..];
      DistinctTail(s);
      assert s[0] in s;
      InsertKeepsDistinct(c, t);
      InsertMembers(c, t);
      DistinctCons(s[0], InsertByTime(c, t));
    }
  }

  lemma NewestTail(s: seq<Conversation>)
    requires |s| > 0 && NewestFirst(s)
    ensures NewestFirst(s[1..])
    ensures forall x :: x in s[1..] ==> x in s && x.lastMessage.timestamp <= s[0].lastMessage.timestamp
  {
    var t := s[1..];
    forall i, j | 0 <= i < j < |t| ensures t[i].lastMessage.timestamp >= t[j].lastMessage.timestamp {
      assert t[i] == s[i + 1] && t[j] == s[j + 1];
    }
    forall x | x in t ensures x in s && x.lastMessage.timestamp <= s[0].lastMessage.timestamp {
      var k :| 0 <= k < |t| && t[k] == x;
      assert s[k + 1] == x;
    }
  }

  lemma NewestCons(h: Conversation, t: seq<Conversation>)
    requires NewestFirst(t)
    requires forall x :: x in t ==> x.lastMessage.timestamp <= h.lastMessage.timestamp
    ensures NewestFirst([h] + t)
  {
    var r := [h] + t;
    forall i, j | 0 <= i < j < |r| ensures r[i].lastMessage.timestamp >= r[j].lastMessage.timestamp {
      assert r[j] == t[j - 1] && t[j - 1] in t;
      if i > 0 {
        assert r[i] == t[i - 1];
      }
    }
  }

  lemma DistinctTail(s: seq<Conversation>)
    requires |s| > 0 && DistinctJids(s)
    ensures DistinctJids(s[1..])
    ensures forall x :: x in s[1..] ==> x in s && x.jid != s[0].jid
  {
    var t := s[1..];
    forall i, j | 0 <= i < j < |t| ensures t[i].jid != t[j].jid {
      assert t[i] == s[i + 1] && t[j] == s[j + 1];
    }
    forall x | x in t ensures x in s && x.jid != s[0].jid {
      var k :| 0 <= k < |t| && t[k] == x;
      assert s[k + 1] == x;
    }
  }

  lemma DistinctCons(h: Conversation, t: seq<Conversation>)
    requires DistinctJids(t)
    requires forall x :: x in t ==> x.jid != h.jid
    ensures DistinctJids([h] + t)
  {
    var r := [h] + t;
    forall i, j | 0 <= i < j < |r| ensures r[i].jid != r[j].jid {
      assert r[j] == t[j - 1] && t[j - 1] in t;
      if i > 0 {
        assert r[i] == t[i - 1];
      }
    }
  }

  /** The order `Array.prototype.sort` gives with the comparator
      `b.timestamp - a.timestamp`: newest first, and stable, so summaries with
      equal timestamps keep their relative order (`SortIsStable`). */
  function SortNewestFirst(s: seq<Conversation>): (r: seq<Conversation>)
    ensures |r| == |s|
    ensures NewestFirst(r)
    decreases |s|
  {
    if |s| == 0 then []
    else
      var rest := SortNewestFirst(s[1..]);
      assert s == [s[0]] + s[1..];
      InsertKeepsNewestFirst(s[0], rest);
      InsertByTime(s[0], rest)
  }

  /** Sorting neither loses nor invents a summary, and keeps contacts distinct. */
  lemma {:induction false} SortIsPermutation(s: seq<Conversation>)
    ensures multiset(SortNewestFirst(s)) == multiset(s)
    ensures forall x :: x in SortNewestFirst(s) <==> x in s
    decreases |s|
  {
    if |s| > 0 {
      var t := s[1..];
      assert s == [s[0]] + t;
      SortIsPermutation(t);
      InsertMembers(s[0], SortNewestFirst(t));
    }
  }

  lemma {:induction false} SortKeepsDistinct(s: seq<Conversation>)
    requires DistinctJids(s)
    ensures DistinctJids(SortNewestFirst(s))
    decreases |s|
  {
    if |s| > 0 {
      var t := s[1..];
      DistinctTail(s);
      SortKeepsDistinct(t);
      SortIsPermutation(t);
      InsertKeepsDistinct(s[0], SortNewestFirst(t));
    }
  }

  /** A list that is already newest first is left exactly as it is, so
      sorting twice is sorting once. */
  lemma {:induction false} SortKeepsNewestFirst(s: seq<Conversation>)
    requires NewestFirst(s)
    ensures SortNewestFirst(s) == s
    decreases |s|
  {
    if |s| > 0 {
      var t := s[1..];
      NewestTail(s);
      SortKeepsNewestFirst(t);
      assert |t| == 0 || t[0] in t;
      InsertInFront(s[0], t);
      assert s == [s[0]] + t;
    }
  }

  lemma InsertInFront(c: Conversation, s: seq<Conversation>)
    requires |s| == 0 || s[0].lastMessage.timestamp <= c.lastMessage.timestamp
    ensures InsertByTime(c, s) == [c] + s
  {
  }

  /** The summaries of `s` whose last message has time `t`, in order. */
  function AtTime(s: seq<Conversation>, t: int): seq<Conversation>
    decreases |s|
  {
    if |s| == 0 then []
    else
      (if s[0].lastMessage.timestamp == t then [s[0]] else []) + AtTime(s[1..], t)
  }

  /** Inserting `c` puts it in front of every summary with its own time. */
  lemma {:induction false} InsertIsStable(c: Conversation, s: seq<Conversation>, t: int)
    ensures AtTime(InsertByTime(c, s), t) ==
      (if c.lastMessage.timestamp == t then [c] else []) + AtTime(s, t)
    decreases |s|
  {
    var head := if c.lastMessage.timestamp == t then [c] else [];
    if |s| == 0 || s[0].lastMessage.timestamp <= c.lastMessage.timestamp {
      assert ([c] + s)[1..] == s;
      assert AtTime([c] + s, t) == head + AtTime(s, t);
    } else {
      var rest := InsertByTime(c, s[1..]);
      var r := [s[0]] + rest;
      assert r[1..] == rest;
      InsertIsStable(c, s[1..], t);
      assert AtTime(r, t) == (if s[0].lastMessage.timestamp == t then [s[0]] else []) + AtTime(rest, t);
      assert s[0].lastMessage.timestamp == t ==> head == [];
    }
  }

  /** The sort is stable: for every time, the summaries with that time come
      out in the order they went in. */
  lemma {:induction false} SortIsStable(s: seq<Conversation>, t: int)
    ensures AtTime(SortNewestFirst(s), t) == AtTime(s, t)
    decreases |s|
  {
    if |s| > 0 {
      SortIsStable(s[1..], t);
      InsertIsStable(s[0], SortNewestFirst(s[1..]), t);
    }
  }

  /** The summary built for a contact's newest archived message: not unread,
      stamped now, and sent by the owner iff the raw sender starts with the
      owner's address. */
  function Summarize(e: Latest, myJid: string, now: int): Conversation {
    Conversation(e.contact, None, SummaryOf(e.message, myJid, now), 0, now)
  }

  function SummaryOf(m: ArchivedMessage, myJid: string, now: int): LastMessage {
    LastMessage(m.body, Time(m, now), if IsOwn(m.from, myJid) then Me else Them, m.id)
  }

  function Summaries(es: seq<Latest>, myJid: string, now: int): (r: seq<Conversation>)
    ensures |r| == |es| && forall i :: 0 <= i < |es| ==> r[i] == Summarize(es[i], myJid, now)
  {
    seq(|es|, i requires 0 <= i < |es| => Summarize(es[i], myJid, now))
  }

  /** An archive answer: the results of the page, the paging cursor of its
      last result, and the `complete` flag when the server sent one. */
  datatype ArchivePage = ArchivePage(results: seq<ArchivedMessage>, last: Option<string>, complete: Option<bool>)

  /** What `loadConversationsFromServer` returns. */
  datatype ServerConversations = ServerConversations(
    conversations: seq<Conversation>, nextToken: Option<string>, complete: bool)

  /** `loadConversationsFromServer` after the query: one summary per contact
      of a kept result, holding that contact's newest message, not unread,
      stamped now, newest first. `complete` defaults to true. */
  method LoadFromServer(page: ArchivePage, myJid: string, now: int) returns (r: ServerConversations)
    ensures r.nextToken == page.last
    ensures r.complete <==> page.complete != Some(false)
    ensures |page.results| == 0 ==> r.conversations == []
    ensures NewestFirst(r.conversations) && DistinctJids(r.conversations)
    ensures forall c :: c in Jids(r.conversations) <==> Some(c) in Keys(page.results, myJid)
    ensures forall c :: c in r.conversations ==> c.unreadCount == 0 && c.updatedAt == now && c.displayName == None
    ensures forall c :: c in r.conversations ==>
      exists k :: IsNewestAt(Keys(page.results, myJid), Times(page.results, now), k, c.jid)
        && c.lastMessage == SummaryOf(page.results[k], myJid, now)
  {
    var complete := page.complete.GetOr(true);
    if |page.results| == 0 {
      r := ServerConversations([], page.last, complete);
    } else {
      var groups := GroupMessagesByContact(page.results, myJid, now);
      var cs := SortNewestFirst(Summaries(groups, myJid, now));
      SortedSummariesFacts(page.results, Keys(page.results, myJid), Times(page.results, now), groups, myJid, now);
      r := ServerConversations(cs, page.last, complete);
    }
  }

  lemma SortedSummariesFacts(ms: seq<ArchivedMessage>, keys: seq<Option<string>>, times: seq<int>,
                             es: seq<Latest>, myJid: string, now: int)
    requires |keys| == |times| == |ms|
    requires NoDuplicates(ContactsOf(es))
    requires forall c :: c in ContactsOf(es) <==> Some(c) in keys
    requires forall i :: 0 <= i < |es| ==> exists k :: IsNewestAt(keys, times, k, es[i].contact) && es[i].message == ms[k]
    ensures var r := SortNewestFirst(Summaries(es, myJid, now));
      DistinctJids(r)
      && (forall c :: c in Jids(r) <==> Some(c) in keys)
      && forall c :: c in r ==>
        c.unreadCount == 0 && c.updatedAt == now && c.displayName == None
        && exists k :: IsNewestAt(keys, times, k, c.jid) && c.lastMessage == SummaryOf(ms[k], myJid, now)
  {
    var unsorted := Summaries(es, myJid, now);
    assert Jids(unsorted) == ContactsOf(es);
    forall c | c in unsorted
      ensures exists k :: IsNewestAt(keys, times, k, c.jid) && c.lastMessage == SummaryOf(ms[k], myJid, now)
    {
      var i :| 0 <= i < |unsorted| && unsorted[i] == c;
      var k :| IsNewestAt(keys, times, k, es[i].contact) && es[i].message == ms[k];
      assert c.lastMessage == SummaryOf(ms[k], myJid, now);
    }
    SortIsPermutation(unsorted);
    SortKeepsDistinct(unsorted);
    SameJids(SortNewestFirst(unsorted), unsorted);
  }

  /** Two lists with the same elements name the same contacts. */
  lemma SameJids(a: seq<Conversation>, b: seq<Conversation>)
    requires forall x :: x in a <==> x in b
    ensures forall j :: j in Jids(a) <==> j in Jids(b)
  {
    forall j | j in Jids(a) ensures j in Jids(b) {
      var i :| 0 <= i < |a| && Jids(a)[i] == j;
      assert a[i] in b;
      var k :| 0 <= k < |b| && b[k] == a[i];
      assert Jids(b)[k] == j;
    }
    forall j | j in Jids(b) ensures j in Jids(a) {
      var i :| 0 <= i < |b| && Jids(b)[i] == j;
      assert b[i] in a;
      var k :| 0 <= k < |a| && a[k] == b[i];
      assert Jids(a)[k] == j;
    }
  }

  // ------------------------------------------------ merging with the store

  /** The first position of `x` in `s`, if any. */
  function FirstIndex<T(==)>(s: seq<T>, x: T): (r: Option<nat>)
    ensures r.None? <==> x !in s
    ensures r.Some? ==> r.value < |s| && s[r.value] == x && x !in s[..r.value]
    decreases |s|
  {
    if |s| == 0 then None
    else if s[0] == x then Some(0)
    else
      var t := FirstIndex(s[1..], x);
      assert s == [s[0]] + s[1..];
      assert t.Some? ==> s[..t.value + 1] == [s[0]] + s[1..][..t.value];
      if t.None? then None else Some(t.value + 1)
  }

  lemma FirstIndexOfAppend<T>(a: seq<T>, x: T, y: T)
    requires x !in a
    ensures FirstIndex(a + [x], y) == if y == x then Some(|a|) else FirstIndex(a, y)
  {
    var i := FirstIndex(a + [x], y);
    var k := FirstIndex(a, y);
    assert k.Some? ==> (a + [x])[..k.value] == a[..k.value] && (a + [x])[k.value] == y;
    assert i.Some? && i.value < |a| ==> a[..i.value] == (a + [x])[..i.value] && a[i.value] == y;
    assert (a + [x])[..|a|] == a;
  }

  /** Where `map.get(jid)` finds its entry in a `Map` kept as a list in
      insertion order. */
  function IndexOf(s: seq<Conversation>, jid: string): (r: Option<nat>)
    ensures r.None? <==> jid !in Jids(s)
    ensures r.Some? ==> r.value < |s| && s[r.value].jid == jid
  {
    FirstIndex(Jids(s), jid)
  }

  /** `map.get(jid)` on a `Map` kept as a list in insertion order. */
  function Stored(s: seq<Conversation>, jid: string): (r: Option<Conversation>)
    ensures r.None? <==> jid !in Jids(s)
    ensures r.Some? ==> r.value in s && r.value.jid == jid
  {
    var i := IndexOf(s, jid);
    if i.None? then None else Some(s[i.value])
  }

  /** In a list with one summary per contact, a member is what is stored
      under its contact. */
  lemma StoredOfMember(s: seq<Conversation>, c: Conversation)
    requires DistinctJids(s) && c in s
    ensures Stored(s, c.jid) == Some(c)
  {
    var k :| 0 <= k < |s| && s[k] == c;
    assert Jids(s)[k] == c.jid;
    var i := IndexOf(s, c.jid).value;
    assert s[i].jid == s[k].jid;
  }

  lemma StoredOfAppend(s: seq<Conversation>, c: Conversation, j: string)
    requires c.jid !in Jids(s)
    ensures Jids(s + [c]) == Jids(s) + [c.jid]
    ensures Stored(s + [c], j) == if j == c.jid then Some(c) else Stored(s, j)
    ensures DistinctJids(s) ==> DistinctJids(s + [c])
  {
    JidsOfAppend(s, c);
    FirstIndexOfAppend(Jids(s), c.jid, j);
    var x := IndexOf(s, j);
    assert x.Some? ==> (s + [c])[x.value] == s[x.value];
    DistinctAppend(s, c);
  }

  lemma JidsOfAppend(s: seq<Conversation>, c: Conversation)
    ensures Jids(s + [c]) == Jids(s) + [c.jid]
  {
    assert forall k :: 0 <= k < |s| ==> (s + [c])[k] == s[k];
  }

  lemma DistinctAppend(s: seq<Conversation>, c: Conversation)
    requires c.jid !in Jids(s)
    ensures DistinctJids(s) ==> DistinctJids(s + [c])
  {
    var r := s + [c];
    if DistinctJids(s) {
      forall p, q | 0 <= p < q < |r| ensures r[p].jid != r[q].jid {
        if q == |s| {
          assert Jids(s)[p] == s[p].jid;
        } else {
          assert r[p] == s[p] && r[q] == s[q];
        }
      }
    }
  }

  lemma StoredOfReplace(s: seq<Conversation>, i: nat, c: Conversation, j: string)
    requires IndexOf(s, c.jid) == Some(i)
    ensures Jids(s[i := c]) == Jids(s)
    ensures Stored(s[i := c], j) == if j == c.jid then Some(c) else Stored(s, j)
  {
    assert Jids(s[i := c]) == Jids(s);
  }

  /** `map.set(c.jid, c)`: replaces the summary for `c`'s contact in place, or
      appends `c` when the contact is new. */
  function Put(acc: seq<Conversation>, c: Conversation): (r: seq<Conversation>)
    ensures Stored(r, c.jid) == Some(c)
    ensures forall j :: j != c.jid ==> Stored(r, j) == Stored(acc, j)
    ensures forall j :: j in Jids(r) <==> j in Jids(acc) || j == c.jid
    ensures DistinctJids(acc) ==> DistinctJids(r)
    ensures c.jid !in Jids(acc) ==> r == acc + [c]
  {
    var i := IndexOf(acc, c.jid);
    if i.None? then
      StoredOfAppend(acc, c, c.jid);
      forall j ensures Stored(acc + [c], j) == if j == c.jid then Some(c) else Stored(acc, j) {
        StoredOfAppend(acc, c, j);
      }
      acc + [c]
    else
      forall j ensures Stored(acc[i.value := c], j) == if j == c.jid then Some(c) else Stored(acc, j) {
        StoredOfReplace(acc, i.value, c, j);
      }
      StoredOfReplace(acc, i.value, c, c.jid);
      assert DistinctJids(acc) ==> DistinctJids(acc[i.value := c]) by {
        forall p | 0 <= p < |acc| ensures acc[i.value := c][p].jid == Jids(acc)[p] {
          assert Jids(acc[i.value := c])[p] == acc[i.value := c][p].jid;
        }
      }
      acc[i.value := c]
  }

  /** What the merge leaves under a contact the server reported with summary
      `incoming`: the server's summary for an unknown contact; for a known one
      the server's summary with the stored unread count if it is strictly
      newer, else the stored summary untouched. */
  function Reconciled(stored: Option<Conversation>, incoming: Conversation): (r: Conversation)
    requires stored.Some? ==> stored.value.jid == incoming.jid
    ensures r.jid == incoming.jid
  {
    if stored.None? then incoming
    else if incoming.lastMessage.timestamp > stored.value.lastMessage.timestamp then
      incoming.(unreadCount := stored.value.unreadCount)
    else stored.value
  }

  /** One step of the merge loop over the server's summaries. */
  function MergeOne(acc: seq<Conversation>, n: Conversation): (r: seq<Conversation>)
    ensures Stored(r, n.jid) == Some(Reconciled(Stored(acc, n.jid), n))
    ensures forall j :: j != n.jid ==> Stored(r, j) == Stored(acc, j)
    ensures forall j :: j in Jids(r) <==> j in Jids(acc) || j == n.jid
    ensures DistinctJids(acc) ==> DistinctJids(r)
  {
    var stored := Stored(acc, n.jid);
    if stored.None? then Put(acc, n)
    else if n.lastMessage.timestamp > stored.value.lastMessage.timestamp then
      Put(acc, n.(unreadCount := stored.value.unreadCount))
    else
      acc
  }

  /** The `Map` after setting every stored summary, in order. */
  function PutAll(cs: seq<Conversation>): (r: seq<Conversation>)
    ensures DistinctJids(r)
    ensures forall j :: j in Jids(r) <==> j in Jids(cs)
    decreases |cs|
  {
    if |cs| == 0 then []
    else
      var init := cs[..|cs| - 1];
      assert Jids(cs) == Jids(init) + [cs[|cs| - 1].jid];
      Put(PutAll(init), cs[|cs| - 1])
  }

  /** A store with one summary per contact goes into the `Map` unchanged. */
  lemma {:induction false} PutAllOfDistinct(cs: seq<Conversation>)
    requires DistinctJids(cs)
    ensures PutAll(cs) == cs
    decreases |cs|
  {
    if |cs| > 0 {
      SplitLast(cs);
      PutAllOfDistinct(cs[..|cs| - 1]);
    }
  }

  /** The `Map` after the merge loop over the server's summaries `ns`. */
  function MergeAll(base: seq<Conversation>, ns: seq<Conversation>): (r: seq<Conversation>)
    ensures forall j :: j in Jids(r) <==> j in Jids(base) || j in Jids(ns)
    ensures DistinctJids(base) ==> DistinctJids(r)
    decreases |ns|
  {
    if |ns| == 0 then base
    else
      var init := ns[..|ns| - 1];
      assert Jids(ns) == Jids(init) + [ns[|ns| - 1].jid];
      MergeOne(MergeAll(base, init), ns[|ns| - 1])
  }

  /** With one server summary per contact, the merge decides each contact
      on its own: contacts the server did not report keep the stored
      summary, reported ones get the `Reconciled` summary. */
  lemma {:induction false} MergeAllStored(base: seq<Conversation>, ns: seq<Conversation>, j: string)
    requires DistinctJids(ns)
    ensures j !in Jids(ns) ==> Stored(MergeAll(base, ns), j) == Stored(base, j)
    ensures j in Jids(ns) ==> Stored(MergeAll(base, ns), j) == Some(Reconciled(Stored(base, j), Stored(ns, j).value))
    decreases |ns|
  {
    if |ns| > 0 {
      var init := ns[..|ns| - 1];
      var last := ns[|ns| - 1];
      SplitLast(ns);
      MergeAllStored(base, init, j);
      MergeAllStored(base, init, last.jid);
      StoredOfAppend(init, last, j);
    }
  }

  /** Dropping the last summary of a list with one summary per contact. */
  lemma SplitLast(ns: seq<Conversation>)
    requires DistinctJids(ns) && |ns| > 0
    ensures ns == ns[..|ns| - 1] + [ns[|ns| - 1]]
    ensures DistinctJids(ns[..|ns| - 1])
    ensures ns[|ns| - 1].jid !in Jids(ns[..|ns| - 1])
  {
    var init := ns[..|ns| - 1];
    assert ns == init + [ns[|ns| - 1]];
    forall p, q | 0 <= p < q < |init| ensures init[p].jid != init[q].jid {
      assert init[p] == ns[p] && init[q] == ns[q];
    }
    forall k | 0 <= k < |init| ensures Jids(init)[k] != ns[|ns| - 1].jid {
      assert init[k] == ns[k];
    }
  }

  /** The merge of `loadConversations`: stored summaries first, then the
      server's, each by the `Reconciled` rule. */
  function Reconcile(existing: seq<Conversation>, incoming: seq<Conversation>): (r: seq<Conversation>)
    ensures DistinctJids(r)
    ensures forall j :: j in Jids(r) <==> j in Jids(existing) || j in Jids(incoming)
  {
    MergeAll(PutAll(existing), incoming)
  }

  /** The merge rule, contact by contact, for a store and a server answer
      that each hold one summary per contact: a contact only the store knows
      keeps its summary; a new contact gets the server's; a known one is
      replaced only by a strictly newer summary, keeping its unread count. */
  lemma ReconcileRule(existing: seq<Conversation>, incoming: seq<Conversation>, j: string)
    requires DistinctJids(existing) && DistinctJids(incoming)
    ensures j !in Jids(incoming) ==> Stored(Reconcile(existing, incoming), j) == Stored(existing, j)
    ensures j in Jids(incoming) && j !in Jids(existing) ==>
      Stored(Reconcile(existing, incoming), j) == Stored(incoming, j)
    ensures j in Jids(incoming) && j in Jids(existing) ==>
      var e, n := Stored(existing, j).value, Stored(incoming, j).value;
      Stored(Reconcile(existing, incoming), j)
        == Some(if n.lastMessage.timestamp > e.lastMessage.timestamp then n.(unreadCount := e.unreadCount) else e)
  {
    PutAllOfDistinct(existing);
    MergeAllStored(existing, incoming, j);
  }

  // ------------------------------------------------------------ loading

  /** The options of `loadConversations`. A `limit` of 0 stands for no limit:
      the code tests the limit for truthiness, so 0 and an absent limit act
      alike. */
  datatype LoadOptions = LoadOptions(incremental: bool, limit: nat, removeMissing: bool)

  const DefaultLoadOptions := LoadOptions(false, 0, true)

  /** A full load (the default) prunes the contacts the server no longer reports. */
  predicate Prunes(o: LoadOptions) {
    o.removeMissing && !o.incremental
  }

  /** An archive query: the time window, the page size, and the paging
      cursor to continue after. */
  datatype ArchiveQuery = ArchiveQuery(start: Option<int>, end: Option<int>, max: nat, after: Option<string>)

  /** The sync bookkeeping the loads read and write. */
  datatype SyncMark = SyncMark(lastSync: Option<int>, lastRSMToken: Option<string>)

  /** What `loadConversations` did: the query it sent, the contacts it
      removed from the store and the summaries it saved (empty when it made
      no such call), the bookkeeping it wrote, and what it returned. */
  datatype Loaded = Loaded(
    query: ArchiveQuery, removed: seq<string>, saved: seq<Conversation>, mark: SyncMark,
    conversations: seq<Conversation>, nextToken: Option<string>)

  /** The stored contacts the server did not report, each once, in the order
      the store lists them (`Array.from(new Set(...)).filter(...)`). */
  function Missing(existing: seq<Conversation>, found: seq<string>): (r: seq<string>)
    ensures NoDuplicates(r)
    ensures forall j :: j in r <==> j in Jids(existing) && j !in found
    decreases |existing|
  {
    if |existing| == 0 then []
    else
      var init := existing[..|existing| - 1];
      var j := existing[|existing| - 1].jid;
      var rest := Missing(init, found);
      assert Jids(existing) == Jids(init) + [j];
      if j in found || j in rest then rest
      else
        NoDuplicatesAppend(rest, j);
        rest + [j]
  }

  lemma NoDuplicatesAppend<T>(s: seq<T>, x: T)
    requires NoDuplicates(s) && x !in s
    ensures NoDuplicates(s + [x])
  {
    var r := s + [x];
    forall p, q | 0 <= p < q < |r| ensures r[p] != r[q] {
      assert r[p] == s[p];
      if q < |s| {
        assert r[q] == s[q];
      }
    }
  }

  /** The summaries of contacts in `found`, in their order. */
  function OnlyFound(s: seq<Conversation>, found: seq<string>): (r: seq<Conversation>)
    ensures forall c :: c in r <==> c in s && c.jid in found
    decreases |s|
  {
    if |s| == 0 then []
    else
      var rest := OnlyFound(s[1..], found);
      assert s == [s[0]] + s[1..];
      if s[0].jid in found then [s[0]] + rest else rest
  }

  lemma {:induction false} OnlyFoundKeepsDistinct(s: seq<Conversation>, found: seq<string>)
    requires DistinctJids(s)
    ensures DistinctJids(OnlyFound(s, found))
    decreases |s|
  {
    if |s| > 0 {
      DistinctTail(s);
      OnlyFoundKeepsDistinct(s[1..], found);
      if s[0].jid in found {
        DistinctCons(s[0], OnlyFound(s[1..], found));
      }
    }
  }

  /** The first `limit` summaries (`slice(0, limit)`), or all when there is
      no limit. */
  function Limited(s: seq<Conversation>, limit: nat): (r: seq<Conversation>)
    ensures r <= s
    ensures |r| == if 0 < limit < |s| then limit else |s|
  {
    if 0 < limit < |s| then s[..limit] else s
  }

  /** `loadConversations`, given the stored summaries and the bookkeeping it
      reads and the server's answer. The store keys summaries by contact, so
      a known contact keeps its unread count and never gets an older
      summary. */
  method LoadConversations(o: LoadOptions, mark: Option<SyncMark>, existing: seq<Conversation>,
                           server: ServerConversations, now: int) returns (r: Loaded)
    ensures r.query.end == Some(now) && r.query.after == None
    ensures r.query.start.Some? <==> o.incremental && mark.Some? && mark.value.lastSync.Some?
    ensures r.query.start.Some? ==> r.query.start == mark.value.lastSync
    ensures r.query.max == if o.limit > 0 then 3 * o.limit else 100
    ensures r.mark == SyncMark(Some(now), server.nextToken) && r.nextToken == server.nextToken
    ensures Prunes(o) ==>
      NoDuplicates(r.removed) && (forall j :: j in r.removed <==> j in Jids(existing) && j !in Jids(server.conversations))
    ensures !Prunes(o) ==> r.removed == []
    ensures NewestFirst(r.saved) && DistinctJids(r.saved)
    ensures forall j :: j in Jids(r.saved) <==>
      j in Jids(server.conversations) || (!Prunes(o) && j in Jids(existing))
    ensures forall c :: c in r.saved ==> Stored(Reconcile(existing, server.conversations), c.jid) == Some(c)
    ensures DistinctJids(existing) && DistinctJids(server.conversations) ==>
      forall c :: c in r.saved && c.jid in Jids(existing) ==>
        var e := Stored(existing, c.jid).value;
        c.unreadCount == e.unreadCount && c.lastMessage.timestamp >= e.lastMessage.timestamp
    ensures r.conversations <= r.saved
    ensures o.limit > 0 ==> |r.conversations| == if o.limit < |r.saved| then o.limit else |r.saved|
    ensures o.limit == 0 ==> r.conversations == r.saved
  {
    var query := ArchiveQuery(if o.incremental && mark.Some? then mark.value.lastSync else None,
                              Some(now), if o.limit > 0 then 3 * o.limit else 100, None);
    var found := Jids(server.conversations);
    var removed := if Prunes(o) then Missing(existing, found) else [];
    var merged := Reconcile(existing, server.conversations);
    var kept := if Prunes(o) then OnlyFound(merged, found) else merged;
    var saved := SortNewestFirst(kept);
    LoadedFacts(o, merged, found, kept);
    if DistinctJids(existing) && DistinctJids(server.conversations) {
      forall c | c in saved && c.jid in Jids(existing)
        ensures c.unreadCount == Stored(existing, c.jid).value.unreadCount
        ensures c.lastMessage.timestamp >= Stored(existing, c.jid).value.lastMessage.timestamp
      {
        ReconcileRule(existing, server.conversations, c.jid);
      }
    }
    r := Loaded(query, removed, saved, SyncMark(Some(now), server.nextToken), Limited(saved, o.limit), server.nextToken);
  }

  /** The summaries `loadConversations` saves are the merged ones it keeps,
      sorted, and each is what the merge put under its contact. */
  lemma LoadedFacts(o: LoadOptions, merged: seq<Conversation>, found: seq<string>, kept: seq<Conversation>)
    requires DistinctJids(merged)
    requires kept == if Prunes(o) then OnlyFound(merged, found) else merged
    ensures DistinctJids(SortNewestFirst(kept))
    ensures forall j :: j in Jids(SortNewestFirst(kept)) <==> j in Jids(kept)
    ensures forall j :: j in Jids(kept) <==> j in Jids(merged) && (Prunes(o) ==> j in found)
    ensures forall c :: c in SortNewestFirst(kept) ==> Stored(merged, c.jid) == Some(c)
  {
    if Prunes(o) {
      OnlyFoundKeepsDistinct(merged, found);
      KeptJids(merged, found);
    }
    SortIsPermutation(kept);
    SortKeepsDistinct(kept);
    SameJids(SortNewestFirst(kept), kept);
    forall c | c in SortNewestFirst(kept) ensures Stored(merged, c.jid) == Some(c) {
      StoredOfMember(merged, c);
    }
  }

  lemma KeptJids(merged: seq<Conversation>, found: seq<string>)
    ensures forall j :: j in Jids(OnlyFound(merged, found)) <==> j in Jids(merged) && j in found
  {
    var kept := OnlyFound(merged, found);
    forall j | j in Jids(merged) && j in found ensures j in Jids(kept) {
      var i :| 0 <= i < |merged| && Jids(merged)[i] == j;
      assert merged[i] in kept;
      var k :| 0 <= k < |kept| && kept[k] == merged[i];
      assert Jids(kept)[k] == j;
    }
    forall j | j in Jids(kept) ensures j in Jids(merged) && j in found {
      var k :| 0 <= k < |kept| && Jids(kept)[k] == j;
      assert kept[k] in merged;
      var i :| 0 <= i < |merged| && merged[i] == kept[k];
      assert Jids(merged)[i] == j;
    }
  }

  /** The page size `loadMoreConversations` uses when the caller gives none. */
  const DefaultMoreLimit := 20

  /** What `loadMoreConversations` did: the query it sent, the summaries it
      saved (empty when it made no save), and what it returned. */
  datatype More = More(
    query: ArchiveQuery, saved: seq<Conversation>, conversations: seq<Conversation>,
    nextToken: Option<string>, hasMore: bool)

  /** `loadMoreConversations`: continues the archive after `lastToken`, saves
      the page's summaries, and returns the first `limit` summaries the store
      then lists (`listing`). It announces more pages only when the server
      called the archive incomplete and gave a non-empty cursor. */
  function LoadMore(lastToken: string, limit: nat, server: ServerConversations,
                    listing: seq<Conversation>): (r: More)
    ensures r.query == ArchiveQuery(None, None, 2 * limit, Some(lastToken))
    ensures r.saved == server.conversations && r.nextToken == server.nextToken
    ensures r.hasMore <==> !server.complete && server.nextToken.Some? && server.nextToken.value != ""
    ensures r.hasMore ==> r.nextToken.Some? && r.nextToken.value != ""
    ensures r.conversations <= listing
    ensures |r.conversations| == if limit < |listing| then limit else |listing|
  {
    var shown := if limit < |listing| then listing[..limit] else listing;
    var hasMore := !server.complete && server.nextToken.Some? && server.nextToken.value != "";
    More(ArchiveQuery(None, None, 2 * limit, Some(lastToken)), server.conversations, shown, server.nextToken, hasMore)
  }

  // ---------------------------------------------------------------- roster

  /** A roster item: the contact's address and its name ("" when unnamed). */
  datatype RosterItem = RosterItem(jid: string, name: string)

  /** The normalised addresses of the roster's items, the keys of the
      roster `Map`. */
  function RosterKeys(roster: seq<RosterItem>): (r: seq<string>)
    ensures |r| == |roster| && forall i :: 0 <= i < |roster| ==> r[i] == NormalizeJid(roster[i].jid)
  {
    seq(|roster|, i requires 0 <= i < |roster| => NormalizeJid(roster[i].jid))
  }

  /** The last position of `x` in `s`, if any. */
  function LastIndex<T(==)>(s: seq<T>, x: T): (r: Option<nat>)
    ensures r.None? <==> x !in s
    ensures r.Some? ==> r.value < |s| && s[r.value] == x && x !in s[r.value + 1..]
    decreases |s|
  {
    if |s| == 0 then None
    else if s[|s| - 1] == x then Some(|s| - 1)
    else
      var i := LastIndex(s[..|s| - 1], x);
      assert s == s[..|s| - 1] + [s[|s| - 1]];
      assert i.Some? ==> s[i.value + 1..] == s[..|s| - 1][i.value + 1..] + [s[|s| - 1]];
      i
  }

  /** `rosterMap.get(jid)` for the `Map` built from the roster keyed by
      normalised address: the LAST item with that address, since a later
      `Map` entry overwrites an earlier one. */
  function RosterEntry(roster: seq<RosterItem>, jid: string): (r: Option<RosterItem>)
    ensures r.None? <==> jid !in RosterKeys(roster)
    ensures r.Some? ==> exists i :: (0 <= i < |roster| && roster[i] == r.value
      && RosterKeys(roster)[i] == jid && jid !in RosterKeys(roster)[i + 1..])
  {
    var i := LastIndex(RosterKeys(roster), jid);
    if i.None? then None else Some(roster[i.value])
  }

  /** The display name after enrichment: the roster name when the roster
      has a non-empty one for the contact, else the old name. */
  function RosterName(roster: seq<RosterItem>, c: Conversation): Option<string> {
    var e := RosterEntry(roster, c.jid);
    if e.Some? && e.value.name != "" then Some(e.value.name) else c.displayName
  }

  /** `enrichWithRoster`: `roster` is the answer of the roster request, or
      `Failure` when the request throws. Only display names change, each to
      the contact's roster name when it has a non-empty one; on failure the
      list comes back untouched. */
  function EnrichWithRoster(convs: seq<Conversation>, roster: Result<seq<RosterItem>, string>): (r: seq<Conversation>)
    ensures roster.Failure? ==> r == convs
    ensures |r| == |convs|
    ensures forall i :: 0 <= i < |convs| ==> r[i].(displayName := convs[i].displayName) == convs[i]
    ensures roster.Success? ==> forall i :: 0 <= i < |convs| ==>
      (r[i].displayName != convs[i].displayName ==>
        exists k :: 0 <= k < |roster.value| && RosterKeys(roster.value)[k] == convs[i].jid
          && r[i].displayName == Some(roster.value[k].name) && roster.value[k].name != "")
    ensures roster.Success? ==> forall i, k :: 0 <= i < |convs| && 0 <= k < |roster.value| && IsLastRosterItem(roster.value, k, convs[i].jid) ==>
      r[i].displayName == (if roster.value[k].name != "" then Some(roster.value[k].name) else convs[i].displayName)
    ensures roster.Success? ==> forall i :: 0 <= i < |convs| && convs[i].jid !in RosterKeys(roster.value) ==> r[i] == convs[i]
  {
    if roster.Failure? then convs
    else
      var r := seq(|convs|, i requires 0 <= i < |convs| => convs[i].(displayName := RosterName(roster.value, convs[i])));
      assert forall i, k :: 0 <= i < |convs| && 0 <= k < |roster.value| && IsLastRosterItem(roster.value, k, convs[i].jid) ==>
        RosterEntry(roster.value, convs[i].jid) == Some(roster.value[k]) by {
        forall i, k | 0 <= i < |convs| && 0 <= k < |roster.value| && IsLastRosterItem(roster.value, k, convs[i].jid)
          ensures RosterEntry(roster.value, convs[i].jid) == Some(roster.value[k])
        {
          LastIndexIsUnique(RosterKeys(roster.value), convs[i].jid, k);
        }
      }
      r
  }

  /** Item `k` is the last roster item whose normalised address is `jid`. */
  predicate IsLastRosterItem(roster: seq<RosterItem>, k: nat, jid: string)
    requires k < |roster|
  {
    RosterKeys(roster)[k] == jid && jid !in RosterKeys(roster)[k + 1..]
  }

  lemma LastIndexIsUnique<T>(s: seq<T>, x: T, k: nat)
    requires k < |s| && s[k] == x && x !in s[k + 1..]
    ensures LastIndex(s, x) == Some(k)
  {
  }

  /** Enriching twice with the same roster is enriching once. */
  lemma EnrichIsIdempotent(convs: seq<Conversation>, roster: Result<seq<RosterItem>, string>)
    ensures EnrichWithRoster(EnrichWithRoster(convs, roster), roster) == EnrichWithRoster(convs, roster)
  {
    var once := EnrichWithRoster(convs, roster);
    if roster.Success? {
      forall i | 0 <= i < |convs|
        ensures RosterName(roster.value, once[i]) == once[i].displayName
      {
        assert once[i].jid == convs[i].jid;
      }
    }
  }

  // ----------------------------------------------------------- live updates

  /** The fields of a live message `updateConversationOnNewMessage` reads;
      absent text is the empty string, `stamp` the parsed delay stamp. */
  datatype LiveMessage = LiveMessage(id: string, from: string, to: string, body: string, stamp: Option<int>)

  /** What `updateConversation` receives: the contact and its new summary fields. */
  datatype SummaryPatch = SummaryPatch(jid: string, lastMessage: LastMessage, unreadCount: nat)

  /** `updateConversationOnNewMessage`: the patch for the message's contact,
      or None when the contact is empty or the owner. `fallbackId` stands for
      the id made from the clock when the message has none. */
  function UpdateOnNewMessage(m: LiveMessage, myJid: string, now: int, fallbackId: string): (r: Option<SummaryPatch>)
    ensures r.None? <==> ExtractContactJid(m.from, m.to, myJid) in {"", NormalizeJid(myJid)}
    ensures r.Some? ==> r.value.jid == ExtractContactJid(m.from, m.to, myJid) && '/' !in r.value.jid
    ensures r.Some? ==> (r.value.unreadCount == 0 <==> IsOwn(m.from, myJid)) && r.value.unreadCount <= 1
    ensures r.Some? ==> (r.value.lastMessage.from == Me <==> IsOwn(m.from, myJid))
    ensures r.Some? ==> r.value.lastMessage.timestamp == Time(ArchivedMessage(m.id, m.from, m.to, m.body, "", m.stamp), now)
    ensures r.Some? ==> r.value.lastMessage.body == m.body
    ensures r.Some? ==> r.value.lastMessage.messageId == (if m.id != "" then m.id else fallbackId)
  {
    var own := IsOwn(m.from, myJid);
    var contact := ExtractContactJid(m.from, m.to, myJid);
    if contact == "" || contact == NormalizeJid(myJid) then None
    else
      var ts := if m.stamp.Some? then m.stamp.value else now;
      var id := if m.id != "" then m.id else fallbackId;
      Some(SummaryPatch(contact, LastMessage(m.body, ts, if own then Me else Them, id), if own then 0 else 1))
  }

  /** A live chat message with text and the same message read back from the
      archive are filed under the same contact, or both skipped; and the
      live patch carries the summary the archive would build for it. */
  lemma LiveAgreesWithArchive(m: LiveMessage, myJid: string, now: int, fallbackId: string)
    requires !IsBlank(m.body) && m.id != ""
    ensures var a := ArchivedMessage(m.id, m.from, m.to, m.body, "chat", m.stamp);
      var p := UpdateOnNewMessage(m, myJid, now, fallbackId);
      (p.Some? <==> KeyOf(a, myJid).Some?)
      && (p.Some? ==> Some(p.value.jid) == KeyOf(a, myJid) && p.value.lastMessage == SummaryOf(a, myJid, now))
  {
    var a := ArchivedMessage(m.id, m.from, m.to, m.body, "chat", m.stamp);
    var p := UpdateOnNewMessage(m, myJid, now, fallbackId);
    assert IsChatWithText(a);
    assert ContactOf(a, myJid) == ExtractContactJid(m.from, m.to, myJid);
    if p.Some? {
      assert p.value.lastMessage.timestamp == Time(a, now);
    }
  }
}

=== FILE: index_order.dfy ===
/** The order in which an IndexedDB index hands out records: by index key,
    then by primary key. For the `by-conversation-timestamp` index of the
    `messages` store that is (timestamp, messageId) within one conversation.
    Strings are compared character by character. */
module IndexOrder {
  import opened Records

  /** `a` sorts strictly before `b` (a proper prefix sorts first). */
  predicate StrLess(a: string, b: string)
    decreases |a|
  {
    |b| > 0 && (|a| == 0 || a[0] < b[0] || (a[0] == b[0] && StrLess(a[1..], b[1..])))
  }

  lemma {:induction false} StrLessIrreflexive(a: string)
    ensures !StrLess(a, a)
    decreases |a|
  {
    if |a| > 0 {
      StrLessIrreflexive(a[1..]);
    }
  }

  lemma {:induction false} StrLessTransitive(a: string, b: string, c: string)
    requires StrLess(a, b) && StrLess(b, c)
    ensures StrLess(a, c)
    decreases |a|
  {
    if |a| > 0 && a[0] == b[0] && b[0] == c[0] {
      StrLessTransitive(a[1..], b[1..], c[1..]);
    }
  }

  lemma {:induction false} StrLessTotal(a: string, b: string)
    requires a != b
    ensures StrLess(a, b) || StrLess(b, a)
    decreases |a|
  {
    if |a| > 0 && |b| > 0 && a[0] == b[0] {
      assert a == [a[0]] + a[1..] && b == [b[0]] + b[1..];
      StrLessTotal(a[1..], b[1..]);
    }
  }

  /** Record `a` comes before record `b` in the index. */
  predicate KeyLess(a: Message, b: Message) {
    a.timestamp < b.timestamp || (a.timestamp == b.timestamp && StrLess(a.messageId, b.messageId))
  }

  lemma KeyLessIrreflexive(a: Message)
    ensures !KeyLess(a, a)
  {
    StrLessIrreflexive(a.messageId);
  }

  lemma KeyLessTransitive(a: Message, b: Message, c: Message)
    requires KeyLess(a, b) && KeyLess(b, c)
    ensures KeyLess(a, c)
  {
    if a.timestamp == b.timestamp == c.timestamp {
      StrLessTransitive(a.messageId, b.messageId, c.messageId);
    }
  }

  lemma KeyLessTotal(a: Message, b: Message)
    requires a.messageId != b.messageId
    ensures KeyLess(a, b) || KeyLess(b, a)
  {
    StrLessTotal(a.messageId, b.messageId);
  }

  /** No two records of the set share a primary key, as in any object store. */
  predicate DistinctIds(s: set<Message>) {
    forall a, b :: a in s && b in s && a.messageId == b.messageId ==> a == b
  }

  predicate StrictlySorted(s: seq<Message>) {
    forall i, j :: 0 <= i < j < |s| ==> KeyLess(s[i], s[j])
  }

  /** No record of `s` comes before `m`. */
  predicate IsFirst(m: Message, s: set<Message>) {
    m in s && forall x :: x in s ==> !KeyLess(x, m)
  }

  /** A finite non-empty set of records has a first record. */
  lemma {:induction false} FirstExists(s: set<Message>)
    requires s != {}
    ensures exists m :: IsFirst(m, s)
    decreases |s|
  {
    var y :| y in s;
    var rest := s - {y};
    if rest == {} {
      assert s == {y};
      KeyLessIrreflexive(y);
      assert IsFirst(y, s);
    } else {
      FirstExists(rest);
      var m :| IsFirst(m, rest);
      if KeyLess(y, m) {
        forall x | x in s ensures !KeyLess(x, y) {
          if x in rest {
            if KeyLess(x, y) {
              KeyLessTransitive(x, y, m);
            }
          } else {
            KeyLessIrreflexive(y);
          }
        }
        assert IsFirst(y, s);
      } else {
        KeyLessIrreflexive(m);
        assert IsFirst(m, s);
      }
    }
  }

  /** The records of `s` in index order. */
  ghost function InIndexOrder(s: set<Message>): (r: seq<Message>)
    requires DistinctIds(s)
    ensures |r| == |s|
    ensures forall m :: m in r <==> m in s
    ensures StrictlySorted(r)
    decreases |s|
  {
    if s == {} then []
    else
      FirstExists(s);
      var m :| IsFirst(m, s);
      var rest := InIndexOrder(s - {m});
      FirstThenRest(m, s, rest);
      [m] + rest
  }

  /** The first record of a set followed by the others in order is in order. */
  lemma FirstThenRest(m: Message, s: set<Message>, rest: seq<Message>)
    requires DistinctIds(s) && IsFirst(m, s)
    requires StrictlySorted(rest) && forall x :: x in rest <==> x in s - {m}
    ensures StrictlySorted([m] + rest)
    ensures forall x :: x in [m] + rest <==> x in s
  {
    forall x | x in rest ensures KeyLess(m, x) {
      KeyLessTotal(m, x);
    }
    var r := [m] + rest;
    forall i, j | 0 <= i < j < |r| ensures KeyLess(r[i], r[j]) {
      assert r[j] == rest[j - 1];
      if i > 0 {
        assert r[i] == rest[i - 1];
      }
    }
  }

  /** Index order is the only strictly sorted arrangement of a set of records. */
  lemma {:induction false} SortedIsUnique(a: seq<Message>, b: seq<Message>)
    requires StrictlySorted(a) && StrictlySorted(b)
    requires forall m :: m in a <==> m in b
    ensures a == b
    decreases |a|
  {
    assert |b| > 0 ==> b[0] in b;
    if |a| > 0 {
      assert a[0] in a;
      var k :| 0 <= k < |b| && b[k] == a[0];
      assert b[0] in b;
      var j :| 0 <= j < |a| && a[j] == b[0];
      KeyLessAsymmetric(a[0], b[0]);
      KeyLessIrreflexive(a[0]);
      assert a[0] == b[0];
      forall m ensures m in a[1..] <==> m in b[1..] {
        KeyLessIrreflexive(m);
        if m in a[1..] {
          var i :| 1 <= i < |a| && a[i] == m;
          assert m in a;
          var i' :| 0 <= i' < |b| && b[i'] == m;
          assert i' != 0;
          assert b[1..][i' - 1] == m;
        }
        if m in b[1..] {
          var i :| 1 <= i < |b| && b[i] == m;
          assert m in b;
          var i' :| 0 <= i' < |a| && a[i'] == m;
          assert i' != 0;
          assert a[1..][i' - 1] == m;
        }
      }
      SortedIsUnique(a[1..], b[1..]);
    }
  }

  lemma {:induction false} StrLessAsymmetric(a: string, b: string)
    ensures !(StrLess(a, b) && StrLess(b, a))
    decreases |a|
  {
    if |a| > 0 && |b| > 0 && a[0] == b[0] {
      StrLessAsymmetric(a[1..], b[1..]);
    }
  }

  lemma KeyLessAsymmetric(a: Message, b: Message)
    ensures !(KeyLess(a, b) && KeyLess(b, a))
  {
    StrLessAsymmetric(a.messageId, b.messageId);
  }

  /** No record of `s` has a smaller primary key than `m`: the record an index
      whose key all records of `s` share hands out first. */
  predicate IsFirstById(m: Message, s: set<Message>) {
    m in s && forall x :: x in s ==> !StrLess(x.messageId, m.messageId)
  }

  lemma {:induction false} FirstByIdExists(s: set<Message>)
    requires s != {}
    ensures exists m :: IsFirstById(m, s)
    decreases |s|
  {
    var y :| y in s;
    var rest := s - {y};
    if rest == {} {
      assert s == {y};
      StrLessIrreflexive(y.messageId);
      assert IsFirstById(y, s);
    } else {
      FirstByIdExists(rest);
      var m :| IsFirstById(m, rest);
      if StrLess(y.messageId, m.messageId) {
        forall x | x in s ensures !StrLess(x.messageId, y.messageId) {
          if x in rest {
            if StrLess(x.messageId, y.messageId) {
              StrLessTransitive(x.messageId, y.messageId, m.messageId);
            }
          } else {
            StrLessIrreflexive(y.messageId);
          }
        }
        assert IsFirstById(y, s);
      } else {
        StrLessIrreflexive(m.messageId);
        assert IsFirstById(m, s);
      }
    }
  }
}

=== FILE: jid.dfy ===
/** Validated XMPP addresses (JIDs) of the form `[local@]domain[/resource]`,
    as in section 2.1 of RFC 6122, checked by one regular expression plus
    domain and length rules. Lengths are JavaScript lengths (UTF-16 code
    units), not the octet counts of sections 2.2-2.4 of RFC 6122. */
module Jid {
  import opened Wrappers
  import opened Text

  /** The reasons an `InvalidJIDError` is thrown with. */
  datatype JidError =
    | EmptyJid
    | SurroundingWhitespace
    | BadFormat
    | MissingDomain
    | DomainWithoutDot
    | LocalTooLong
    | DomainTooLong
    | ResourceTooLong
    | InvalidResource

  /** The three capture groups of `JID_REGEX`. */
  datatype Captures = Captures(local: Option<string>, domain: string, resource: Option<string>)

  /** The largest length a local part, domain or resource may have. */
  const MaxPartLength: nat := 1023

  /** The characters excluded from local part and domain by `[^@/<>'"]`. */
  predicate IsExcluded(c: char) {
    c == '@' || c == '/' || c == '<' || c == '>' || c == '\'' || c == '"'
  }

  /** Text matched by `[^@/<>'"]+`. Whitespace inside is allowed. */
  predicate IsSegment(s: string) {
    |s| > 0 && forall i :: 0 <= i < |s| ==> !IsExcluded(s[i])
  }

  /** Text matched by `.+`: anything but line terminators, at least one character. */
  predicate IsResourceText(s: string) {
    |s| > 0 && forall i :: 0 <= i < |s| ==> !IsLineTerminator(s[i])
  }

  predicate WellFormed(c: Captures) {
    && (c.local.Some? ==> IsSegment(c.local.value))
    && IsSegment(c.domain)
    && (c.resource.Some? ==> IsResourceText(c.resource.value))
  }

  /** `local@domain`, or just the domain. */
  function Bare(c: Captures): string {
    (if c.local.Some? then c.local.value + "@" else "") + c.domain
  }

  /** The text the captures were taken from. */
  function Render(c: Captures): string {
    Bare(c) + (if c.resource.Some? then "/" + c.resource.value else "")
  }

  lemma BareHasNoSlash(c: Captures)
    requires WellFormed(c)
    ensures '/' !in Bare(c)
  {
    var b := Bare(c);
    forall i | 0 <= i < |b| ensures b[i] != '/' {
      if c.local.Some? && i < |c.local.value| {
        assert b[i] == c.local.value[i];
      } else if c.local.Some? && i > |c.local.value| {
        assert b[i] == c.domain[i - |c.local.value| - 1];
      } else if c.local.None? {
        assert b[i] == c.domain[i];
      }
    }
  }

  /** `JID_REGEX.exec(s)`. No `/` can appear in the local part or the domain,
      so the first `/` ends the domain; the first `@` before it ends the local part. */
  function MatchJid(s: string): (r: Option<Captures>)
    ensures r.Some? ==> WellFormed(r.value) && Render(r.value) == s
    ensures r.Some? ==> Bare(r.value) == Before(s, '/')
    ensures r.Some? ==> r.value.resource == ResourceOf(s)
  {
    var resource := ResourceOf(s);
    if resource.Some? && !IsResourceText(resource.value) then None
    else match MatchBare(Before(s, '/'))
      case None => None
      case Some(c) =>
        var r := Captures(c.local, c.domain, resource);
        RenderSplit(r, s);
        Some(r)
  }

  /** The text after the first `/`, if there is one. */
  function ResourceOf(s: string): Option<string> {
    if '/' in s then Some(s[|Before(s, '/')| + 1..]) else None
  }

  /** Captures whose bare part is the text before the first `/` and whose resource
      is the text after it render back to the whole text. */
  lemma RenderSplit(c: Captures, s: string)
    requires Bare(c) == Before(s, '/')
    requires c.resource == ResourceOf(s)
    ensures Render(c) == s
  {
    if '/' in s {
      var b := Before(s, '/');
      assert s == b + "/" + s[|b| + 1..];
    }
  }

  /** The part of `JID_REGEX` before the optional `/resource` group, applied to
      text without a `/`. */
  function MatchBare(bare: string): (r: Option<Captures>)
    ensures r.Some? ==> WellFormed(r.value) && Bare(r.value) == bare && r.value.resource.None?
  {
    if '@' in bare then
      var local := Before(bare, '@');
      var domain := bare[|local| + 1..];
      if IsSegment(local) && IsSegment(domain) then
        assert bare == local + "@" + domain;
        Some(Captures(Some(local), domain, None))
      else None
    else if IsSegment(bare) then Some(Captures(None, bare, None))
    else None
  }

  /** The regular expression matches a rendered address and gives back its parts:
      together with the first ensures of `MatchJid`, a match is exactly a well-formed
      decomposition, and it is unique. */
  lemma MatchRender(c: Captures)
    requires WellFormed(c)
    ensures MatchJid(Render(c)) == Some(c)
  {
    var b := Bare(c);
    var s := Render(c);
    BareHasNoSlash(c);
    if c.resource.Some? {
      assert s == b + ['/'] + c.resource.value;
      BeforeOfConcat(b, '/', c.resource.value);
      assert s[|b| + 1..] == c.resource.value;
    } else {
      BeforeOfFree(s, '/');
    }
    assert Before(s, '/') == b;
    MatchBareOfBare(c);
  }

  lemma MatchBareOfBare(c: Captures)
    requires WellFormed(c)
    ensures MatchBare(Bare(c)) == Some(c.(resource := None))
  {
    if c.local.Some? {
      var b := Bare(c);
      assert b == c.local.value + ['@'] + c.domain;
      BeforeOfConcat(c.local.value, '@', c.domain);
      assert b[|c.local.value| + 1..] == c.domain;
    } else {
      assert !IsExcluded(c.domain[0]);
      assert '@' !in c.domain;
      assert Bare(c) == c.domain;
    }
  }

  /** The domain and length rules applied after the regular expression matched. */
  predicate Acceptable(c: Captures) {
    && (c.domain == "localhost" || '.' in c.domain)
    && (c.local.Some? ==> Utf16Length(c.local.value) <= MaxPartLength)
    && Utf16Length(c.domain) <= MaxPartLength
    && (c.resource.Some? ==> Utf16Length(c.resource.value) <= MaxPartLength)
  }

  /** Neither end of `s` is whitespace (`s.trim() === s` for non-empty `s`). */
  predicate HasNoSurroundingSpace(s: string) {
    |s| > 0 && !IsJsWhitespace(s[0]) && !IsJsWhitespace(s[|s| - 1])
  }

  /** `validateJIDFormat`: the checks in source order, each with its own error. */
  function Validate(s: string): (r: Result<Captures, JidError>)
    ensures r.Success? ==> WellFormed(r.value) && Render(r.value) == s
    ensures r.Success? ==> Acceptable(r.value) && HasNoSurroundingSpace(s)
    ensures r.Success? ==> MatchJid(s) == Some(r.value)
  {
    TrimIsIdentity(s);
    if |s| == 0 then Failure(EmptyJid)
    else if Trim(s) != s then Failure(SurroundingWhitespace)
    else match MatchJid(s)
      case None => Failure(BadFormat)
      case Some(c) => CheckParts(c)
  }

  /** The domain and length checks of `validateJIDFormat`, in source order. */
  function CheckParts(c: Captures): (r: Result<Captures, JidError>)
    ensures r.Success? <==> Acceptable(c)
    ensures r.Success? ==> r.value == c
  {
    if |c.domain| == 0 then Failure(MissingDomain)
    else if c.domain != "localhost" && '.' !in c.domain then Failure(DomainWithoutDot)
    else if c.local.Some? && Utf16Length(c.local.value) > MaxPartLength then Failure(LocalTooLong)
    else if Utf16Length(c.domain) > MaxPartLength then Failure(DomainTooLong)
    else if c.resource.Some? && Utf16Length(c.resource.value) > MaxPartLength then Failure(ResourceTooLong)
    else Success(c)
  }

  /** Every well-formed, acceptable address with no whitespace at either end is valid:
      the converse of the ensures of `Validate`, so validity is an if-and-only-if. */
  lemma ValidateComplete(c: Captures)
    requires WellFormed(c) && Acceptable(c) && HasNoSurroundingSpace(Render(c))
    ensures Validate(Render(c)) == Success(c)
  {
    MatchRender(c);
    TrimIsIdentity(Render(c));
  }

  /** `isValidJID` */
  predicate IsValidJid(s: string) {
    Validate(s).Success?
  }

  /** `createJID`: the input itself, or the validation error. */
  function CreateJid(s: string): (r: Result<string, JidError>)
    ensures r.Success? <==> IsValidJid(s)
    ensures r.Success? ==> r.value == s
    ensures r.Failure? ==> r.error == Validate(s).error
  {
    var _ :- Validate(s);
    Success(s)
  }

  /** `createBareJID`: validates the whole input, then drops the resource
      WITHOUT lower-casing, unlike `NormalizeJid`. */
  function CreateBareJid(s: string): (r: Result<string, JidError>)
    ensures r.Success? <==> IsValidJid(s)
    ensures r.Success? ==> r.value == Bare(Validate(s).value) && r.value <= s && '/' !in r.value
  {
    var c :- Validate(s);
    BareHasNoSlash(c);
    Success(Before(s, '/'))
  }

  /** `tryCreateJID` */
  function TryCreateJid(s: string): (r: Option<string>)
    ensures r.Some? <==> IsValidJid(s)
    ensures r.Some? ==> r.value == s
  {
    CreateJid(s).ToOption()
  }

  /** `tryCreateBareJID` */
  function TryCreateBareJid(s: string): (r: Option<string>)
    ensures r.Some? <==> IsValidJid(s)
    ensures r.Some? ==> r.value == Before(s, '/')
  {
    CreateBareJid(s).ToOption()
  }

  /** `normalizeJID`: validates only the text before the first `/`, then
      lower-cases it. The resource is never looked at. */
  function NormalizeJid(s: string): (r: Result<string, JidError>)
    ensures r.Success? <==> IsValidJid(Before(s, '/'))
    ensures r.Success? ==> r.value == Lower(Before(s, '/'))
  {
    var _ :- Validate(Before(s, '/'));
    Success(Lower(Before(s, '/')))
  }

  /** `toBareJID` is `normalizeJID`. */
  function ToBareJid(s: string): (r: Result<string, JidError>)
    ensures r == NormalizeJid(s)
  {
    NormalizeJid(s)
  }

  predicate NoAsciiUpper(s: string) {
    forall i :: 0 <= i < |s| ==> !IsAsciiUpper(s[i])
  }

  lemma ExcludedUnderLower(x: char)
    ensures IsExcluded(LowerChar(x)) <==> IsExcluded(x)
    ensures IsJsWhitespace(LowerChar(x)) <==> IsJsWhitespace(x)
    ensures IsLineTerminator(LowerChar(x)) <==> IsLineTerminator(x)
  {
  }

  lemma SegmentUnderLower(s: string)
    requires IsSegment(s)
    ensures IsSegment(Lower(s))
  {
    forall i | 0 <= i < |s| ensures !IsExcluded(Lower(s)[i]) {
      ExcludedUnderLower(s[i]);
    }
  }

  /** The captures of the lower-cased text: local part and domain lower-cased. */
  function LowerCaptures(c: Captures): Captures {
    Captures(if c.local.Some? then Some(Lower(c.local.value)) else None, Lower(c.domain), c.resource)
  }

  lemma BareOfLower(c: Captures)
    ensures Bare(LowerCaptures(c)) == Lower(Bare(c))
  {
    if c.local.Some? {
      LowerOfConcat(c.local.value + "@", c.domain);
      LowerOfConcat(c.local.value, "@");
      assert Lower("@") == "@";
    }
  }

  lemma AcceptableUnderLower(c: Captures)
    requires WellFormed(c) && Acceptable(c)
    ensures WellFormed(LowerCaptures(c)) && Acceptable(LowerCaptures(c))
  {
    SegmentUnderLower(c.domain);
    Utf16LengthOfLower(c.domain);
    if c.local.Some? {
      SegmentUnderLower(c.local.value);
      Utf16LengthOfLower(c.local.value);
    }
    LowerKeepsOthers(c.domain, '.');
    if c.domain == "localhost" {
      LowerOfLowerCase(c.domain);
    }
  }

  /** Lower-casing a valid address without a resource keeps it valid
      ("localhost" and the dot rule are unaffected by ASCII lower-casing). */
  lemma LowerKeepsBareValid(b: string)
    requires IsValidJid(b) && '/' !in b
    ensures Validate(Lower(b)) == Success(LowerCaptures(Validate(b).value))
  {
    var c := Validate(b).value;
    RenderOfLower(b);
    AcceptableUnderLower(c);
    NoSurroundingSpaceUnderLower(b);
    ValidateComplete(LowerCaptures(c));
  }

  lemma RenderOfLower(b: string)
    requires IsValidJid(b) && '/' !in b
    ensures Render(LowerCaptures(Validate(b).value)) == Lower(b)
  {
    BareOfLower(Validate(b).value);
  }

  lemma NoSurroundingSpaceUnderLower(s: string)
    requires HasNoSurroundingSpace(s)
    ensures HasNoSurroundingSpace(Lower(s))
  {
    ExcludedUnderLower(s[0]);
    ExcludedUnderLower(s[|s| - 1]);
  }

  lemma LowerKeepsSlashes(s: string)
    ensures ('/' in Lower(s)) <==> ('/' in s)
    ensures Before(Lower(s), '/') == Lower(Before(s, '/'))
  {
    LowerKeepsOthers(s, '/');
    match Find(s, '/')
    case None =>
      BeforeOfFree(Lower(s), '/');
    case Some(i) =>
      LowerOfSlice(s, 0, i);
      assert Lower(s)[..i] == Lower(s[..i]);
      LowerKeepsOthers(s[..i], '/');
      FindIsFirst(Lower(s), '/', i);
  }

  /** A normalised address has no resource and no capital letter, and normalising
      it again changes nothing. */
  lemma {:induction false} NormalizeIsIdempotent(s: string)
    requires NormalizeJid(s).Success?
    ensures '/' !in NormalizeJid(s).value
    ensures NoAsciiUpper(NormalizeJid(s).value)
    ensures NormalizeJid(NormalizeJid(s).value) == NormalizeJid(s)
  {
    var b := Before(s, '/');
    var r := Lower(b);
    LowerKeepsSlashes(b);
    LowerIsIdempotent(b);
    BeforeOfFree(r, '/');
    LowerKeepsBareValid(b);
  }

  lemma EmptyResourceRejected()
    ensures Before("a@b.com/", '/') == "a@b.com"
    ensures !IsValidJid("a@b.com/")
  {
    var s := "a@b.com/";
    assert s[..7] == "a@b.com";
    FindIsFirst(s, '/', 7);
    assert MatchJid(s).None?;
  }

  lemma ExampleLower()
    ensures Lower("a@b.com") == "a@b.com"
  {
  }

  lemma ExampleBareValid()
    ensures IsValidJid("a@b.com")
  {
    var c := Captures(Some("a"), "b.com", None);
    assert Render(c) == "a@b.com";
    assert "b.com"[1] == '.';
    ValidateComplete(c);
  }

  /** `normalizeJID` accepts an empty resource that `isValidJID` rejects. */
  lemma NormalizeAcceptsEmptyResource()
    ensures !IsValidJid("a@b.com/")
    ensures NormalizeJid("a@b.com/") == Success("a@b.com")
  {
    EmptyResourceRejected();
    ExampleBareValid();
    ExampleLower();
  }

  /** Same address ignoring the resource: `normalizeJID` never looks past the first `/`. */
  lemma NormalizeIgnoresResource(b: string, res: string)
    requires '/' !in b
    ensures NormalizeJid(b + "/" + res) == NormalizeJid(b)
  {
    BeforeOfConcat(b, '/', res);
    BeforeOfFree(b, '/');
  }

  /** A normalisable address and its lower-cased spelling normalise alike. */
  lemma NormalizeIsCaseInsensitive(s: string)
    requires NormalizeJid(s).Success?
    ensures NormalizeJid(Lower(s)) == NormalizeJid(s)
  {
    var b := Before(s, '/');
    LowerKeepsSlashes(s);
    LowerKeepsBareValid(b);
    LowerKeepsSlashes(b);
    LowerIsIdempotent(b);
  }

  /** The `ParsedJID` record. */
  datatype ParsedJid = ParsedJid(local: Option<string>, domain: string, resource: Option<string>, bare: string, full: string)

  /** `parseJID`: local part and domain lower-cased, the resource verbatim. */
  function ParseJid(s: string): (r: Result<ParsedJid, JidError>)
    ensures r.Success? <==> IsValidJid(s)
    ensures r.Success? ==> r.value.full == s && r.value.bare == Lower(Before(s, '/'))
    ensures r.Success? ==> NoAsciiUpper(r.value.domain) && r.value.resource == Validate(s).value.resource
    ensures r.Success? && r.value.resource.Some? ==> s == Before(s, '/') + "/" + r.value.resource.value
    ensures r.Success? ==> var c := LowerCaptures(Validate(s).value); r.value.local == c.local && r.value.domain == c.domain
  {
    var c :- Validate(s);
    var local := if c.local.Some? then Some(Lower(c.local.value)) else None;
    LowerIsIdempotent(c.domain);
    ResourceSplit(s);
    Success(ParsedJid(local, Lower(c.domain), c.resource, Lower(Bare(c)), s))
  }

  lemma ResourceSplit(s: string)
    ensures '/' in s ==> s == Before(s, '/') + "/" + s[|Before(s, '/')| + 1..]
  {
    var b := Before(s, '/');
    assert s[..|b|] == b;
  }

  /** `getDomain` */
  function GetDomain(s: string): (r: Result<string, JidError>)
    ensures r.Success? <==> IsValidJid(s)
    ensures r.Success? ==> r.value == Lower(Validate(s).value.domain)
  {
    var p :- ParseJid(s);
    Success(p.domain)
  }

  /** `getLocal` */
  function GetLocal(s: string): (r: Result<Option<string>, JidError>)
    ensures r.Success? <==> IsValidJid(s)
    ensures r.Success? ==> (r.value.Some? <==> '@' in Before(s, '/'))
    ensures r.Success? ==> r.value == LowerCaptures(Validate(s).value).local
  {
    var p :- ParseJid(s);
    Success(p.local)
  }

  /** `getResource` */
  function GetResource(s: string): (r: Result<Option<string>, JidError>)
    ensures r.Success? <==> IsValidJid(s)
    ensures r.Success? ==> (r.value.Some? <==> '/' in s)
    ensures r.Success? && r.value.Some? ==> s == Before(s, '/') + "/" + r.value.value
  {
    var p :- ParseJid(s);
    Success(p.resource)
  }

  /** The bare part of a valid address agrees with `normalizeJID` whenever the
      character before the first `/` is not whitespace; `NormalizeRejectsValidJid`
      shows that the side condition is needed. */
  lemma ParseBareAgreesWithNormalize(s: string)
    requires IsValidJid(s)
    requires !IsJsWhitespace(Before(s, '/')[|Before(s, '/')| - 1])
    ensures NormalizeJid(s) == Success(ParseJid(s).value.bare)
  {
    var c := Validate(s).value;
    var c0 := Captures(c.local, c.domain, None);
    assert Render(c0) == Bare(c) == Before(s, '/');
    assert Before(s, '/')[0] == s[0];
    ValidateComplete(c0);
  }

  lemma SpacedExampleValid()
    ensures IsValidJid("a@b.c /r")
  {
    var c := Captures(Some("a"), "b.c ", Some("r"));
    assert Render(c) == "a@b.c /r";
    assert "b.c "[1] == '.';
    ValidateComplete(c);
  }

  lemma SpacedExampleBare()
    ensures Before("a@b.c /r", '/') == "a@b.c "
    ensures Validate("a@b.c ") == Failure(SurroundingWhitespace)
  {
    var s := "a@b.c /r";
    assert s[..6] == "a@b.c ";
    FindIsFirst(s, '/', 6);
    TrimIsIdentity("a@b.c ");
  }

  /** A valid address with whitespace before its resource cannot be normalised. */
  lemma NormalizeRejectsValidJid()
    ensures IsValidJid("a@b.c /r")
    ensures NormalizeJid("a@b.c /r") == Failure(SurroundingWhitespace)
  {
    SpacedExampleValid();
    SpacedExampleBare();
  }

  /** The normaliser `normalizeJID` evidently means to be: it accepts
      exactly the valid addresses, as `parseJID` and `isValidJID` do, and
      gives their lower-cased bare part. */
  function NormalizeValid(s: string): (r: Result<string, JidError>)
    ensures r.Success? <==> IsValidJid(s)
    ensures r.Success? ==> r.value == ParseJid(s).value.bare && r.value == Lower(Before(s, '/'))
    ensures r.Success? ==> '/' !in r.value && NoAsciiUpper(r.value)
  {
    var p :- ParseJid(s);
    LowerKeepsSlashes(Before(s, '/'));
    BeforeOfFree(Before(s, '/'), '/');
    LowerIsIdempotent(Before(s, '/'));
    Success(p.bare)
  }

  /** On the two addresses where `normalizeJID` and `isValidJID` part ways,
      the intended normaliser follows validity. */
  lemma NormalizeValidFollowsValidity()
    ensures NormalizeValid("a@b.c /r").Success? && NormalizeJid("a@b.c /r").Failure?
    ensures NormalizeValid("a@b.com/").Failure? && NormalizeJid("a@b.com/").Success?
  {
    NormalizeRejectsValidJid();
    NormalizeAcceptsEmptyResource();
  }

  /** `withResource`: normalise, check the resource, then validate the result. */
  function WithResource(s: string, resource: string): (r: Result<string, JidError>)
    ensures NormalizeJid(s).Failure? ==> r == Failure(NormalizeJid(s).error)
    ensures resource == [] || !HasNoSurroundingSpace(resource) ==> r.Failure?
    ensures r.Success? ==> r.value == NormalizeJid(s).value + "/" + resource && IsValidJid(r.value)
  {
    var bare :- ToBareJid(s);
    TrimIsIdentity(resource);
    if resource == [] || Trim(resource) != resource then Failure(InvalidResource)
    else CreateJid(bare + "/" + resource)
  }

  /** On success, the new address parses to the given resource and to the
      original bare address. */
  lemma WithResourceParses(s: string, resource: string)
    requires WithResource(s, resource).Success?
    ensures ParseJid(WithResource(s, resource).value).value.resource == Some(resource)
    ensures ParseJid(WithResource(s, resource).value).value.bare == ToBareJid(s).value
  {
    var bare := NormalizeJid(s).value;
    NormalizeIsIdempotent(s);
    JoinResource(bare, resource);
    LowerIsIdempotent(Before(s, '/'));
  }

  lemma JoinResource(bare: string, resource: string)
    requires '/' !in bare
    ensures '/' in bare + "/" + resource
    ensures Before(bare + "/" + resource, '/') == bare
    ensures (bare + "/" + resource)[|bare| + 1..] == resource
  {
    BeforeOfConcat(bare, '/', resource);
  }

  /** `areJIDsEqual`: false when either side cannot be normalised. */
  predicate AreJidsEqual(a: string, b: string) {
    match (ToBareJid(a), ToBareJid(b))
    case (Success(x), Success(y)) => x == y
    case _ => false
  }

  /** Equality of addresses is symmetric, ignores case and resource, and is
      reflexive exactly on the addresses `normalizeJID` accepts. */
  lemma AreJidsEqualProperties(a: string, b: string, res: string)
    ensures AreJidsEqual(a, b) <==> AreJidsEqual(b, a)
    ensures AreJidsEqual(a, a) <==> NormalizeJid(a).Success?
    ensures NormalizeJid(a).Success? ==> AreJidsEqual(a, Lower(a))
    ensures '/' !in a ==> (AreJidsEqual(a + "/" + res, b) <==> AreJidsEqual(a, b))
  {
    if NormalizeJid(a).Success? {
      NormalizeIsCaseInsensitive(a);
    }
    if '/' !in a {
      NormalizeIgnoresResource(a, res);
    }
  }

  /** `isSelfChat` */
  predicate IsSelfChat(me: string, contact: string) {
    AreJidsEqual(me, contact)
  }
}

=== FILE: jid_utils.dfy ===
/** The older address helpers kept for existing callers. Each delegates to
    the validated address functions of `Jid`; `parseJid` also flattens the
    parsed record into a user name that is `''` when there is no local part. */
module JidUtils {
  import opened Wrappers
  import opened Text
  import Jid

  /** `normalizeJid`: the owner-independent key of an address, or the error
      `normalizeJID` throws. */
  function NormalizeJid(s: string): (r: Result<string, Jid.JidError>)
    ensures r.Success? <==> Jid.IsValidJid(Before(s, '/'))
    ensures r.Success? ==> r.value == Lower(Before(s, '/'))
    ensures r.Success? ==> '/' !in r.value && Jid.NoAsciiUpper(r.value)
    ensures r.Success? ==> Jid.NormalizeJid(r.value) == r
  {
    var n := Jid.NormalizeJid(s);
    if n.Success? then (Jid.NormalizeIsIdempotent(s); n)
    else n
  }

  /** `getBareJid`: the same as `normalizeJid`, so the resource is dropped
      and the letters lower-cased, not merely the resource dropped. */
  function GetBareJid(s: string): (r: Result<string, Jid.JidError>)
    ensures r == NormalizeJid(s) && r == Jid.ToBareJid(s)
    ensures r.Success? && '/' !in s ==> r.value == Lower(s)
  {
    if '/' !in s then (BeforeOfFree(s, '/'); NormalizeJid(s))
    else NormalizeJid(s)
  }

  /** `isValidJid`: the text is exactly some acceptable address written out,
      with no whitespace at either end. */
  predicate IsValidJid(s: string)
    ensures IsValidJid(s) <==> exists c :: Jid.WellFormed(c) && Jid.Acceptable(c) && Jid.HasNoSurroundingSpace(Jid.Render(c)) && Jid.Render(c) == s
  {
    if Jid.IsValidJid(s) then
      var c := Jid.Validate(s).value;
      assert Jid.WellFormed(c) && Jid.Acceptable(c) && Jid.HasNoSurroundingSpace(Jid.Render(c)) && Jid.Render(c) == s;
      true
    else
      assert forall c :: Jid.WellFormed(c) && Jid.Acceptable(c) && Jid.HasNoSurroundingSpace(Jid.Render(c)) ==> Jid.Validate(Jid.Render(c)).Success? by {
        forall c | Jid.WellFormed(c) && Jid.Acceptable(c) && Jid.HasNoSurroundingSpace(Jid.Render(c))
          ensures Jid.Validate(Jid.Render(c)).Success?
        {
          Jid.ValidateComplete(c);
        }
      }
      false
  }

  /** The flattened record `parseJid` returns. */
  datatype LegacyJid = LegacyJid(username: string, domain: string, resource: Option<string>)

  /** `parseJid`: the parsed address flattened; an absent local part
      becomes the user name `''`. */
  function ParseJid(s: string): (r: Result<LegacyJid, Jid.JidError>)
    ensures r.Success? <==> Jid.IsValidJid(s)
    ensures r.Failure? ==> r.error == Jid.Validate(s).error
    ensures r.Success? ==>
      var p := Jid.ParseJid(s).value;
      r.value == LegacyJid(p.local.GetOr(""), p.domain, p.resource)
  {
    var p :- Jid.ParseJid(s);
    Success(LegacyJid(p.local.GetOr(""), p.domain, p.resource))
  }

  /** The flattened record loses nothing: the user name is empty exactly
      when the address has no local part, both parts are lower-case, and
      joined back together they give the normalised bare address. */
  lemma ParseJidJoinsBack(s: string)
    requires Jid.IsValidJid(s)
    ensures var v := ParseJid(s).value;
      && (v.username == [] <==> '@' !in Before(s, '/'))
      && (if v.username == [] then v.domain else v.username + "@" + v.domain) == Lower(Before(s, '/'))
      && Jid.NoAsciiUpper(v.username) && Jid.NoAsciiUpper(v.domain)
  {
    CapturesOfValid(s);
  }

  /** What the captures of a valid address say about its text. */
  lemma CapturesOfValid(s: string)
    requires Jid.IsValidJid(s)
    ensures var c := Jid.Validate(s).value;
      && Jid.Bare(c) == Before(s, '/')
      && (c.local.Some? <==> '@' in Before(s, '/'))
      && (c.local.Some? ==> c.local.value != [] && Jid.NoAsciiUpper(Lower(c.local.value)))
      && Jid.NoAsciiUpper(Lower(c.domain))
      && Jid.Bare(Jid.LowerCaptures(c)) == Lower(Before(s, '/'))
  {
    var c := Jid.Validate(s).value;
    assert Jid.MatchJid(s) == Some(c);
    CaptureFacts(c);
  }

  /** A local part is present exactly when the bare text holds an '@'. */
  lemma CaptureFacts(c: Jid.Captures)
    requires Jid.WellFormed(c)
    ensures c.local.Some? <==> '@' in Jid.Bare(c)
    ensures c.local.Some? ==> c.local.value != [] && Jid.NoAsciiUpper(Lower(c.local.value))
    ensures Jid.NoAsciiUpper(Lower(c.domain))
    ensures Jid.Bare(Jid.LowerCaptures(c)) == Lower(Jid.Bare(c))
  {
    Jid.BareOfLower(c);
    if c.local.Some? {
      assert Jid.Bare(c)[|c.local.value|] == '@';
      LowerIsIdempotent(c.local.value);
    } else {
      assert Jid.Bare(c) == [] + c.domain == c.domain;
      assert forall i :: 0 <= i < |c.domain| ==> c.domain[i] != '@';
    }
    LowerIsIdempotent(c.domain);
  }
}

=== FILE: listeners.dfy ===
/** Callback registries. The client keeps callbacks in JavaScript `Set`s, which
    iterate in insertion order and hold each callback once; here a callback is
    an opaque identifier and a registry is a duplicate-free sequence. */
module Listeners {

  type ListenerId = nat

  /** No element occurs twice (a `Set` in insertion order). */
  predicate NoDuplicates<T(==)>(s: seq<T>) {
    forall i, j :: 0 <= i < j < |s| ==> s[i] != s[j]
  }

  /** `set.add(l)`: appends `l` unless it is already there. */
  function Add(s: seq<ListenerId>, l: ListenerId): (r: seq<ListenerId>)
    ensures l in r && s <= r
    ensures forall x :: x in r <==> x in s || x == l
    ensures NoDuplicates(s) ==> NoDuplicates(r)
  {
    if l in s then s else s + [l]
  }

  /** `set.delete(l)`: drops `l` and keeps the others in order. */
  function Remove(s: seq<ListenerId>, l: ListenerId): (r: seq<ListenerId>)
    ensures forall x :: x in r <==> x in s && x != l
    ensures |r| <= |s|
    ensures NoDuplicates(s) ==> NoDuplicates(r)
  {
    if |s| == 0 then []
    else if s[0] == l then Remove(s[1..], l)
    else
      var t := Remove(s[1..], l);
      assert NoDuplicates(s) ==> NoDuplicates(s[1..]) && s[0] !in s[1..];
      assert forall i :: 0 < i <= |t| ==> ([s[0]] + t)[i] == t[i - 1];
      [s[0]] + t
  }

  /** Removing a callback that was just added to a registry that did not
      hold it gives back the registry as it was. */
  lemma {:induction false} RemoveUndoesAdd(s: seq<ListenerId>, l: ListenerId)
    requires l !in s
    ensures Remove(Add(s, l), l) == s
  {
    RemoveAbsent(s, l);
    RemoveOfConcat(s, [l], l);
  }

  lemma {:induction false} RemoveAbsent(s: seq<ListenerId>, l: ListenerId)
    requires l !in s
    ensures Remove(s, l) == s
  {
    if |s| > 0 {
      RemoveAbsent(s[1..], l);
    }
  }

  lemma {:induction false} RemoveOfConcat(a: seq<ListenerId>, b: seq<ListenerId>, l: ListenerId)
    ensures Remove(a + b, l) == Remove(a, l) + Remove(b, l)
  {
    if |a| > 0 {
      assert (a + b)[1..] == a[1..] + b;
      RemoveOfConcat(a[1..], b, l);
    } else {
      assert a + b == b;
    }
  }

  /** What calling every callback (or running every step) of a sequence in
      order did: the ones that ran, and whether an exception left the loop. */
  datatype Dispatch<T> = Dispatch(called: seq<T>, escaped: bool)

  /** `ls.forEach(l => { try { l(x) } catch {} })`: every callback runs, and
      none of the exceptions thrown by the callbacks in `throwing` escapes. */
  function CallIsolated<T>(ls: seq<T>, throwing: set<T>): (r: Dispatch<T>)
    ensures r.called == ls && !r.escaped
  {
    Dispatch(ls, false)
  }

  /** `ls.forEach(l => l(x))` without a `try`, or a run of awaited steps in
      one `try` block: the loop stops at the first element in `throwing`,
      whose exception escapes. */
  function CallUntilThrow<T(==)>(ls: seq<T>, throwing: set<T>): (r: Dispatch<T>)
    ensures r.called <= ls
    ensures r.escaped <==> exists i :: 0 <= i < |ls| && ls[i] in throwing
    ensures r.escaped ==> |r.called| > 0 && r.called[|r.called| - 1] in throwing
    ensures forall i :: 0 <= i < |r.called| - 1 ==> r.called[i] !in throwing
    ensures !r.escaped ==> r.called == ls
  {
    if |ls| == 0 then Dispatch([], false)
    else if ls[0] in throwing then Dispatch([ls[0]], true)
    else
      var rest := CallUntilThrow(ls[1..], throwing);
      assert forall i :: 1 <= i < |ls| ==> ls[i] == ls[1..][i - 1];
      Dispatch([ls[0]] + rest.called, rest.escaped)
  }
}

=== FILE: message_item.dfy ===
/** How one message row is drawn: the marker that decides its delivery
    status, the status it shows, and which of the three kinds of row a record
    becomes. Marker records (XEP-0333 chat markers and receipts) are stored
    next to the messages they refer to. */
module MessageItem {
  import opened Wrappers
  import opened Text
  import opened Records
  import MessagingContext

  /** `priority`: acknowledged 3, displayed 2, received 1, no kind 0. */
  function Priority(m: Message): (p: nat)
    ensures p <= 3
    ensures p == 0 <==> m.markerType.None?
    ensures p == 1 <==> m.markerType == Some(ReceivedMarker)
    ensures p == 2 <==> m.markerType == Some(DisplayedMarker)
    ensures p == 3 <==> m.markerType == Some(AcknowledgedMarker)
  {
    match m.markerType
    case None => 0
    case Some(t) =>
      match t
      case ReceivedMarker => 1
      case DisplayedMarker => 2
      case AcknowledgedMarker => 3
  }

  /** The sort comparator puts `a` strictly before `b`: higher priority, or
      the same priority and a later timestamp. */
  predicate SortsBefore(a: Message, b: Message) {
    Priority(a) > Priority(b) || (Priority(a) == Priority(b) && a.timestamp > b.timestamp)
  }

  /** `m.markerFor === id` */
  predicate Marks(m: Message, id: string) {
    m.markerFor == Some(id)
  }

  /** `findLatestMarker`: the first record of the stably sorted markers of
      `id`, i.e. the one of highest priority, latest among those, earliest
      in the list among those. */
  function FindLatestMarker(id: string, all: seq<Message>): (r: Option<Message>)
    ensures r.None? <==> forall m :: m in all ==> !Marks(m, id)
    ensures r.Some? ==> r.value in all && Marks(r.value, id)
    ensures r.Some? ==> forall m :: m in all && Marks(m, id) ==> !SortsBefore(m, r.value)
    decreases |all|
  {
    if |all| == 0 then None
    else
      var rest := FindLatestMarker(id, all[1..]);
      assert forall m :: m in all <==> m == all[0] || m in all[1..];
      if Marks(all[0], id) && (rest.None? || !SortsBefore(rest.value, all[0])) then Some(all[0])
      else rest
  }

  /** Every marker of `id` before position `k` sorts strictly after `all[k]`. */
  predicate BeatsEarlier(id: string, all: seq<Message>, k: nat)
    requires k < |all|
  {
    forall j :: 0 <= j < k && Marks(all[j], id) ==> SortsBefore(all[k], all[j])
  }

  /** Ties keep list order, as in a stable sort: every marker of `id` that
      comes earlier in the list than the chosen one sorts strictly after it. */
  lemma {:induction false} FindLatestMarkerIsStable(id: string, all: seq<Message>)
    requires FindLatestMarker(id, all).Some?
    ensures exists k: nat :: k < |all| && all[k] == FindLatestMarker(id, all).value && BeatsEarlier(id, all, k)
    decreases |all|
  {
    var r := FindLatestMarker(id, all).value;
    var rest := FindLatestMarker(id, all[1..]);
    if Marks(all[0], id) && (rest.None? || !SortsBefore(rest.value, all[0])) {
      assert all[0] == r;
    } else {
      FindLatestMarkerIsStable(id, all[1..]);
      var k: nat :| k < |all[1..]| && all[1..][k] == r && BeatsEarlier(id, all[1..], k);
      forall j | 0 <= j < k + 1 && Marks(all[j], id) ensures SortsBefore(all[k + 1], all[j]) {
        if j > 0 {
          assert all[j] == all[1..][j - 1];
        }
      }
      assert BeatsEarlier(id, all, k + 1);
    }
  }

  /** The text of a stored status. */
  function StatusName(s: Status): string {
    match s
    case Pending => "pending"
    case Sent => "sent"
    case Displayed => "displayed"
    case Acknowledged => "acknowledged"
    case Failed => "failed"
  }

  /** The text of a marker kind. */
  function MarkerName(t: MarkerType): string {
    match t
    case DisplayedMarker => "displayed"
    case AcknowledgedMarker => "acknowledged"
    case ReceivedMarker => "received"
  }

  /** `marker?.markerType || message.status`: the chosen marker's kind wins
      over the stored status. */
  function EffectiveStatus(marker: Option<Message>, status: Status): (r: string)
    ensures marker.Some? && marker.value.markerType.Some? ==> r == MarkerName(marker.value.markerType.value)
    ensures !(marker.Some? && marker.value.markerType.Some?) ==> r == StatusName(status)
  {
    if marker.Some? && marker.value.markerType.Some? then MarkerName(marker.value.markerType.value)
    else StatusName(status)
  }

  /** The tick classes of `renderCheckmarks`. */
  datatype Checkmark = PendingClock | SingleCheck | DoubleCheck | DoubleBlueCheck | FailedCross

  /** `renderCheckmarks`: pending, displayed, acknowledged and failed each
      have their own mark; `sent` and every other text get the single tick. */
  function Checkmarks(status: string): (c: Checkmark)
    ensures c == PendingClock <==> status == "pending"
    ensures c == DoubleCheck <==> status == "displayed"
    ensures c == DoubleBlueCheck <==> status == "acknowledged"
    ensures c == FailedCross <==> status == "failed"
    ensures c == SingleCheck <==> status != "pending" && status != "displayed" && status != "acknowledged" && status != "failed"
  {
    if status == "pending" then PendingClock
    else if status == "sent" then SingleCheck
    else if status == "displayed" then DoubleCheck
    else if status == "acknowledged" then DoubleBlueCheck
    else if status == "failed" then FailedCross
    else SingleCheck
  }

  /** What `MessageItem` draws for a record. */
  datatype View =
    | Bubble(mine: bool, checkmark: Option<Checkmark>)
    | Nothing
    | Placeholder(mine: bool)

  /** `MessageItem`: a record with text is a bubble, with ticks only on the
      owner's messages; a blank marker record draws nothing; any other blank
      record draws a placeholder. */
  function Render(m: Message, all: seq<Message>): (v: View)
    ensures v.Bubble? <==> !IsBlank(m.body)
    ensures v.Nothing? <==> IsBlank(m.body) && m.markerType.Some?
    ensures v.Placeholder? <==> IsBlank(m.body) && m.markerType.None?
    ensures !v.Nothing? ==> v.mine == (m.from == Me)
    ensures v.Bubble? ==> (v.checkmark.Some? <==> m.from == Me)
    ensures v.Bubble? && m.from == Me ==>
      v.checkmark == Some(Checkmarks(EffectiveStatus(FindLatestMarker(m.messageId, all), m.status)))
  {
    var mine := m.from == Me;
    if !IsBlank(m.body) then
      Bubble(mine, if mine then Some(Checkmarks(EffectiveStatus(FindLatestMarker(m.messageId, all), m.status))) else None)
    else if m.markerType.Some? then Nothing
    else Placeholder(mine)
  }

  /** The records the marker handlers save are never drawn. */
  lemma MarkerRecordsAreNotDrawn(kind: MarkerType, contact: string, markerId: string, now: int,
                                 generatedId: string, all: seq<Message>)
    ensures Render(MessagingContext.MarkerRecord(kind, contact, markerId, now, generatedId), all) == Nothing
  {
    var x := MessagingContext.MarkerRecord(kind, contact, markerId, now, generatedId);
    assert Trim(x.body) == [];
  }

  /** Once the contact acknowledged one of the owner's messages, the message
      shows the blue double tick, whatever other markers and status it has. */
  lemma AcknowledgedShowsBlue(m: Message, all: seq<Message>, ack: Message)
    requires !IsBlank(m.body) && m.from == Me
    requires ack in all && Marks(ack, m.messageId) && ack.markerType == Some(AcknowledgedMarker)
    ensures Render(m, all) == Bubble(true, Some(DoubleBlueCheck))
  {
    var r := FindLatestMarker(m.messageId, all);
    assert !SortsBefore(ack, r.value);
  }

  /** A displayed marker with nothing better shows the grey double tick. */
  lemma DisplayedShowsDouble(m: Message, all: seq<Message>, seen: Message)
    requires !IsBlank(m.body) && m.from == Me
    requires seen in all && Marks(seen, m.messageId) && seen.markerType == Some(DisplayedMarker)
    requires forall x :: x in all && Marks(x, m.messageId) ==> x.markerType != Some(AcknowledgedMarker)
    ensures Render(m, all) == Bubble(true, Some(DoubleCheck))
  {
    var r := FindLatestMarker(m.messageId, all);
    assert !SortsBefore(seen, r.value);
  }
}

=== FILE: message_repository.dfy ===
/** `MessageRepository`: the `messages` object store with its merge-on-save
    policy, its range query, and the per-conversation and global observers
    notified after each committed write. Every operation is one atomic update
    of the store; `now` is the wall clock read by the operation and `throwing`
    the set of callbacks that throw when called. */
module MessageRepository {
  import opened Wrappers
  import opened Records
  import opened Listeners
  import opened IndexOrder

  /** Every record is stored under its own `messageId` (the key path). */
  predicate WellKeyed(st: map<string, Message>) {
    forall id :: id in st ==> st[id].messageId == id
  }

  type Store = st: map<string, Message> | WellKeyed(st) witness map[]

  /** The store plus the observer registries: one `Set` of callbacks per
      conversation, and one of global callbacks. */
  datatype Repo = Repo(messages: Store, listeners: map<string, seq<ListenerId>>, globals: seq<ListenerId>)

  /** Registries hold each callback once. */
  predicate ValidRegistry(r: Repo) {
    && (forall jid :: jid in r.listeners ==> NoDuplicates(r.listeners[jid]))
    && NoDuplicates(r.globals)
  }

  /** One callback invocation `listener(jid)`. */
  datatype Call = Call(listener: ListenerId, jid: string)

  /** The callbacks registered for `jid` (none when the map has no entry). */
  function SpecificListeners(r: Repo, jid: string): seq<ListenerId> {
    if jid in r.listeners then r.listeners[jid] else []
  }

  /** `observe(jid, l)` */
  function Observe(r: Repo, jid: string, l: ListenerId): (r': Repo)
    ensures r'.messages == r.messages && r'.globals == r.globals
    ensures forall x :: x in SpecificListeners(r', jid) <==> x in SpecificListeners(r, jid) || x == l
    ensures forall j :: j != jid ==> SpecificListeners(r', j) == SpecificListeners(r, j)
    ensures ValidRegistry(r) ==> ValidRegistry(r')
  {
    r.(listeners := r.listeners[jid := Add(SpecificListeners(r, jid), l)])
  }

  /** The function returned by `observe(jid, l)`. */
  function Unobserve(r: Repo, jid: string, l: ListenerId): (r': Repo)
    ensures r'.messages == r.messages && r'.globals == r.globals
    ensures forall x :: x in SpecificListeners(r', jid) <==> x in SpecificListeners(r, jid) && x != l
    ensures forall j :: j != jid ==> SpecificListeners(r', j) == SpecificListeners(r, j)
    ensures ValidRegistry(r) ==> ValidRegistry(r')
  {
    if jid in r.listeners then r.(listeners := r.listeners[jid := Remove(r.listeners[jid], l)]) else r
  }

  /** `observeAll(l)` */
  function ObserveAll(r: Repo, l: ListenerId): (r': Repo)
    ensures r'.messages == r.messages && r'.listeners == r.listeners
    ensures forall x :: x in r'.globals <==> x in r.globals || x == l
    ensures ValidRegistry(r) ==> ValidRegistry(r')
  {
    r.(globals := Add(r.globals, l))
  }

  /** The function returned by `observeAll(l)`. */
  function UnobserveAll(r: Repo, l: ListenerId): (r': Repo)
    ensures r'.messages == r.messages && r'.listeners == r.listeners
    ensures forall x :: x in r'.globals <==> x in r.globals && x != l
    ensures ValidRegistry(r) ==> ValidRegistry(r')
  {
    r.(globals := Remove(r.globals, l))
  }

  /** Calling the unsubscribe function returned by `observe` removes exactly
      that callback: every registry reads as before the call to `observe`. */
  lemma UnobserveUndoesObserve(r: Repo, jid: string, l: ListenerId, j: string)
    requires l !in SpecificListeners(r, jid)
    ensures SpecificListeners(Unobserve(Observe(r, jid, l), jid, l), j) == SpecificListeners(r, j)
    ensures Unobserve(Observe(r, jid, l), jid, l).globals == r.globals
  {
    RemoveUndoesAdd(SpecificListeners(r, jid), l);
  }

  /** The same for `observeAll`. */
  lemma UnobserveAllUndoesObserveAll(r: Repo, l: ListenerId)
    requires l !in r.globals
    ensures UnobserveAll(ObserveAll(r, l), l) == r
  {
    RemoveUndoesAdd(r.globals, l);
  }

  /** The invocations `l(jid)` for the callbacks `ls`, in order. */
  function Tag(ls: seq<ListenerId>, jid: string): (calls: seq<Call>)
    ensures |calls| == |ls|
    ensures forall i :: 0 <= i < |ls| ==> calls[i] == Call(ls[i], jid)
  {
    if |ls| == 0 then [] else [Call(ls[0], jid)] + Tag(ls[1..], jid)
  }

  /** `notifyListeners(jid)`: the conversation's callbacks, then the global
      ones, each inside its own `try`, so a throwing callback stops no other. */
  function NotifyListeners(r: Repo, jid: string, throwing: set<ListenerId>): (calls: seq<Call>)
    ensures calls == Tag(SpecificListeners(r, jid), jid) + Tag(r.globals, jid)
  {
    var specific := CallIsolated(SpecificListeners(r, jid), throwing);
    var global := CallIsolated(r.globals, throwing);
    Tag(specific.called, jid) + Tag(global.called, jid)
  }

  /** One `notifyListeners` run per conversation of `jids`, in order. */
  function NotifyEach(r: Repo, jids: seq<string>, throwing: set<ListenerId>): (calls: seq<Call>)
    ensures forall c :: c in calls ==> c.jid in jids
    decreases |jids|
  {
    if |jids| == 0 then []
    else NotifyListeners(r, jids[0], throwing) + NotifyEach(r, jids[1..], throwing)
  }

  /** `affectedConversations`: the batch's conversations in order of first
      appearance, each once (a `Set` filled in batch order). */
  function AffectedConversations(ms: seq<Message>): (jids: seq<string>)
    ensures NoDuplicates(jids)
    ensures forall j :: j in jids <==> exists i :: 0 <= i < |ms| && ms[i].conversationJid == j
  {
    if |ms| == 0 then []
    else
      var init := ms[..|ms| - 1];
      var jids := AffectedConversations(init);
      var j := ms[|ms| - 1].conversationJid;
      assert forall i :: 0 <= i < |init| ==> init[i] == ms[i];
      if j in jids then jids else jids + [j]
  }

  /** How far a timestamp is from the clock, as `Math.abs(t - now)`. */
  function Distance(t: int, now: int): nat {
    if t >= now then t - now else now - t
  }

  /** The window, in milliseconds, of the "recent timestamp" rule. */
  const RecentWindow: nat := 5000

  /** The stored timestamp looks like a local placeholder (strictly within the window). */
  predicate IsRecent(t: int, now: int) {
    Distance(t, now) < RecentWindow
  }

  /** The incoming timestamp looks like a server time (strictly outside the window). */
  predicate IsNotRecent(t: int, now: int) {
    Distance(t, now) > RecentWindow
  }

  /** Result of `shouldUpdateExisting`. */
  datatype Update = Update(update: bool, updated: Message)

  /** `shouldUpdateExisting(existing, incoming)`. */
  function ShouldUpdateExisting(existing: Message, incoming: Message, now: int): (u: Update)
    ensures u.updated == existing.(status := u.updated.status, timestamp := u.updated.timestamp)
    ensures u.updated.status == Sent <==> existing.status == Sent || (existing.status == Pending && incoming.status == Sent)
    ensures u.updated.status != existing.status ==> existing.status == Pending && u.updated.status == Sent
    ensures u.updated.timestamp != existing.timestamp <==>
      IsRecent(existing.timestamp, now) && IsNotRecent(incoming.timestamp, now)
    ensures u.updated.timestamp != existing.timestamp ==> u.updated.timestamp == incoming.timestamp
    ensures u.update <==> u.updated != existing
  {
    var promote := existing.status == Pending && incoming.status == Sent;
    var retime := IsRecent(existing.timestamp, now) && IsNotRecent(incoming.timestamp, now);
    var updated := existing.(status := if promote then Sent else existing.status,
                             timestamp := if retime then incoming.timestamp else existing.timestamp);
    Update(promote || retime, updated)
  }

  /** The statuses and timestamps the batch `ms` carries for the key `id`. */
  function StatusesOf(ms: seq<Message>, id: string): set<Status> {
    set m | m in ms && m.messageId == id :: m.status
  }

  function TimesOf(ms: seq<Message>, id: string): set<int> {
    set m | m in ms && m.messageId == id :: m.timestamp
  }

  /** What merging the batch `ms` may do to a record `a`: only its status and
      timestamp change; the status only from pending to sent, and only when
      the batch has a sent copy; the timestamp only from a recent value to a
      non-recent value the batch carries. */
  predicate Evolves(a: Message, b: Message, ms: seq<Message>, now: int) {
    && b == a.(status := b.status, timestamp := b.timestamp)
    && (b.status == a.status || (a.status == Pending && b.status == Sent && Sent in StatusesOf(ms, a.messageId)))
    && (b.timestamp == a.timestamp
        || (IsRecent(a.timestamp, now) && IsNotRecent(b.timestamp, now) && b.timestamp in TimesOf(ms, a.messageId)))
  }

  lemma EvolvesTransitive(a: Message, b: Message, c: Message, ms: seq<Message>, now: int)
    requires Evolves(a, b, ms, now) && Evolves(b, c, ms, now)
    ensures Evolves(a, c, ms, now)
  {
  }

  lemma EvolvesWiden(a: Message, b: Message, small: seq<Message>, ms: seq<Message>, now: int)
    requires Evolves(a, b, small, now)
    requires forall m :: m in small ==> m in ms
    ensures Evolves(a, b, ms, now)
  {
  }

  /** One iteration of the `saveAll` loop: insert a new record, or put the
      merged record when `shouldUpdateExisting` says so. */
  function Apply(st: Store, m: Message, now: int): (r: Store)
    ensures r.Keys == st.Keys + {m.messageId}
    ensures forall id :: id in st && id != m.messageId ==> r[id] == st[id]
    ensures m.messageId !in st ==> r[m.messageId] == m
    ensures m.messageId in st ==> Evolves(st[m.messageId], r[m.messageId], [m], now)
  {
    if m.messageId !in st then st[m.messageId := m]
    else
      var u := ShouldUpdateExisting(st[m.messageId], m, now);
      if u.update then st[u.updated.messageId := u.updated] else st
  }

  function IdsOf(ms: seq<Message>): set<string> {
    set m | m in ms :: m.messageId
  }

  /** The first message of the batch with key `id`. */
  function FirstWithId(ms: seq<Message>, id: string): (m: Message)
    requires id in IdsOf(ms)
    ensures m in ms && m.messageId == id
  {
    if ms[0].messageId == id then ms[0]
    else
      assert forall m :: m in ms && m != ms[0] ==> m in ms[1..];
      FirstWithId(ms[1..], id)
  }

  /** The loop of `saveAll`: the messages of the batch in order, each one
      seeing the writes of the earlier ones. Records with a key outside the
      batch are left alone; a record that was stored evolves as `Evolves`
      allows; a new key holds the first message with that key, evolved by
      the rest of the batch. */
  function ApplyAll(st: Store, ms: seq<Message>, now: int): (r: Store)
    ensures r.Keys == st.Keys + IdsOf(ms)
    ensures forall id :: id in st && id !in IdsOf(ms) ==> r[id] == st[id]
    ensures forall id :: id in st ==> Evolves(st[id], r[id], ms, now)
    ensures forall id :: id in IdsOf(ms) && id !in st ==> Evolves(FirstWithId(ms, id), r[id], ms, now)
    decreases |ms|
  {
    if |ms| == 0 then st
    else
      var st1 := Apply(st, ms[0], now);
      var r := ApplyAll(st1, ms[1..], now);
      ApplyAllStep(st, ms, now, st1, r);
      r
  }

  lemma ApplyAllStep(st: Store, ms: seq<Message>, now: int, st1: Store, r: Store)
    requires |ms| > 0 && st1 == Apply(st, ms[0], now)
    requires r.Keys == st1.Keys + IdsOf(ms[1..])
    requires forall id :: id in st1 && id !in IdsOf(ms[1..]) ==> r[id] == st1[id]
    requires forall id :: id in st1 ==> Evolves(st1[id], r[id], ms[1..], now)
    requires forall id :: id in IdsOf(ms[1..]) && id !in st1 ==> Evolves(FirstWithId(ms[1..], id), r[id], ms[1..], now)
    ensures r.Keys == st.Keys + IdsOf(ms)
    ensures forall id :: id in st && id !in IdsOf(ms) ==> r[id] == st[id]
    ensures forall id :: id in st ==> Evolves(st[id], r[id], ms, now)
    ensures forall id :: id in IdsOf(ms) && id !in st ==> Evolves(FirstWithId(ms, id), r[id], ms, now)
  {
    IdsOfCons(ms);
    KeysStep(st, ms, now, st1, r);
    forall id | id in st
      ensures Evolves(st[id], r[id], ms, now)
    {
      StoredStep(st, ms, now, st1, r, id);
    }
    forall id | id in IdsOf(ms) && id !in st
      ensures Evolves(FirstWithId(ms, id), r[id], ms, now)
    {
      NewStep(st, ms, now, st1, r, id);
    }
  }

  lemma KeysStep(st: Store, ms: seq<Message>, now: int, st1: Store, r: Store)
    requires |ms| > 0 && st1 == Apply(st, ms[0], now)
    requires IdsOf(ms) == {ms[0].messageId} + IdsOf(ms[1..])
    requires r.Keys == st1.Keys + IdsOf(ms[1..])
    requires forall id :: id in st1 && id !in IdsOf(ms[1..]) ==> r[id] == st1[id]
    ensures r.Keys == st.Keys + IdsOf(ms)
    ensures forall id :: id in st && id !in IdsOf(ms) ==> r[id] == st[id]
  {
  }

  lemma IdsOfCons(ms: seq<Message>)
    requires |ms| > 0
    ensures IdsOf(ms) == {ms[0].messageId} + IdsOf(ms[1..])
    ensures forall m :: m in ms[1..] ==> m in ms
    ensures forall m :: m in [ms[0]] ==> m in ms
  {
    assert forall m :: m in ms ==> m == ms[0] || m in ms[1..];
  }

  lemma StoredStep(st: Store, ms: seq<Message>, now: int, st1: Store, r: Store, id: string)
    requires |ms| > 0 && st1 == Apply(st, ms[0], now) && id in st
    requires id in r && Evolves(st1[id], r[id], ms[1..], now)
    ensures Evolves(st[id], r[id], ms, now)
  {
    IdsOfCons(ms);
    EvolvesWiden(st1[id], r[id], ms[1..], ms, now);
    if id == ms[0].messageId {
      EvolvesWiden(st[id], st1[id], [ms[0]], ms, now);
      EvolvesTransitive(st[id], st1[id], r[id], ms, now);
    }
  }

  lemma NewStep(st: Store, ms: seq<Message>, now: int, st1: Store, r: Store, id: string)
    requires |ms| > 0 && st1 == Apply(st, ms[0], now) && id in IdsOf(ms) && id !in st && id in r
    requires id in st1 ==> Evolves(st1[id], r[id], ms[1..], now)
    requires id in IdsOf(ms[1..]) && id !in st1 ==> Evolves(FirstWithId(ms[1..], id), r[id], ms[1..], now)
    ensures Evolves(FirstWithId(ms, id), r[id], ms, now)
  {
    IdsOfCons(ms);
    if id == ms[0].messageId {
      EvolvesWiden(st1[id], r[id], ms[1..], ms, now);
    } else {
      EvolvesWiden(FirstWithId(ms[1..], id), r[id], ms[1..], ms, now);
    }
  }

  /** `saveAll(ms)`: the new repository and the callbacks run afterwards. */
  function SaveAll(r: Repo, ms: seq<Message>, now: int, throwing: set<ListenerId>): (res: (Repo, seq<Call>))
    ensures |ms| == 0 ==> res == (r, [])
    ensures res.0.listeners == r.listeners && res.0.globals == r.globals
    ensures res.0.messages == ApplyAll(r.messages, ms, now)
    ensures forall c :: c in res.1 ==> exists i :: 0 <= i < |ms| && ms[i].conversationJid == c.jid
  {
    if |ms| == 0 then (r, [])
    else (r.(messages := ApplyAll(r.messages, ms, now)), NotifyEach(r, AffectedConversations(ms), throwing))
  }

  /** Merging `m` into `rec` changes nothing. */
  predicate Settled(rec: Message, m: Message, now: int) {
    && !(rec.status == Pending && m.status == Sent)
    && !(IsRecent(rec.timestamp, now) && IsNotRecent(m.timestamp, now))
  }

  /** A record that is settled with respect to `m` stays so while it evolves. */
  lemma SettledPreserved(a: Message, b: Message, m: Message, ms: seq<Message>, now: int)
    requires Settled(a, m, now) && Evolves(a, b, ms, now)
    ensures Settled(b, m, now)
  {
  }

  /** After the loop of `saveAll`, every message of the batch is settled with
      the record stored under its key. */
  lemma {:induction false} SettledAfterApplyAll(st: Store, ms: seq<Message>, now: int)
    ensures forall m :: m in ms ==> m.messageId in ApplyAll(st, ms, now)
    ensures forall m :: m in ms ==> Settled(ApplyAll(st, ms, now)[m.messageId], m, now)
    decreases |ms|
  {
    if |ms| > 0 {
      var r := ApplyAll(st, ms, now);
      SettledAfterApplyAll(Apply(st, ms[0], now), ms[1..], now);
      SettledHead(st, ms, now);
      forall m | m in ms
        ensures m.messageId in r && Settled(r[m.messageId], m, now)
      {
        if m != ms[0] {
          assert m in ms[1..];
        }
      }
    }
  }

  lemma SettledHead(st: Store, ms: seq<Message>, now: int)
    requires |ms| > 0
    ensures ms[0].messageId in ApplyAll(st, ms, now)
    ensures Settled(ApplyAll(st, ms, now)[ms[0].messageId], ms[0], now)
  {
    var m0 := ms[0];
    var st1 := Apply(st, m0, now);
    var r := ApplyAll(st1, ms[1..], now);
    assert ApplyAll(st, ms, now) == r;
    AppliedIsSettled(st, m0, now);
    SettledPreserved(st1[m0.messageId], r[m0.messageId], m0, ms[1..], now);
  }

  /** Right after one step, the message is settled with its record. */
  lemma AppliedIsSettled(st: Store, m: Message, now: int)
    ensures Settled(Apply(st, m, now)[m.messageId], m, now)
  {
  }

  /** The loop of `saveAll` leaves a store alone when every message of the batch
      is already settled. */
  lemma {:induction false} ApplyAllSettled(st: Store, ms: seq<Message>, now: int)
    requires forall m :: m in ms ==> m.messageId in st && Settled(st[m.messageId], m, now)
    ensures ApplyAll(st, ms, now) == st
    decreases |ms|
  {
    if |ms| > 0 {
      assert Apply(st, ms[0], now) == st;
      IdsOfCons(ms);
      ApplyAllSettled(st, ms[1..], now);
    }
  }

  /** With the clock fixed, saving the same batch twice leaves the same store
      as saving it once. */
  lemma SaveAllIsIdempotent(r: Repo, ms: seq<Message>, now: int, throwing: set<ListenerId>)
    ensures SaveAll(SaveAll(r, ms, now, throwing).0, ms, now, throwing).0 == SaveAll(r, ms, now, throwing).0
  {
    SettledAfterApplyAll(r.messages, ms, now);
    ApplyAllSettled(ApplyAll(r.messages, ms, now), ms, now);
  }

  /** A key the store does not hold and that occurs once in the batch ends up
      holding that message exactly as given. */
  lemma NewMessageStoredAsGiven(st: Store, ms: seq<Message>, now: int, i: nat)
    requires i < |ms| && ms[i].messageId !in st
    requires forall j :: 0 <= j < |ms| && j != i ==> ms[j].messageId != ms[i].messageId
    ensures ApplyAll(st, ms, now)[ms[i].messageId] == ms[i]
  {
    var id := ms[i].messageId;
    assert forall m :: m in ms && m.messageId == id ==> m == ms[i];
    assert id in IdsOf(ms);
    assert StatusesOf(ms, id) == {ms[i].status};
    assert TimesOf(ms, id) == {ms[i].timestamp};
  }

  /** A stored status never goes back: it either stays, or goes from pending
      to sent. */
  lemma NoStatusRegression(st: Store, ms: seq<Message>, now: int, id: string)
    requires id in st
    ensures var s := ApplyAll(st, ms, now)[id].status;
      s == st[id].status || (st[id].status == Pending && s == Sent)
  {
  }

  function Occurrences(b: bool): nat {
    if b then 1 else 0
  }

  lemma {:induction false} TagCount(ls: seq<ListenerId>, d: string, c: Call)
    requires NoDuplicates(ls)
    ensures multiset(Tag(ls, d))[c] == Occurrences(c.jid == d && c.listener in ls)
    decreases |ls|
  {
    if |ls| > 0 {
      var rest := Tag(ls[1..], d);
      assert Tag(ls, d) == [Call(ls[0], d)] + rest;
      assert multiset(Tag(ls, d))[c] == multiset([Call(ls[0], d)])[c] + multiset(rest)[c];
      HeadAndRest(ls, c.listener);
      TagCount(ls[1..], d, c);
    }
  }

  /** Over a list of distinct conversations, the callback `c.listener` is
      called for `c.jid` once for each registry that holds it: the
      conversation's own and the global one. */
  lemma {:induction false} NotifyEachCount(r: Repo, jids: seq<string>, throwing: set<ListenerId>, c: Call)
    requires ValidRegistry(r) && NoDuplicates(jids)
    ensures multiset(NotifyEach(r, jids, throwing))[c] ==
      if c.jid in jids
      then Occurrences(c.listener in SpecificListeners(r, c.jid)) + Occurrences(c.listener in r.globals)
      else 0
    decreases |jids|
  {
    if |jids| > 0 {
      var d := jids[0];
      var rest := jids[1..];
      NotifyEachUnfold(r, jids, throwing, c);
      TagCount(SpecificListeners(r, d), d, c);
      TagCount(r.globals, d, c);
      NotifyEachCount(r, rest, throwing, c);
    }
  }

  lemma NotifyEachUnfold(r: Repo, jids: seq<string>, throwing: set<ListenerId>, c: Call)
    requires |jids| > 0 && NoDuplicates(jids)
    ensures multiset(NotifyEach(r, jids, throwing))[c]
      == multiset(Tag(SpecificListeners(r, jids[0]), jids[0]))[c] + multiset(Tag(r.globals, jids[0]))[c]
         + multiset(NotifyEach(r, jids[1..], throwing))[c]
    ensures NoDuplicates(jids[1..])
    ensures c.jid in jids <==> c.jid == jids[0] || c.jid in jids[1..]
    ensures c.jid == jids[0] ==> c.jid !in jids[1..]
  {
    var d := jids[0];
    var a := Tag(SpecificListeners(r, d), d);
    var b := Tag(r.globals, d);
    var rest := NotifyEach(r, jids[1..], throwing);
    assert NotifyEach(r, jids, throwing) == a + b + rest;
    MultisetOfConcat3(a, b, rest, c);
    HeadAndRest(jids, c.jid);
  }

  lemma MultisetOfConcat3(a: seq<Call>, b: seq<Call>, rest: seq<Call>, c: Call)
    ensures multiset(a + b + rest)[c] == multiset(a)[c] + multiset(b)[c] + multiset(rest)[c]
  {
  }

  lemma HeadAndRest<T>(s: seq<T>, x: T)
    requires |s| > 0 && NoDuplicates(s)
    ensures NoDuplicates(s[1..])
    ensures x in s <==> x == s[0] || x in s[1..]
    ensures x == s[0] ==> x !in s[1..]
  {
    assert s == [s[0]] + s[1..];
  }

  /** After a non-empty batch each callback runs once per registry that holds
      it for every conversation the batch touches, whichever callbacks throw,
      and callbacks of other conversations do not run. */
  lemma SaveAllNotifiesOncePerConversation(r: Repo, ms: seq<Message>, now: int, throwing: set<ListenerId>, c: Call)
    requires ValidRegistry(r) && |ms| > 0
    ensures multiset(SaveAll(r, ms, now, throwing).1)[c] ==
      if exists i :: 0 <= i < |ms| && ms[i].conversationJid == c.jid
      then Occurrences(c.listener in SpecificListeners(r, c.jid)) + Occurrences(c.listener in r.globals)
      else 0
  {
    NotifyEachCount(r, AffectedConversations(ms), throwing, c);
  }

  /** One day in milliseconds: the upper bound of a query without `before`
      lies one day after the clock. */
  const DayMillis: int := 86400000

  /** `IDBKeyRange.bound` throws a `DataError` for an empty or inverted range. */
  datatype RangeError = DataError

  /** The key range of `getForConversation`: `[jid, 0]` up to `[jid, before]`
      excluded, or up to `[jid, now + one day]` included. Records stamped
      before the epoch fall outside both. */
  predicate InRange(m: Message, jid: string, before: Option<int>, now: int) {
    && m.conversationJid == jid
    && 0 <= m.timestamp
    && (if before.Some? then m.timestamp < before.value else m.timestamp <= now + DayMillis)
  }

  /** The bounds are refused: the lower key is above the upper one, or equal
      to it while the upper bound is open. */
  predicate RangeIsInvalid(before: Option<int>, now: int) {
    if before.Some? then before.value <= 0 else now + DayMillis < 0
  }

  /** The records the index range yields. */
  ghost function Matching(st: Store, jid: string, before: Option<int>, now: int): (s: set<Message>)
    ensures DistinctIds(s)
    ensures forall m :: m in s <==> m in st.Values && InRange(m, jid, before, now)
  {
    set id | id in st && InRange(st[id], jid, before, now) :: st[id]
  }

  function Min(a: int, b: int): int {
    if a <= b then a else b
  }

  /** `if (limit && s.length > limit) s = s.slice(-limit)`: a limit of zero or
      none keeps everything, a positive one keeps the newest `limit`, and a
      negative one drops the oldest `-limit`. */
  function LimitNewest(s: seq<Message>, limit: Option<int>): (r: seq<Message>)
    ensures |r| <= |s| && r == s[|s| - |r|..]
    ensures limit.None? || limit.value == 0 || |s| <= limit.value ==> r == s
    ensures limit.Some? && 0 < limit.value < |s| ==> |r| == limit.value
    ensures limit.Some? && limit.value < 0 ==> |r| == |s| - Min(-limit.value, |s|)
  {
    if limit.Some? && limit.value != 0 && |s| > limit.value then
      if limit.value > 0 then s[|s| - limit.value..] else s[Min(-limit.value, |s|)..]
    else s
  }

  /** `getForConversation(jid, { limit, before })`. The index yields the range
      in (timestamp, messageId) order, which the stable sort by timestamp
      that follows leaves as it is. */
  ghost function GetForConversation(st: Store, jid: string, limit: Option<int>, before: Option<int>, now: int)
    : (r: Result<seq<Message>, RangeError>)
    ensures r.Failure? <==> RangeIsInvalid(before, now)
    ensures r.Success? ==> forall i :: 0 <= i < |r.value| ==> r.value[i] in Matching(st, jid, before, now)
    ensures r.Success? ==> forall i, j :: 0 <= i < j < |r.value| ==> r.value[i].timestamp <= r.value[j].timestamp
    ensures r.Success? ==> StrictlySorted(r.value)
    ensures r.Success? && (limit.None? || limit.value == 0) ==>
      forall m :: m in Matching(st, jid, before, now) ==> m in r.value
    ensures r.Success? && limit.Some? && limit.value > 0 ==>
      |r.value| == Min(limit.value, |Matching(st, jid, before, now)|)
    ensures r.Success? && limit.Some? && limit.value < 0 ==>
      |r.value| == |Matching(st, jid, before, now)| - Min(-limit.value, |Matching(st, jid, before, now)|)
    ensures r.Success? ==>
      (forall m, i :: m in Matching(st, jid, before, now) && m !in r.value && 0 <= i < |r.value|
         ==> m.timestamp <= r.value[i].timestamp)
    ensures r.Success? ==>
      (forall m, i :: m in Matching(st, jid, before, now) && m !in r.value && 0 <= i < |r.value|
         ==> KeyLess(m, r.value[i]))
  {
    if RangeIsInvalid(before, now) then Failure(DataError)
    else
      var all := InIndexOrder(Matching(st, jid, before, now));
      var r := LimitNewest(all, limit);
      KeepsNewest(all, r);
      Success(r)
  }

  /** A suffix of a sorted list holds the newest records. */
  lemma KeepsNewest(all: seq<Message>, r: seq<Message>)
    requires StrictlySorted(all) && |r| <= |all| && r == all[|all| - |r|..]
    ensures forall i, j :: 0 <= i < j < |r| ==> r[i].timestamp <= r[j].timestamp
    ensures StrictlySorted(r)
    ensures forall m, i :: m in all && m !in r && 0 <= i < |r| ==> m.timestamp <= r[i].timestamp
    ensures forall m, i :: m in all && m !in r && 0 <= i < |r| ==> KeyLess(m, r[i])
  {
    var d := |all| - |r|;
    assert all == all[..d] + r;
    forall m, i | m in all && m !in r && 0 <= i < |r|
      ensures KeyLess(m, r[i])
    {
      assert m in all[..d];
      var k :| 0 <= k < d && all[..d][k] == m;
      assert all[k] == m && r[i] == all[d + i];
    }
    forall i, j | 0 <= i < j < |r| ensures KeyLess(r[i], r[j]) {
      assert r[i] == all[d + i] && r[j] == all[d + j];
    }
  }

  /** Without a limit the query returns the one arrangement of the range that
      is strictly sorted by (timestamp, messageId). */
  lemma QueryIsIndexOrder(st: Store, jid: string, before: Option<int>, now: int, s: seq<Message>)
    requires !RangeIsInvalid(before, now)
    requires StrictlySorted(s) && forall m :: m in s <==> m in Matching(st, jid, before, now)
    ensures GetForConversation(st, jid, None, before, now) == Success(s)
  {
    var r := GetForConversation(st, jid, None, before, now).value;
    SortedIsUnique(r, s);
  }

  /** The keys of the records of conversation `jid`. */
  function KeysOf(st: Store, jid: string): (ks: set<string>)
    ensures forall id :: id in ks <==> id in st && st[id].conversationJid == jid
  {
    set id | id in st && st[id].conversationJid == jid
  }

  /** `countForConversation(jid)`: the size of the `by-conversationJid` range. */
  function CountForConversation(st: Store, jid: string): (r: nat)
    ensures r == 0 <==> forall id :: id in st ==> st[id].conversationJid != jid
    ensures r <= |st.Keys|
    ensures forall id :: id in st ==> st[id].conversationJid != jid || r > 0
    ensures r == |KeysOf(st, jid)|
  {
    SubsetSize(KeysOf(st, jid), st.Keys);
    |KeysOf(st, jid)|
  }

  /** A query returns at most as many records as the conversation holds. */
  lemma QueryBoundedByCount(st: Store, jid: string, limit: Option<int>, before: Option<int>, now: int)
    requires !RangeIsInvalid(before, now)
    ensures |GetForConversation(st, jid, limit, before, now).value| <= CountForConversation(st, jid)
  {
    var all := Matching(st, jid, before, now);
    var r := GetForConversation(st, jid, limit, before, now).value;
    var ids := set m | m in all :: m.messageId;
    assert ids <= KeysOf(st, jid);
    SizeOfKeyed(all, ids);
    SubsetSize(ids, KeysOf(st, jid));
    NoDupSize(r, all);
  }

  lemma {:induction false} SizeOfKeyed(all: set<Message>, ids: set<string>)
    requires DistinctIds(all) && ids == set m | m in all :: m.messageId
    ensures |ids| == |all|
    decreases |all|
  {
    if all != {} {
      var m :| m in all;
      var rest := all - {m};
      var restIds := set x | x in rest :: x.messageId;
      assert ids == restIds + {m.messageId};
      assert m.messageId !in restIds;
      SizeOfKeyed(rest, restIds);
    }
  }

  lemma SubsetSize<T>(a: set<T>, b: set<T>)
    requires a <= b
    ensures |a| <= |b|
  {
    assert b == a + (b - a);
  }

  /** A strictly sorted list of records from a set is no longer than the set. */
  lemma NoDupSize(r: seq<Message>, all: set<Message>)
    requires StrictlySorted(r) && forall i :: 0 <= i < |r| ==> r[i] in all
    ensures |r| <= |all|
  {
    var elems := set i | 0 <= i < |r| :: r[i];
    assert elems <= all;
    SubsetSize(elems, all);
    InjectiveSize(r);
  }

  lemma {:induction false} InjectiveSize(r: seq<Message>)
    requires StrictlySorted(r)
    ensures |set i | 0 <= i < |r| :: r[i]| == |r|
    decreases |r|
  {
    if |r| > 0 {
      var init := r[..|r| - 1];
      InjectiveSize(init);
      var a := set i | 0 <= i < |init| :: init[i];
      var b := set i | 0 <= i < |r| :: r[i];
      assert b == a + {r[|r| - 1]};
      forall i | 0 <= i < |init| ensures init[i] != r[|r| - 1] {
        KeyLessIrreflexive(r[i]);
      }
    }
  }

  /** `updateStatus(id, status)`: overwrites the status of a stored record,
      whatever it was, and notifies its conversation; an unknown key changes
      nothing and notifies no one. An empty `conversationJid` is falsy, so a
      record with one is updated without notification. */
  function UpdateStatus(r: Repo, id: string, status: Status, throwing: set<ListenerId>): (res: (Repo, seq<Call>))
    ensures res.0.listeners == r.listeners && res.0.globals == r.globals
    ensures res.0.messages.Keys == r.messages.Keys
    ensures forall k :: k in r.messages && k != id ==> res.0.messages[k] == r.messages[k]
    ensures id in r.messages ==> res.0.messages[id] == r.messages[id].(status := status)
    ensures res.1 != [] ==> id in r.messages
    ensures id in r.messages && r.messages[id].conversationJid != [] ==>
      res.1 == NotifyListeners(r, r.messages[id].conversationJid, throwing)
    ensures id in r.messages && r.messages[id].conversationJid == [] ==> res.1 == []
  {
    if id !in r.messages then (r, [])
    else
      var existing := r.messages[id];
      var r' := r.(messages := r.messages[id := existing.(status := status)]);
      if existing.conversationJid != [] then (r', NotifyListeners(r, existing.conversationJid, throwing))
      else (r', [])
  }

  /** `getByTempId(tempId)`: the first record of the `by-tempId` index range,
      that is the one with the smallest key among those whose `tempId` field
      equals `tempId`. */
  ghost function GetByTempId(st: Store, tempId: string): (r: Option<Message>)
    ensures r.None? <==> forall id :: id in st ==> st[id].tempId != Some(tempId)
    ensures r.Some? ==> r.value.messageId in st && st[r.value.messageId] == r.value
    ensures r.Some? ==> r.value.tempId == Some(tempId)
    ensures r.Some? ==> forall id :: id in st && st[id].tempId == Some(tempId) ==> !StrLess(id, r.value.messageId)
  {
    var found := set id | id in st && st[id].tempId == Some(tempId) :: st[id];
    assert forall id :: id in st && st[id].tempId == Some(tempId) ==> st[id] in found;
    if found == {} then None
    else
      FirstByIdExists(found);
      var m :| IsFirstById(m, found);
      forall id | id in st && st[id].tempId == Some(tempId) ensures !StrLess(id, m.messageId) {
        assert st[id] in found;
      }
      Some(m)
  }

  /** `updateMessageId(tempId, newId)`: the record found by `getByTempId` is
      deleted and a copy with key `newId`, the same `tempId` and status sent is
      put in its place (overwriting any record already stored under `newId`).
      No one is notified. */
  ghost function UpdateMessageId(r: Repo, tempId: string, newId: string): (r': Repo)
    ensures r'.listeners == r.listeners && r'.globals == r.globals
    ensures GetByTempId(r.messages, tempId).None? ==> r' == r
    ensures GetByTempId(r.messages, tempId).Some? ==>
      var m := GetByTempId(r.messages, tempId).value;
      && r'.messages.Keys == r.messages.Keys - {m.messageId} + {newId}
      && r'.messages[newId] == m.(messageId := newId, status := Sent)
      && forall k :: k in r.messages && k != m.messageId && k != newId ==> r'.messages[k] == r.messages[k]
  {
    match GetByTempId(r.messages, tempId)
    case None => r
    case Some(m) =>
      var copy := m.(messageId := newId, tempId := Some(tempId), status := Sent);
      r.(messages := (r.messages - {m.messageId})[newId := copy])
  }

  /** `delete(id)` */
  function Delete(r: Repo, id: string): (r': Repo)
    ensures r'.listeners == r.listeners && r'.globals == r.globals
    ensures r'.messages.Keys == r.messages.Keys - {id}
    ensures forall k :: k in r'.messages ==> r'.messages[k] == r.messages[k]
  {
    r.(messages := r.messages - {id})
  }

  /** `clear()`: empties the store and notifies no one. */
  function Clear(r: Repo): (r': Repo)
    ensures r'.listeners == r.listeners && r'.globals == r.globals
    ensures forall jid :: CountForConversation(r'.messages, jid) == 0
  {
    r.(messages := map[])
  }

  /** The store without the records of conversation `jid` (the cursor loop
      over the `by-conversationJid` range). */
  function WithoutConversation(st: Store, jid: string): (r: Store)
    ensures forall k :: k in r <==> k in st && st[k].conversationJid != jid
    ensures forall k :: k in r ==> r[k] == st[k]
  {
    map k | k in st && st[k].conversationJid != jid :: st[k]
  }

  /** `clearForConversation(jid)`: removes the conversation's records, keeps
      every other record, and notifies the conversation once. */
  function ClearForConversation(r: Repo, jid: string, throwing: set<ListenerId>): (res: (Repo, seq<Call>))
    ensures res.0.listeners == r.listeners && res.0.globals == r.globals
    ensures CountForConversation(res.0.messages, jid) == 0
    ensures forall k :: k in r.messages && r.messages[k].conversationJid != jid ==>
      k in res.0.messages && res.0.messages[k] == r.messages[k]
    ensures res.0.messages.Keys <= r.messages.Keys
    ensures res.1 == NotifyListeners(r, jid, throwing)
  {
    var st := WithoutConversation(r.messages, jid);
    assert KeysOf(st, jid) == {};
    (r.(messages := st), NotifyListeners(r, jid, throwing))
  }

  /** No two messages of the list share a key. */
  predicate UniqueIds(ms: seq<Message>) {
    forall i, j :: 0 <= i < j < |ms| ==> ms[i].messageId != ms[j].messageId
  }

  /** `for (m of ms) put(m)`: later messages overwrite earlier ones with the
      same key. */
  function PutAll(st: Store, ms: seq<Message>): (r: Store)
    ensures r.Keys == st.Keys + IdsOf(ms)
    ensures forall k :: k in st && k !in IdsOf(ms) ==> r[k] == st[k]
    ensures forall k :: k in IdsOf(ms) ==> r[k] in ms
    ensures UniqueIds(ms) ==> forall i :: 0 <= i < |ms| ==> r[ms[i].messageId] == ms[i]
    decreases |ms|
  {
    if |ms| == 0 then st
    else
      var st1 := st[ms[0].messageId := ms[0]];
      var r := PutAll(st1, ms[1..]);
      PutAllStep(st, ms, st1, r);
      r
  }

  lemma PutAllStep(st: Store, ms: seq<Message>, st1: Store, r: Store)
    requires |ms| > 0 && st1 == st[ms[0].messageId := ms[0]]
    requires r.Keys == st1.Keys + IdsOf(ms[1..])
    requires forall k :: k in st1 && k !in IdsOf(ms[1..]) ==> r[k] == st1[k]
    requires forall k :: k in IdsOf(ms[1..]) ==> r[k] in ms[1..]
    requires UniqueIds(ms[1..]) ==> forall i :: 0 <= i < |ms[1..]| ==> r[ms[1..][i].messageId] == ms[1..][i]
    ensures r.Keys == st.Keys + IdsOf(ms)
    ensures forall k :: k in st && k !in IdsOf(ms) ==> r[k] == st[k]
    ensures forall k :: k in IdsOf(ms) ==> r[k] in ms
    ensures UniqueIds(ms) ==> forall i :: 0 <= i < |ms| ==> r[ms[i].messageId] == ms[i]
  {
    IdsOfCons(ms);
    UniqueTail(ms);
    if UniqueIds(ms) {
      forall i | 0 <= i < |ms| ensures r[ms[i].messageId] == ms[i] {
        if i > 0 {
          assert ms[i] == ms[1..][i - 1];
        } else {
          assert ms[0].messageId in st1 && ms[0].messageId !in IdsOf(ms[1..]);
        }
      }
    }
  }

  lemma UniqueTail(ms: seq<Message>)
    requires |ms| > 0
    ensures UniqueIds(ms) ==> UniqueIds(ms[1..]) && ms[0].messageId !in IdsOf(ms[1..])
    ensures forall i :: 1 <= i < |ms| ==> ms[i] == ms[1..][i - 1]
  {
    if UniqueIds(ms) {
      forall i, j | 0 <= i < j < |ms[1..]| ensures ms[1..][i].messageId != ms[1..][j].messageId {
        assert ms[1..][i] == ms[i + 1] && ms[1..][j] == ms[j + 1];
      }
      forall m | m in ms[1..] ensures m.messageId != ms[0].messageId {
        var j :| 0 <= j < |ms[1..]| && ms[1..][j] == m;
        assert ms[j + 1] == m;
      }
    }
  }

  /** `replaceAllForConversation(jid, ms)`: in one transaction, remove the
      conversation's records and put every message of `ms`; then notify the
      conversation once. */
  function ReplaceAllForConversation(r: Repo, jid: string, ms: seq<Message>, throwing: set<ListenerId>)
    : (res: (Repo, seq<Call>))
    ensures res.0.listeners == r.listeners && res.0.globals == r.globals
    ensures res.0.messages == PutAll(WithoutConversation(r.messages, jid), ms)
    ensures res.1 == NotifyListeners(r, jid, throwing)
  {
    (r.(messages := PutAll(WithoutConversation(r.messages, jid), ms)), NotifyListeners(r, jid, throwing))
  }

  /** When every message of `ms` belongs to `jid` and no two share a key, the
      conversation holds exactly `ms` afterwards, and every record of another
      conversation whose key `ms` does not reuse is kept. */
  lemma ReplaceAllIsExact(r: Repo, jid: string, ms: seq<Message>, throwing: set<ListenerId>)
    requires UniqueIds(ms) && forall m :: m in ms ==> m.conversationJid == jid
    ensures var st := ReplaceAllForConversation(r, jid, ms, throwing).0.messages;
      && (forall k :: k in KeysOf(st, jid) <==> k in IdsOf(ms))
      && (forall m :: m in ms ==> st[m.messageId] == m)
      && (forall k :: k in r.messages && r.messages[k].conversationJid != jid && k !in IdsOf(ms)
            ==> k in st && st[k] == r.messages[k])
  {
    var st := ReplaceAllForConversation(r, jid, ms, throwing).0.messages;
    forall m | m in ms ensures st[m.messageId] == m {
      var i :| 0 <= i < |ms| && ms[i] == m;
    }
    forall k | k in IdsOf(ms) ensures k in KeysOf(st, jid) {
      assert st[k] in ms;
    }
  }

  /** After replacing a conversation with distinct-key messages of that
      conversation, its count is the number of messages given. */
  lemma CountAfterReplaceAll(r: Repo, jid: string, ms: seq<Message>, throwing: set<ListenerId>)
    requires UniqueIds(ms) && forall m :: m in ms ==> m.conversationJid == jid
    ensures CountForConversation(ReplaceAllForConversation(r, jid, ms, throwing).0.messages, jid) == |ms|
  {
    var st := ReplaceAllForConversation(r, jid, ms, throwing).0.messages;
    ReplaceAllIsExact(r, jid, ms, throwing);
    assert KeysOf(st, jid) == IdsOf(ms);
    UniqueIdsCount(ms);
  }

  /** Distinct keys: one key per message. */
  lemma {:induction false} UniqueIdsCount(ms: seq<Message>)
    requires UniqueIds(ms)
    ensures |IdsOf(ms)| == |ms|
    decreases |ms|
  {
    if |ms| > 0 {
      UniqueTail(ms);
      UniqueIdsCount(ms[1..]);
      IdsOfCons(ms);
    }
  }

  /** Optimistic send: a placeholder saved with its own key as `tempId` and
      then confirmed under the server's key leaves one record, under the new
      key, with status sent, and nothing under the placeholder key. */
  lemma PlaceholderIsConfirmed(r: Repo, m: Message, newId: string, now: int, throwing: set<ListenerId>)
    requires m.tempId == Some(m.messageId) && m.messageId !in r.messages && newId != m.messageId
    requires forall k :: k in r.messages ==> r.messages[k].tempId != m.tempId
    ensures var r1 := SaveAll(r, [m], now, throwing).0;
      var r2 := UpdateMessageId(r1, m.messageId, newId);
      && m.messageId !in r2.messages
      && r2.messages[newId] == m.(messageId := newId, status := Sent)
  {
    var r1 := SaveAll(r, [m], now, throwing).0;
    assert IdsOf([m]) == {m.messageId};
    NewMessageStoredAsGiven(r.messages, [m], now, 0);
    assert r1.messages[m.messageId] == m;
    assert GetByTempId(r1.messages, m.messageId) == Some(m);
  }
}

=== FILE: messaging_context.dfy ===
/** The live-message adapter of the messaging context. An incoming chat
    message becomes a stored record plus the conversation-summary updates
    that go with it; a chat marker (XEP-0333) becomes a marker record. Each
    handler runs its awaited steps inside one `try`: the first step that
    throws ends the handler and the exception is swallowed. The steps are
    returned as a log; the repositories that carry them out are outside this
    module. */
module MessagingContext {
  import opened Wrappers
  import opened Text
  import opened Records
  import opened Listeners
  import Jid
  import Conversations

  /** The fields of an incoming stanza the handlers read. An absent attribute
      is the empty string; `delay` is the parsed delay stamp. */
  datatype Stanza = Stanza(id: string, from: string, to: string, body: string, delay: Option<int>)

  /** The sender is the account owner: its address starts with the owner's
      bare address, compared without regard to case. */
  predicate SentByMe(from: string, myBare: string) {
    StartsWith(Lower(from), Lower(myBare))
  }

  /** `extractContactJid`: the recipient of the owner's own messages, the
      sender of anyone else's, normalised; or the error `normalizeJID` throws
      on the owner's address or on the chosen one. */
  function ExtractContactJid(from: string, to: string, myJid: string): (r: Result<string, Jid.JidError>)
    ensures Jid.NormalizeJid(myJid).Failure? ==> r.Failure?
    ensures Jid.NormalizeJid(myJid).Success? ==>
      r == Jid.NormalizeJid(if SentByMe(from, Jid.NormalizeJid(myJid).value) then to else from)
    ensures r.Success? ==> '/' !in r.value && Jid.NoAsciiUpper(r.value)
    ensures r.Success? ==> Jid.NormalizeJid(r.value) == r
  {
    var me :- Jid.NormalizeJid(myJid);
    var contact := if SentByMe(from, me) then to else from;
    var c :- Jid.NormalizeJid(contact);
    Jid.NormalizeIsIdempotent(contact);
    Success(c)
  }

  /** A sender spelling the owner's lower-case address in any case, followed
      by anything, passes the owner test. */
  lemma OwnSpelling(me: string, spelled: string, resource: string)
    requires Jid.NoAsciiUpper(me) && Lower(spelled) == me
    ensures SentByMe(spelled + resource, me)
  {
    LowerOfLowerCase(me);
    LowerOfConcat(spelled, resource);
    assert Lower(spelled + resource) == me + Lower(resource);
  }

  /** A message from any resource of the owner's address, in any spelling of
      its case, is filed under its recipient. */
  lemma OwnMessageGoesToRecipient(myJid: string, spelled: string, resource: string, to: string)
    requires Jid.NormalizeJid(myJid).Success?
    requires Lower(spelled) == Jid.NormalizeJid(myJid).value
    ensures ExtractContactJid(spelled + resource, to, myJid) == Jid.NormalizeJid(to)
  {
    Jid.NormalizeIsIdempotent(myJid);
    OwnSpelling(Jid.NormalizeJid(myJid).value, spelled, resource);
  }

  /** For a lower-case sender the case-insensitive owner test and the
      case-sensitive one of the archive rule agree. */
  lemma SameOwnerTest(from: string, myJid: string)
    requires Lower(from) == from
    requires Jid.NormalizeJid(myJid).Success?
    ensures SentByMe(from, Jid.NormalizeJid(myJid).value) <==> Conversations.IsOwn(from, myJid)
  {
    var me := Jid.NormalizeJid(myJid).value;
    Jid.NormalizeIsIdempotent(myJid);
    LowerOfLowerCase(me);
    assert Conversations.NormalizeJid(myJid) == me;
  }

  /** For a sender written in lower case the live rule and the archive rule
      of the conversations service pick the same contact; they differ only in
      that the archive rule's prefix test is case-sensitive. */
  lemma AgreesWithArchiveRule(from: string, to: string, myJid: string)
    requires Lower(from) == from
    requires ExtractContactJid(from, to, myJid).Success?
    ensures ExtractContactJid(from, to, myJid).value == Conversations.ExtractContactJid(from, to, myJid)
  {
    SameOwnerTest(from, myJid);
  }

  /** A sender that spells the owner's address with a capital letter is the
      owner here, but not for the archive rule. */
  lemma CapitalisedOwnSender()
    ensures SentByMe("A@b/c", "a@b")
    ensures !Conversations.IsOwn("A@b/c", "a@b")
  {
    assert Lower("A@b/c") == "a@b/c";
    assert Lower("a@b") == "a@b";
    assert Before("a@b", '/') == "a@b" by {
      BeforeOfFree("a@b", '/');
    }
  }

  // ------------------------------------------------------------ messages

  /** The record `handleMessage` saves, the contact it files it under, and
      whether the owner sent it. */
  datatype Incoming = Incoming(record: Message, contact: string, own: bool)

  /** The record built from a stanza with a body: the stanza's id (or the
      generated one), the normalised contact, the delay stamp (or now),
      status `sent`. */
  function ToRecord(m: Stanza, myJid: string, now: int, generatedId: string): (r: Result<Incoming, Jid.JidError>)
    ensures r.Success? <==> ExtractContactJid(m.from, m.to, myJid).Success?
    ensures r.Success? ==> r.value.contact == ExtractContactJid(m.from, m.to, myJid).value
    ensures r.Success? ==> r.value.own == SentByMe(m.from, Jid.NormalizeJid(myJid).value)
    ensures r.Success? ==>
      var x := r.value.record;
      && x.messageId == (if m.id != "" then m.id else generatedId)
      && x.conversationJid == r.value.contact
      && x.body == m.body
      && x.timestamp == (if m.delay.Some? then m.delay.value else now)
      && (x.from == Me <==> r.value.own)
      && x.status == Sent
      && x.tempId.None? && x.markerType.None? && x.markerFor.None?
  {
    var contact :- ExtractContactJid(m.from, m.to, myJid);
    var me := Jid.NormalizeJid(myJid).value;
    var own := SentByMe(m.from, me);
    // `normalizeJID(contactJid)` gives back the contact: it is already normalised.
    var record := Message(
      if m.id != "" then m.id else generatedId,
      contact,
      m.body,
      if m.delay.Some? then m.delay.value else now,
      if own then Me else Them,
      Sent, None, None, None);
    Success(Incoming(record, contact, own))
  }

  /** One awaited step of a handler, or one subscriber callback. */
  datatype Step =
    | SaveMessages(records: seq<Message>)
    | UpdateConversation(jid: string, lastMessage: LastMessage, updatedAt: int)
    | IncrementUnread(jid: string)
    | ReloadConversations
    | NotifySubscriber(callback: ListenerId)

  /** One callback step per subscriber, in registration order. */
  function Notifications(subscribers: seq<ListenerId>): (r: seq<Step>)
    ensures |r| == |subscribers|
    ensures forall k :: 0 <= k < |subscribers| ==> r[k] == NotifySubscriber(subscribers[k])
  {
    if |subscribers| == 0 then [] else [NotifySubscriber(subscribers[0])] + Notifications(subscribers[1..])
  }

  /** The steps `handleMessage` attempts for a record. */
  function Plan(x: Incoming, subscribers: seq<ListenerId>): (r: seq<Step>)
    ensures |r| == (if x.own then 3 else 4) + |subscribers|
    ensures r[0] == SaveMessages([x.record])
    ensures r[1] == UpdateConversation(x.contact,
      LastMessage(x.record.body, x.record.timestamp, x.record.from, x.record.messageId), x.record.timestamp)
    ensures IncrementUnread(x.contact) in r <==> !x.own
    ensures !x.own ==> r[2] == IncrementUnread(x.contact)
    ensures r[|r| - |subscribers| - 1] == ReloadConversations
    ensures forall i :: 0 <= i < |r| - |subscribers| ==> !r[i].NotifySubscriber?
    ensures forall k :: 0 <= k < |subscribers| ==> r[|r| - |subscribers| + k] == NotifySubscriber(subscribers[k])
  {
    var summary := LastMessage(x.record.body, x.record.timestamp, x.record.from, x.record.messageId);
    var writes := [SaveMessages([x.record]), UpdateConversation(x.contact, summary, x.record.timestamp)]
      + (if x.own then [] else [IncrementUnread(x.contact)])
      + [ReloadConversations];
    var notes := Notifications(subscribers);
    assert forall i :: 0 <= i < |writes| ==> (writes + notes)[i] == writes[i];
    writes + notes
  }

  /** What a handler did: the steps it attempted, in order, and whether an
      exception was thrown (and swallowed). */
  datatype Handled = Handled(steps: seq<Step>, caught: bool)

  /** The steps of `handleMessage` for a built record: the plan in order,
      up to and including the first step that throws. `throwing` holds the
      steps that throw: a failed write, or a subscriber callback that
      throws. */
  function RunPlan(x: Incoming, subscribers: seq<ListenerId>, throwing: set<Step>): (r: Handled)
    ensures r.steps <= Plan(x, subscribers)
    ensures r.caught <==> exists i :: 0 <= i < |Plan(x, subscribers)| && Plan(x, subscribers)[i] in throwing
    ensures r.caught ==> |r.steps| > 0 && r.steps[|r.steps| - 1] in throwing
    ensures forall i :: 0 <= i < |r.steps| - 1 ==> r.steps[i] !in throwing
    ensures !r.caught ==> r.steps == Plan(x, subscribers)
  {
    var d := CallUntilThrow(Plan(x, subscribers), throwing);
    Handled(d.called, d.escaped)
  }

  /** `handleMessage`: a stanza without a body is ignored; a contact address
      that cannot be normalised throws before anything is written; otherwise
      the plan runs. */
  function HandleMessage(m: Stanza, myJid: string, now: int, generatedId: string,
                         subscribers: seq<ListenerId>, throwing: set<Step>): (r: Handled)
    ensures m.body == "" ==> r == Handled([], false)
    ensures m.body != "" && ToRecord(m, myJid, now, generatedId).Failure? ==> r == Handled([], true)
    ensures m.body != "" && ToRecord(m, myJid, now, generatedId).Success? ==>
      r == RunPlan(ToRecord(m, myJid, now, generatedId).value, subscribers, throwing)
  {
    if m.body == "" then Handled([], false)
    else match ToRecord(m, myJid, now, generatedId)
      case Failure(_) => Handled([], true)
      case Success(x) => RunPlan(x, subscribers, throwing)
  }

  /** A subscriber hears of a message only after the record was saved, the
      unread count raised (for a contact's message) and the list reloaded,
      and no earlier step threw. */
  lemma {:induction false} NotifiedOnlyAfterWrites(x: Incoming, subscribers: seq<ListenerId>, throwing: set<Step>, i: nat)
    requires i < |RunPlan(x, subscribers, throwing).steps|
    requires RunPlan(x, subscribers, throwing).steps[i].NotifySubscriber?
    ensures var steps := RunPlan(x, subscribers, throwing).steps;
      var w := if x.own then 3 else 4;
      && w <= i
      && steps[0] == SaveMessages([x.record])
      && (!x.own ==> steps[2] == IncrementUnread(x.contact))
      && steps[w - 1] == ReloadConversations
      && forall j :: 0 <= j < i ==> steps[j] !in throwing
  {
    var plan := Plan(x, subscribers);
    var steps := RunPlan(x, subscribers, throwing).steps;
    assert steps <= plan;
    assert steps[i] == plan[i];
  }

  // ------------------------------------------------------------- markers

  /** The pseudo-record a marker handler saves: no body, from the contact,
      status `sent`, the marker's kind and the id of the message it marks. */
  function MarkerRecord(kind: MarkerType, contact: string, markerId: string, now: int, generatedId: string): (x: Message)
    ensures x.messageId == generatedId && x.conversationJid == contact
    ensures x.body == "" && x.timestamp == now && x.from == Them && x.status == Sent
    ensures x.markerType == Some(kind) && x.markerFor == Some(markerId) && x.tempId.None?
  {
    Message(generatedId, contact, "", now, Them, Sent, None, Some(kind), Some(markerId))
  }

  /** `handleDisplayedMarker` (kind `displayed`) and
      `handleAcknowledgedMarker` (kind `acknowledged`). `sender` is what
      `normalizeJID` made of the event's sender: the normalised address or
      the error it threw. An event without a marker id is ignored; otherwise
      the one marker record is saved under the sender. Only records are
      written: the conversation summary and its unread count are never
      touched. */
  function HandleMarker(kind: MarkerType, markerId: string, sender: Result<string, Jid.JidError>,
                        now: int, generatedId: string, throwing: set<Step>): (r: Handled)
    requires kind == DisplayedMarker || kind == AcknowledgedMarker
    ensures markerId == "" ==> r == Handled([], false)
    ensures markerId != "" && sender.Failure? ==> r == Handled([], true)
    ensures markerId != "" && sender.Success? ==>
      var save := SaveMessages([MarkerRecord(kind, sender.value, markerId, now, generatedId)]);
      r == Handled([save], save in throwing)
    ensures forall s :: s in r.steps ==> s.SaveMessages? && |s.records| == 1
  {
    if markerId == "" then Handled([], false)
    else match sender
      case Failure(_) => Handled([], true)
      case Success(contact) =>
        var d := CallUntilThrow([SaveMessages([MarkerRecord(kind, contact, markerId, now, generatedId)])], throwing);
        Handled(d.called, d.escaped)
  }

  /** The marker handlers on the event itself: the contact is what
      `normalizeJID` makes of the event's sender (`''` when absent). */
  function HandleMarkerEvent(kind: MarkerType, markerId: string, from: string,
                             now: int, generatedId: string, throwing: set<Step>): (r: Handled)
    requires kind == DisplayedMarker || kind == AcknowledgedMarker
    ensures markerId == "" ==> r == Handled([], false)
    ensures markerId != "" && Jid.NormalizeJid(from).Failure? ==> r == Handled([], true)
    ensures markerId != "" && Jid.NormalizeJid(from).Success? ==>
      var save := SaveMessages([MarkerRecord(kind, Lower(Before(from, '/')), markerId, now, generatedId)]);
      r == Handled([save], save in throwing)
  {
    HandleMarker(kind, markerId, Jid.NormalizeJid(from), now, generatedId, throwing)
  }

  // ------------------------------------------------------------- subscribers

  /** `subscribeToMessages`: the callback joins the set `handleMessage`
      notifies after its writes. */
  function SubscribeToMessages(subscribers: seq<ListenerId>, l: ListenerId): (r: seq<ListenerId>)
    ensures subscribers <= r
    ensures forall x :: x in r <==> x in subscribers || x == l
  {
    Add(subscribers, l)
  }

  /** The function `subscribeToMessages` returns: the callback leaves the set. */
  function UnsubscribeFromMessages(subscribers: seq<ListenerId>, l: ListenerId): (r: seq<ListenerId>)
    ensures forall x :: x in r <==> x in subscribers && x != l
  {
    Remove(subscribers, l)
  }

  /** A subscribed callback hears of every message whose writes all succeed. */
  lemma SubscriberIsNotified(x: Incoming, subscribers: seq<ListenerId>, l: ListenerId, throwing: set<Step>)
    requires forall s :: s in Plan(x, SubscribeToMessages(subscribers, l)) ==> s !in throwing
    ensures NotifySubscriber(l) in RunPlan(x, SubscribeToMessages(subscribers, l), throwing).steps
  {
    var subs := SubscribeToMessages(subscribers, l);
    var plan := Plan(x, subs);
    assert RunPlan(x, subs, throwing).steps == plan by {
      forall i | 0 <= i < |plan| ensures plan[i] !in throwing {
        assert plan[i] in plan;
      }
    }
    var k :| 0 <= k < |subs| && subs[k] == l;
    assert plan[|plan| - |subs| + k] == NotifySubscriber(l);
  }

  /** The plan calls back nobody but the given subscribers. */
  lemma PlanNotifiesOnlySubscribers(x: Incoming, subscribers: seq<ListenerId>, i: nat)
    requires i < |Plan(x, subscribers)| && Plan(x, subscribers)[i].NotifySubscriber?
    ensures Plan(x, subscribers)[i].callback in subscribers
  {
    var plan := Plan(x, subscribers);
    var k := i - (|plan| - |subscribers|);
    assert plan[|plan| - |subscribers| + k] == NotifySubscriber(subscribers[k]);
  }

  /** An unsubscribed callback is never called by the message handler. */
  lemma UnsubscribedIsNotNotified(x: Incoming, subscribers: seq<ListenerId>, l: ListenerId, throwing: set<Step>)
    ensures NotifySubscriber(l) !in RunPlan(x, UnsubscribeFromMessages(subscribers, l), throwing).steps
  {
    var subs := UnsubscribeFromMessages(subscribers, l);
    var steps := RunPlan(x, subs, throwing).steps;
    forall i | 0 <= i < |steps| ensures steps[i] != NotifySubscriber(l) {
      assert steps[i] == Plan(x, subs)[i];
      if steps[i].NotifySubscriber? {
        PlanNotifiesOnlySubscribers(x, subs, i);
      }
    }
  }
}

=== FILE: real_time_messaging.dfy ===
/** The real-time messaging service: it answers delivery-receipt requests
    (XEP-0184), hands receipts, chat states (XEP-0085) and chat messages to
    three handler registries plus one optional callback each from the
    configuration, and attaches itself to one XMPP client at a time. Every
    handler call sits in its own `try`, so a throwing handler is logged and the
    next one still runs; the calls are therefore the same whichever handlers
    throw, and they are returned as a log. */
module RealTimeMessaging {
  import opened Wrappers
  import opened Text
  import opened Listeners
  import Jid

  // --------------------------------------------------------- configuration

  /** A boolean option of `Partial<RealTimeMessagingConfig>`: the key left
      out, present but `undefined`, or given. */
  datatype Setting = Absent | Undefined | Given(value: bool)

  /** `{ enableX: true, ...config }`: a left-out key keeps the default; a key
      present as `undefined` overrides it and reads as false. */
  function Resolve(o: Setting): (b: bool)
    ensures o.Absent? ==> b
    ensures o.Undefined? ==> !b
    ensures o.Given? ==> b == o.value
  {
    match o
    case Absent => true
    case Undefined => false
    case Given(v) => v
  }

  /** The resolved configuration; the three callbacks are present or not. */
  datatype Config = Config(
    enableReceipts: bool, enableChatStates: bool, enableCarbons: bool,
    onMessageReceived: bool, onChatStateChanged: bool, onReceiptReceived: bool)

  /** What a caller passes to the constructor. */
  datatype Overrides = Overrides(
    enableReceipts: Setting, enableChatStates: Setting, enableCarbons: Setting,
    onMessageReceived: bool, onChatStateChanged: bool, onReceiptReceived: bool)

  const NoOverrides := Overrides(Absent, Absent, Absent, false, false, false)

  /** An XMPP client; `jid` is empty while the client has none. */
  datatype Client = Client(id: nat, jid: string)

  datatype Service = Service(
    client: Option<Client>,
    config: Config,
    messageHandlers: seq<ListenerId>,
    chatStateHandlers: seq<ListenerId>,
    receiptHandlers: seq<ListenerId>,
    isInitialized: bool)

  /** `new RealTimeMessagingService(config)`: receipts, chat states and
      carbons are on unless the configuration turns them off; no client, no
      handlers. */
  function NewService(o: Overrides): (s: Service)
    ensures s.config.enableReceipts == Resolve(o.enableReceipts)
    ensures s.config.enableChatStates == Resolve(o.enableChatStates)
    ensures s.config.enableCarbons == Resolve(o.enableCarbons)
    ensures s.config.onMessageReceived == o.onMessageReceived
    ensures s.config.onChatStateChanged == o.onChatStateChanged
    ensures s.config.onReceiptReceived == o.onReceiptReceived
    ensures s.client.None? && !s.isInitialized && !IsReady(s)
    ensures s.messageHandlers == [] && s.chatStateHandlers == [] && s.receiptHandlers == []
  {
    Service(None,
      Config(Resolve(o.enableReceipts), Resolve(o.enableChatStates), Resolve(o.enableCarbons),
        o.onMessageReceived, o.onChatStateChanged, o.onReceiptReceived),
      [], [], [], false)
  }

  // --------------------------------------------------------------- lifecycle

  datatype ClientEvent = MessageEvent | ChatStateEvent

  /** A call the service makes on a client. */
  datatype ClientCall = EnableCarbons(client: Client) | On(client: Client, event: ClientEvent) | Off(client: Client, event: ClientEvent)

  datatype Lifecycle = Lifecycle(service: Service, calls: seq<ClientCall>)

  /** `isReady` */
  predicate IsReady(s: Service) {
    s.isInitialized && s.client.Some?
  }

  /** `initialize(client)`: nothing when already initialised with this very
      client; otherwise the service takes the client, asks for carbons when
      they are enabled (a refusal is only logged) and listens for messages and
      chat states. The listeners on a previous client are left attached. */
  function Initialize(s: Service, c: Client): (r: Lifecycle)
    ensures s.isInitialized && s.client == Some(c) ==> r == Lifecycle(s, [])
    ensures !(s.isInitialized && s.client == Some(c)) ==>
      && r.service == s.(client := Some(c), isInitialized := true)
      && r.calls == (if s.config.enableCarbons then [EnableCarbons(c)] else []) + [On(c, MessageEvent), On(c, ChatStateEvent)]
    ensures IsReady(r.service) && r.service.client == Some(c)
    ensures forall x :: x in r.calls ==> x.client == c && !x.Off?
  {
    if s.isInitialized && s.client == Some(c) then Lifecycle(s, [])
    else
      var carbons := if s.config.enableCarbons then [EnableCarbons(c)] else [];
      Lifecycle(s.(client := Some(c), isInitialized := true), carbons + [On(c, MessageEvent), On(c, ChatStateEvent)])
  }

  /** `destroy`: detaches from the client, if any, and empties the three
      registries; the configuration stays. */
  function Destroy(s: Service): (r: Lifecycle)
    ensures !IsReady(r.service) && r.service.client.None?
    ensures r.service.messageHandlers == [] && r.service.chatStateHandlers == [] && r.service.receiptHandlers == []
    ensures r.service.config == s.config
    ensures s.client.None? ==> r.calls == []
    ensures s.client.Some? ==> r.calls == [Off(s.client.value, MessageEvent), Off(s.client.value, ChatStateEvent)]
  {
    var calls := if s.client.Some? then [Off(s.client.value, MessageEvent), Off(s.client.value, ChatStateEvent)] else [];
    Lifecycle(Service(None, s.config, [], [], [], false), calls)
  }

  // -------------------------------------------------------------- registries

  datatype Registry = Messages | ChatStates | Receipts

  function Handlers(s: Service, g: Registry): seq<ListenerId> {
    match g
    case Messages => s.messageHandlers
    case ChatStates => s.chatStateHandlers
    case Receipts => s.receiptHandlers
  }

  /** Replaces one registry and keeps everything else. */
  function WithHandlers(s: Service, g: Registry, hs: seq<ListenerId>): (r: Service)
    ensures Handlers(r, g) == hs
    ensures forall h :: h != g ==> Handlers(r, h) == Handlers(s, h)
    ensures r.client == s.client && r.config == s.config && r.isInitialized == s.isInitialized
  {
    match g
    case Messages => s.(messageHandlers := hs)
    case ChatStates => s.(chatStateHandlers := hs)
    case Receipts => s.(receiptHandlers := hs)
  }

  /** `onMessage`, `onChatState`, `onReceipt`: adds the callback to its
      registry (once) and leaves the other two alone. */
  function Subscribe(s: Service, g: Registry, l: ListenerId): (r: Service)
    ensures l in Handlers(r, g)
    ensures forall x :: x in Handlers(r, g) <==> x in Handlers(s, g) || x == l
    ensures forall h :: h != g ==> Handlers(r, h) == Handlers(s, h)
    ensures r.client == s.client && r.config == s.config && r.isInitialized == s.isInitialized
  {
    WithHandlers(s, g, Add(Handlers(s, g), l))
  }

  /** The function `onX` returns: removes exactly that callback from its
      registry. */
  function Unsubscribe(s: Service, g: Registry, l: ListenerId): (r: Service)
    ensures forall x :: x in Handlers(r, g) <==> x in Handlers(s, g) && x != l
    ensures forall h :: h != g ==> Handlers(r, h) == Handlers(s, h)
    ensures r.client == s.client && r.config == s.config && r.isInitialized == s.isInitialized
  {
    WithHandlers(s, g, Remove(Handlers(s, g), l))
  }

  /** Unsubscribing right after subscribing a new callback restores the
      service. */
  lemma UnsubscribeUndoesSubscribe(s: Service, g: Registry, l: ListenerId)
    requires l !in Handlers(s, g)
    ensures Unsubscribe(Subscribe(s, g, l), g, l) == s
  {
    RemoveUndoesAdd(Handlers(s, g), l);
  }

  // ------------------------------------------------------------ dispatching

  /** A call target: a registered handler, or the callback of the
      configuration. */
  datatype Callee = Handler(id: ListenerId) | ConfigCallback

  /** What a callee is called with. */
  datatype Payload =
    | MessagePayload
    | ReceiptPayload(receiptId: string, from: string)
    | ChatStatePayload(jid: string, state: ChatState)

  datatype ChatState = Active | Composing | Paused | Inactive | Gone

  /** What handling an event does on the wire and to the callbacks. */
  datatype Effect = SendReceipt(to: string, id: string) | Deliver(callee: Callee, payload: Payload)

  /** Every handler in registration order, each in its own `try`, then the
      callback of the configuration when there is one. */
  function Fanout(handlers: seq<ListenerId>, config: bool, p: Payload): (r: seq<Effect>)
    ensures |r| == |handlers| + (if config then 1 else 0)
    ensures forall k :: 0 <= k < |handlers| ==> r[k] == Deliver(Handler(handlers[k]), p)
    ensures config ==> r[|r| - 1] == Deliver(ConfigCallback, p)
    ensures forall e :: e in r ==> e.Deliver? && e.payload == p
    ensures forall l :: Deliver(Handler(l), p) in r <==> l in handlers
  {
    if |handlers| == 0 then (if config then [Deliver(ConfigCallback, p)] else [])
    else
      var rest := Fanout(handlers[1..], config, p);
      assert forall l :: l in handlers <==> l == handlers[0] || l in handlers[1..];
      [Deliver(Handler(handlers[0]), p)] + rest
  }

  /** The fields of an incoming stanza the service reads. Absent text is the
      empty string (an absent `type` included). */
  datatype Inbound = Inbound(
    id: string, from: string, kind: string, body: string,
    requestReceipt: bool, receipt: Option<Receipt>)

  /** A delivery receipt carried by a stanza. */
  datatype Receipt = Receipt(kind: string, id: string)

  /** `shouldSendReceipt`: an id, type `chat` and a receipt request. */
  predicate ShouldSendReceipt(m: Inbound) {
    m.id != "" && m.kind == "chat" && m.requestReceipt
  }

  /** `isReceiptMessage` */
  predicate IsReceiptMessage(m: Inbound) {
    m.receipt.Some? && m.receipt.value.kind == "received"
  }

  /** `isValidChatMessage`: type `chat`, `normal` or absent. */
  predicate IsValidChatMessage(m: Inbound) {
    m.kind == "chat" || m.kind == "normal" || m.kind == ""
  }

  /** The outcome of one event: the effects in order, and whether the handler
      threw (`normalizeJid` on an address it cannot normalise). */
  datatype Reaction = Reaction(effects: seq<Effect>, threw: bool)

  /** The receipt answer, when receipts are on and the stanza asks for one. */
  function ReceiptAnswer(s: Service, m: Inbound): (r: seq<Effect>)
    ensures |r| <= 1
    ensures r != [] <==> s.config.enableReceipts && ShouldSendReceipt(m)
    ensures r != [] ==> r[0] == SendReceipt(m.from, m.id)
  {
    if s.config.enableReceipts && ShouldSendReceipt(m) then [SendReceipt(m.from, m.id)] else []
  }

  /** `handleMessage` once the sender normalised to `fromJid`: the receipt
      answer; then a receipt goes to the receipt handlers (only when it
      carries an id) and stops there; a blank body or an unsupported type
      stops; anything else goes to the message handlers. */
  function Dispatch(s: Service, m: Inbound, fromJid: string): (r: seq<Effect>)
    ensures ReceiptAnswer(s, m) <= r
    ensures IsReceiptMessage(m) ==>
      r[|ReceiptAnswer(s, m)|..] ==
        (if m.receipt.value.id == "" then []
         else Fanout(s.receiptHandlers, s.config.onReceiptReceived, ReceiptPayload(m.receipt.value.id, fromJid)))
    ensures !IsReceiptMessage(m) && (IsBlank(m.body) || !IsValidChatMessage(m)) ==> r == ReceiptAnswer(s, m)
    ensures !IsReceiptMessage(m) && !IsBlank(m.body) && IsValidChatMessage(m) ==>
      r[|ReceiptAnswer(s, m)|..] == Fanout(s.messageHandlers, s.config.onMessageReceived, MessagePayload)
  {
    var answer := ReceiptAnswer(s, m);
    var rest :=
      if IsReceiptMessage(m) then
        (if m.receipt.value.id == "" then []
         else Fanout(s.receiptHandlers, s.config.onReceiptReceived, ReceiptPayload(m.receipt.value.id, fromJid)))
      else if IsBlank(m.body) || !IsValidChatMessage(m) then []
      else Fanout(s.messageHandlers, s.config.onMessageReceived, MessagePayload);
    assert (answer + rest)[|answer|..] == rest;
    answer + rest
  }

  /** `handleMessage`. With no client or no sender nothing happens. The
      sender, and the client's own address when it has one, are normalised
      first; either can throw, which ends the handler before anything is
      sent or called. */
  function HandleInbound(s: Service, m: Inbound): (r: Reaction)
    ensures s.client.None? || m.from == "" ==> r == Reaction([], false)
    ensures r.threw <==>
      (&& s.client.Some? && m.from != ""
       && (Jid.NormalizeJid(m.from).Failure? ||
           (s.client.value.jid != "" && Jid.NormalizeJid(s.client.value.jid).Failure?)))
    ensures r.threw ==> r.effects == []
    ensures !r.threw && s.client.Some? && m.from != "" ==>
      r.effects == Dispatch(s, m, Jid.NormalizeJid(m.from).value)
  {
    if s.client.None? || m.from == "" then Reaction([], false)
    else match Jid.NormalizeJid(m.from)
      case Failure(_) => Reaction([], true)
      case Success(fromJid) =>
        if s.client.value.jid != "" && Jid.NormalizeJid(s.client.value.jid).Failure? then Reaction([], true)
        else Reaction(Dispatch(s, m, fromJid), false)
  }

  /** `handleChatState`: the normalised sender and the state go to every
      chat-state handler, then to the configuration's callback. */
  function HandleChatState(s: Service, from: string, state: ChatState): (r: Reaction)
    ensures r.threw <==> Jid.NormalizeJid(from).Failure?
    ensures r.threw ==> r.effects == []
    ensures !r.threw ==>
      r.effects == Fanout(s.chatStateHandlers, s.config.onChatStateChanged, ChatStatePayload(Jid.NormalizeJid(from).value, state))
  {
    match Jid.NormalizeJid(from)
    case Failure(_) => Reaction([], true)
    case Success(j) => Reaction(Fanout(s.chatStateHandlers, s.config.onChatStateChanged, ChatStatePayload(j, state)), false)
  }

  /** A receipt never reaches a message handler, and neither does a stanza
      with a blank body or an unsupported type. */
  lemma OnlyChatMessagesReachMessageHandlers(s: Service, m: Inbound, fromJid: string, c: Callee)
    requires IsReceiptMessage(m) || IsBlank(m.body) || !IsValidChatMessage(m)
    ensures Deliver(c, MessagePayload) !in Dispatch(s, m, fromJid)
  {
    var r := Dispatch(s, m, fromJid);
    var answer := ReceiptAnswer(s, m);
    var rest := r[|answer|..];
    assert r == answer + rest;
    if IsReceiptMessage(m) {
      assert forall e :: e in rest ==> e.payload.ReceiptPayload?;
    }
  }

  /** A callback removed from a registry is not called for any later event
      of that registry. */
  lemma UnsubscribedHandlerIsNotCalled(s: Service, l: ListenerId, m: Inbound, fromJid: string, state: ChatState)
    ensures Deliver(Handler(l), MessagePayload) !in Dispatch(Unsubscribe(s, Messages, l), m, fromJid)
    ensures forall p: Payload :: p.ReceiptPayload? ==> Deliver(Handler(l), p) !in Dispatch(Unsubscribe(s, Receipts, l), m, fromJid)
  {
    var u := Unsubscribe(s, Messages, l);
    var r := Dispatch(u, m, fromJid);
    var answer := ReceiptAnswer(u, m);
    assert r == answer + r[|answer|..];
    var v := Unsubscribe(s, Receipts, l);
    var q := Dispatch(v, m, fromJid);
    var answer' := ReceiptAnswer(v, m);
    assert q == answer' + q[|answer'|..];
  }
}

=== FILE: records.dfy ===
/** The records the local cache stores: messages (keyed by `messageId`) and
    conversation summaries (keyed by the contact's bare address). Times are
    integer milliseconds since the epoch. */
module Records {
  import opened Wrappers

  /** Who wrote a message: the account owner or the contact. */
  datatype Sender = Me | Them

  /** Delivery status of a stored message. */
  datatype Status = Pending | Sent | Displayed | Acknowledged | Failed

  /** The kind of a marker pseudo-record (chat markers and delivery receipts). */
  datatype MarkerType = DisplayedMarker | AcknowledgedMarker | ReceivedMarker

  /** A row of the `messages` store. A marker record has an empty body, a
      `markerType` and the id of the message it refers to in `markerFor`. */
  datatype Message = Message(
    messageId: string,
    conversationJid: string,
    body: string,
    timestamp: int,
    from: Sender,
    status: Status,
    tempId: Option<string>,
    markerType: Option<MarkerType>,
    markerFor: Option<string>)

  /** The summary of the newest message embedded in a conversation. */
  datatype LastMessage = LastMessage(body: string, timestamp: int, from: Sender, messageId: string)

  /** A row of the `conversations` store. */
  datatype Conversation = Conversation(
    jid: string,
    displayName: Option<string>,
    lastMessage: LastMessage,
    unreadCount: nat,
    updatedAt: int)
}

=== FILE: sync_initializer.dfy ===
/** The start-up synchronisation: an empty conversation store gets a full
    download of the archive, a populated one an incremental pass that asks
    the server, conversation by conversation, for what came after that
    conversation's paging cursor. The conversation store and the sync
    bookkeeping row are state; the server's answers are parameters; progress
    reports and the calls whose effects lie outside the model are logged. */
module SyncInitializer {
  import opened Wrappers
  import opened Records
  import opened Conversations

  /** The phases a progress report names. */
  datatype Phase = Check | Full | Incremental | VCard | Complete

  /** A progress report; `current`/`total` count conversations in the
      incremental pass. The human-readable text is not modelled. */
  datatype Progress = Progress(phase: Phase, current: Option<nat>, total: Option<nat>)

  function Note(p: Phase): Progress {
    Progress(p, None, None)
  }

  /** The sync bookkeeping row. Absent text is the empty string; a missing
      per-conversation cursor map is the empty map. */
  datatype Metadata = Metadata(
    lastSync: Option<int>,
    lastRSMToken: string,
    isInitialSyncComplete: bool,
    initialSyncCompletedAt: Option<int>,
    conversationTokens: map<string, string>)

  /** The stored conversations (one per contact) and the bookkeeping row. */
  datatype SyncState = SyncState(store: seq<Conversation>, meta: Option<Metadata>)

  /** What downloading the whole archive yields: a summary per contact and
      the paging cursor of the last page. */
  datatype Download = Download(conversations: seq<Conversation>, lastToken: string)

  /** One conversation's messages after its cursor, and the new cursor. */
  datatype Page = Page(messages: seq<Message>, lastToken: string)

  /** The server's answers: the full download, the profile download (its
      error, if it throws), the roster request, and the per-conversation
      fetch for a contact and cursor. */
  datatype Remote = Remote(
    download: Result<Download, string>,
    vcardError: Option<string>,
    roster: Result<seq<RosterItem>, string>,
    fetch: (string, string) -> Result<Page, string>)

  /** Calls whose effect lies outside the model. */
  datatype Effect =
    | DownloadAll
    | FetchVCards(jids: seq<string>)
    | FetchRoster
    | FetchAfter(jid: string, token: string)
    | UpdateLastSync

  datatype Outcome = Outcome(state: SyncState, progress: seq<Progress>, effects: seq<Effect>, error: Option<string>)

  // ------------------------------------------------------ the store's saveAll

  /** `conversationRepo.saveAll(cs)`: each summary replaces the stored one
      for its contact, or is added. */
  function SaveAll(store: seq<Conversation>, cs: seq<Conversation>): (r: seq<Conversation>)
    ensures forall j :: j in Jids(r) <==> j in Jids(store) || j in Jids(cs)
    ensures DistinctJids(store) ==> DistinctJids(r)
    decreases |cs|
  {
    if |cs| == 0 then store
    else
      var init := cs[..|cs| - 1];
      assert Jids(cs) == Jids(init) + [cs[|cs| - 1].jid];
      Put(SaveAll(store, init), cs[|cs| - 1])
  }

  /** Saving summaries with one per contact stores exactly those for their
      contacts and leaves every other contact alone. */
  lemma {:induction false} SaveAllStored(store: seq<Conversation>, cs: seq<Conversation>, j: string)
    requires DistinctJids(cs)
    ensures j !in Jids(cs) ==> Stored(SaveAll(store, cs), j) == Stored(store, j)
    ensures j in Jids(cs) ==> Stored(SaveAll(store, cs), j) == Stored(cs, j)
    decreases |cs|
  {
    if |cs| > 0 {
      var init := cs[..|cs| - 1];
      var last := cs[|cs| - 1];
      SplitLast(cs);
      SaveAllStored(store, init, j);
      StoredOfAppend(init, last, j);
    }
  }

  // ------------------------------------------------------------- full sync

  /** `performFullSync`: download everything, save it, and when there is at
      least one conversation fetch the contacts' profiles and save the
      roster-enriched summaries; then write the bookkeeping row. A failing
      download or profile fetch ends the sync with that error. */
  function FullSync(s: SyncState, r: Remote, now: int): (o: Outcome)
    ensures |o.progress| > 0 && o.progress[0] == Note(Full) && Note(Complete) !in o.progress
    ensures |o.effects| > 0 && o.effects[0] == DownloadAll
    ensures o.error.None? <==>
      r.download.Success? && (|r.download.value.conversations| == 0 || r.vcardError.None?)
    ensures o.error.Some? ==> o.state.meta == s.meta
    ensures o.error.None? ==>
      o.state.meta == Some(Metadata(Some(now), r.download.value.lastToken, true, Some(now), map[]))
    ensures forall e :: e in o.effects && (e.FetchVCards? || e.FetchRoster?) ==>
      r.download.Success? && |r.download.value.conversations| > 0
    ensures o.error.None? && |r.download.value.conversations| > 0 ==> FetchRoster in o.effects
    ensures r.download.Success? ==>
      forall j :: j in Jids(o.state.store) <==> j in Jids(s.store) || j in Jids(r.download.value.conversations)
    ensures DistinctJids(s.store) ==> DistinctJids(o.state.store)
  {
    if r.download.Failure? then
      Outcome(s, [Note(Full)], [DownloadAll], Some(r.download.error))
    else
      var d := r.download.value;
      var saved := SaveAll(s.store, d.conversations);
      var progress := [Note(Full), Note(Full), Note(VCard)];
      if |d.conversations| == 0 then
        Outcome(SyncState(saved, Some(Metadata(Some(now), d.lastToken, true, Some(now), map[]))),
                progress, [DownloadAll], None)
      else if r.vcardError.Some? then
        Outcome(SyncState(saved, s.meta), progress, [DownloadAll, FetchVCards(Jids(d.conversations))], r.vcardError)
      else
        var enriched := EnrichWithRoster(d.conversations, r.roster);
        EnrichKeepsJids(d.conversations, r.roster);
        Outcome(SyncState(SaveAll(saved, enriched), Some(Metadata(Some(now), d.lastToken, true, Some(now), map[]))),
                progress, [DownloadAll, FetchVCards(Jids(d.conversations)), FetchRoster], None)
  }

  lemma EnrichKeepsJids(cs: seq<Conversation>, roster: Result<seq<RosterItem>, string>)
    ensures Jids(EnrichWithRoster(cs, roster)) == Jids(cs)
  {
    var e := EnrichWithRoster(cs, roster);
    assert forall i :: 0 <= i < |cs| ==> e[i].jid == cs[i].jid;
  }

  /** After a successful full sync every downloaded conversation is stored
      as downloaded, up to its display name. */
  lemma FullSyncStoresDownload(s: SyncState, r: Remote, now: int, c: Conversation)
    requires r.download.Success? && DistinctJids(r.download.value.conversations)
    requires c in r.download.value.conversations
    requires FullSync(s, r, now).error.None?
    ensures var st := Stored(FullSync(s, r, now).state.store, c.jid);
      st.Some? && st.value.(displayName := c.displayName) == c
  {
    var d := r.download.value;
    StoredOfMember(d.conversations, c);
    var saved := SaveAll(s.store, d.conversations);
    SaveAllStored(s.store, d.conversations, c.jid);
    if |d.conversations| > 0 {
      var enriched := EnrichWithRoster(d.conversations, r.roster);
      EnrichKeepsJids(d.conversations, r.roster);
      assert DistinctJids(enriched) by {
        forall p, q | 0 <= p < q < |enriched| ensures enriched[p].jid != enriched[q].jid {
          assert Jids(enriched)[p] == Jids(d.conversations)[p];
          assert Jids(enriched)[q] == Jids(d.conversations)[q];
        }
      }
      assert c.jid in Jids(enriched);
      SaveAllStored(saved, enriched, c.jid);
      var k := IndexOf(enriched, c.jid).value;
      assert IndexOf(enriched, c.jid) == IndexOf(d.conversations, c.jid);
      assert enriched[k].(displayName := d.conversations[k].displayName) == d.conversations[k];
    }
  }

  // ------------------------------------------------------ incremental sync

  /** The cursor stored for a contact, or "" when there is none. */
  function TokenOf(tokens: map<string, string>, jid: string): string {
    if jid in tokens then tokens[jid] else ""
  }

  /** The non-empty page fetched for `c`, if it has a cursor and the fetch
      succeeded with at least one message. */
  function NewPage(c: Conversation, tokens: map<string, string>, fetch: (string, string) -> Result<Page, string>): (r: Option<Page>)
    ensures r.Some? ==> TokenOf(tokens, c.jid) != "" && |r.value.messages| > 0
    ensures TokenOf(tokens, c.jid) == "" || fetch(c.jid, TokenOf(tokens, c.jid)).Failure? ==> r.None?
  {
    var t := TokenOf(tokens, c.jid);
    if t == "" then None
    else
      var res := fetch(c.jid, t);
      if res.Success? && |res.value.messages| > 0 then Some(res.value) else None
  }

  /** `conversationRepo.update`: the page's last message becomes the
      summary's last message, and its time the update time. There is no
      newer-than test. */
  function Refreshed(c: Conversation, p: Option<Page>): (r: Conversation)
    requires p.Some? ==> |p.value.messages| > 0
    ensures r.jid == c.jid && r.unreadCount == c.unreadCount && r.displayName == c.displayName
    ensures p.None? ==> r == c
    ensures p.Some? ==> var m := p.value.messages[|p.value.messages| - 1];
      r.lastMessage == LastMessage(m.body, m.timestamp, m.from, m.messageId) && r.updatedAt == m.timestamp
  {
    if p.None? then c
    else
      var m := p.value.messages[|p.value.messages| - 1];
      c.(lastMessage := LastMessage(m.body, m.timestamp, m.from, m.messageId), updatedAt := m.timestamp)
  }

  /** The cursor the pass stores for `c`: the page's cursor when the page is
      non-empty and has one. */
  function NewToken(c: Conversation, tokens: map<string, string>, fetch: (string, string) -> Result<Page, string>): Option<string> {
    var p := NewPage(c, tokens, fetch);
    if p.Some? && p.value.lastToken != "" then Some(p.value.lastToken) else None
  }

  /** The cursor map after visiting `cs` in order, reading cursors from
      `read` and writing them over `base`. */
  function TokensAfter(base: map<string, string>, read: map<string, string>, cs: seq<Conversation>,
                       fetch: (string, string) -> Result<Page, string>): (r: map<string, string>)
    ensures base.Keys <= r.Keys
    decreases |cs|
  {
    if |cs| == 0 then base
    else
      var b := TokensAfter(base, read, cs[..|cs| - 1], fetch);
      var t := NewToken(cs[|cs| - 1], read, fetch);
      if t.Some? then b[cs[|cs| - 1].jid := t.value] else b
  }

  /** With one summary per contact, a contact whose page brought a cursor
      ends up with that cursor. */
  lemma {:induction false} TokensAfterHit(base: map<string, string>, read: map<string, string>,
      cs: seq<Conversation>, fetch: (string, string) -> Result<Page, string>, k: nat)
    requires DistinctJids(cs) && k < |cs| && NewToken(cs[k], read, fetch).Some?
    ensures TokenOf(TokensAfter(base, read, cs, fetch), cs[k].jid) == NewToken(cs[k], read, fetch).value
    decreases |cs|
  {
    if k < |cs| - 1 {
      var init := cs[..|cs| - 1];
      SplitLast(cs);
      assert init[k] == cs[k];
      TokensAfterHit(base, read, init, fetch, k);
    }
  }

  /** A contact none of whose summaries brought a cursor keeps its cursor. */
  lemma {:induction false} TokensAfterMiss(base: map<string, string>, read: map<string, string>,
      cs: seq<Conversation>, fetch: (string, string) -> Result<Page, string>, j: string)
    requires forall k :: 0 <= k < |cs| && cs[k].jid == j ==> NewToken(cs[k], read, fetch).None?
    ensures TokenOf(TokensAfter(base, read, cs, fetch), j) == TokenOf(base, j)
    decreases |cs|
  {
    if |cs| > 0 {
      var init := cs[..|cs| - 1];
      assert forall k :: 0 <= k < |init| ==> init[k] == cs[k];
      TokensAfterMiss(base, read, init, fetch, j);
    }
  }

  /** The fetches the pass makes for `cs`: one per conversation that has a
      cursor, in order. */
  function FetchLog(cs: seq<Conversation>, tokens: map<string, string>): (r: seq<Effect>)
    ensures forall e :: e in r ==> e.FetchAfter?
    decreases |cs|
  {
    if |cs| == 0 then []
    else
      var c := cs[|cs| - 1];
      var t := TokenOf(tokens, c.jid);
      FetchLog(cs[..|cs| - 1], tokens) + (if t == "" then [] else [FetchAfter(c.jid, t)])
  }

  /** A conversation is fetched iff it has a cursor, and with that cursor. */
  lemma {:induction false} FetchLogRule(cs: seq<Conversation>, tokens: map<string, string>, j: string, t: string)
    ensures FetchAfter(j, t) in FetchLog(cs, tokens) <==> j in Jids(cs) && t == TokenOf(tokens, j) && t != ""
    decreases |cs|
  {
    if |cs| > 0 {
      var init := cs[..|cs| - 1];
      assert Jids(cs) == Jids(init) + [cs[|cs| - 1].jid];
      FetchLogRule(init, tokens, j, t);
    }
  }

  /** With no per-conversation cursors the incremental pass fetches nothing. */
  lemma {:induction false} NoTokensNoFetches(cs: seq<Conversation>)
    ensures FetchLog(cs, map[]) == []
    decreases |cs|
  {
    if |cs| > 0 {
      NoTokensNoFetches(cs[..|cs| - 1]);
    }
  }

  /** The numbered reports of the incremental pass over `n` conversations. */
  function LoopReports(n: nat): (r: seq<Progress>)
    ensures |r| == n && forall i :: 0 <= i < n ==> r[i] == Progress(Incremental, Some(i + 1), Some(n))
  {
    seq(n, i requires 0 <= i < n => Progress(Incremental, Some(i + 1), Some(n)))
  }

  /** Every summary of `cs` after its fetch, in order. */
  function RefreshAll(cs: seq<Conversation>, tokens: map<string, string>,
                      fetch: (string, string) -> Result<Page, string>): (r: seq<Conversation>)
    ensures |r| == |cs|
    ensures forall i :: 0 <= i < |cs| ==> r[i] == Refreshed(cs[i], NewPage(cs[i], tokens, fetch))
    decreases |cs|
  {
    if |cs| == 0 then []
    else
      var init := cs[..|cs| - 1];
      assert forall i :: 0 <= i < |init| ==> init[i] == cs[i];
      RefreshAll(init, tokens, fetch) + [Refreshed(cs[|cs| - 1], NewPage(cs[|cs| - 1], tokens, fetch))]
  }

  /** The loop of `performIncrementalSync`, given the cursors read before it. */
  method IncrementalPass(store: seq<Conversation>, meta: Metadata, fetch: (string, string) -> Result<Page, string>)
    returns (store': seq<Conversation>, meta': Metadata, reports: seq<Progress>, effects: seq<Effect>)
    ensures |store'| == |store|
    ensures forall i :: 0 <= i < |store| ==>
      store'[i] == Refreshed(store[i], NewPage(store[i], meta.conversationTokens, fetch))
    ensures meta' == meta.(conversationTokens :=
      TokensAfter(meta.conversationTokens, meta.conversationTokens, store, fetch))
    ensures reports == LoopReports(|store|)
    ensures effects == FetchLog(store, meta.conversationTokens)
  {
    var tokens := meta.conversationTokens;
    var n := |store|;
    store' := [];
    meta' := meta;
    reports := [];
    effects := [];
    var i := 0;
    while i < n
      invariant 0 <= i <= n
      invariant store' == RefreshAll(store[..i], tokens, fetch)
      invariant meta' == meta.(conversationTokens := TokensAfter(tokens, tokens, store[..i], fetch))
      invariant reports == LoopReports(n)[..i]
      invariant effects == FetchLog(store[..i], tokens)
    {
      var c := store[i];
      StepFacts(store, i, tokens, fetch, n);
      reports := reports + [Progress(Incremental, Some(i + 1), Some(n))];
      var t := TokenOf(tokens, c.jid);
      effects := effects + if t == "" then [] else [FetchAfter(c.jid, t)];
      store' := store' + [Refreshed(c, NewPage(c, tokens, fetch))];
      var next := NewToken(c, tokens, fetch);
      meta' := if next.Some? then meta'.(conversationTokens := meta'.conversationTokens[c.jid := next.value]) else meta';
      i := i + 1;
    }
    assert store[..n] == store;
  }

  /** What one more conversation adds to the logs and the cursor map. */
  lemma StepFacts(store: seq<Conversation>, i: nat, tokens: map<string, string>,
                  fetch: (string, string) -> Result<Page, string>, n: nat)
    requires i < |store| && n == |store|
    ensures var c, t, nt := store[i], TokenOf(tokens, store[i].jid), NewToken(store[i], tokens, fetch);
      var before := TokensAfter(tokens, tokens, store[..i], fetch);
      FetchLog(store[..i + 1], tokens) == FetchLog(store[..i], tokens) + (if t == "" then [] else [FetchAfter(c.jid, t)])
      && TokensAfter(tokens, tokens, store[..i + 1], fetch) == (if nt.Some? then before[c.jid := nt.value] else before)
      && LoopReports(n)[..i + 1] == LoopReports(n)[..i] + [Progress(Incremental, Some(i + 1), Some(n))]
      && RefreshAll(store[..i + 1], tokens, fetch) == RefreshAll(store[..i], tokens, fetch) + [Refreshed(c, NewPage(c, tokens, fetch))]
  {
    assert store[..i + 1][..i] == store[..i] && store[..i + 1][i] == store[i];
  }

  /** `performIncrementalSync`: without a stored global cursor it falls back
      to the full sync; otherwise it runs the pass and asks for the sync time
      to be updated. Fetch failures are swallowed, so the pass never fails. */
  method IncrementalSync(s: SyncState, r: Remote, now: int) returns (o: Outcome)
    ensures s.meta.None? || s.meta.value.lastRSMToken == "" ==>
      var f := FullSync(s, r, now);
      o == f.(progress := [Note(Incremental)] + f.progress)
    ensures s.meta.Some? && s.meta.value.lastRSMToken != "" ==>
      var tokens := s.meta.value.conversationTokens;
      o.error == None
      && o.progress == [Note(Incremental), Note(Incremental)] + LoopReports(|s.store|)
      && o.effects == FetchLog(s.store, tokens) + [UpdateLastSync]
      && |o.state.store| == |s.store|
      && (forall i :: 0 <= i < |s.store| ==>
            o.state.store[i] == Refreshed(s.store[i], NewPage(s.store[i], tokens, r.fetch)))
      && o.state.meta == Some(s.meta.value.(conversationTokens := TokensAfter(tokens, tokens, s.store, r.fetch)))
    ensures Note(Complete) !in o.progress
  {
    if s.meta.None? || s.meta.value.lastRSMToken == "" {
      var f := FullSync(s, r, now);
      o := f.(progress := [Note(Incremental)] + f.progress);
    } else {
      var store', meta', reports, effects := IncrementalPass(s.store, s.meta.value, r.fetch);
      o := Outcome(SyncState(store', Some(meta')), [Note(Incremental), Note(Incremental)] + reports,
                   effects + [UpdateLastSync], None);
    }
  }

  /** `performInitialSync`: report the check, pick the full sync for an empty
      store and the incremental one otherwise, and report completion only
      when that succeeded; an error is passed on. */
  method InitialSync(s: SyncState, r: Remote, now: int) returns (o: Outcome)
    ensures |o.progress| >= 2 && o.progress[0] == Note(Check)
    ensures o.progress[1] == if |s.store| == 0 then Note(Full) else Note(Incremental)
    ensures Note(Complete) in o.progress <==> o.error.None?
    ensures o.error.None? ==> o.progress[|o.progress| - 1] == Note(Complete)
    ensures o.error.Some? ==> |s.store| == 0 || s.meta.None? || s.meta.value.lastRSMToken == ""
    ensures |s.store| == 0 || s.meta.None? || s.meta.value.lastRSMToken == "" ==>
      var f := FullSync(s, r, now);
      o.state == f.state && o.effects == f.effects && o.error == f.error
    ensures |s.store| > 0 && s.meta.Some? && s.meta.value.lastRSMToken != "" ==>
      var tokens := s.meta.value.conversationTokens;
      o.error == None
      && o.effects == FetchLog(s.store, tokens) + [UpdateLastSync]
      && |o.state.store| == |s.store|
      && (forall i :: 0 <= i < |s.store| ==>
            o.state.store[i] == Refreshed(s.store[i], NewPage(s.store[i], tokens, r.fetch)))
      && o.state.meta == Some(s.meta.value.(conversationTokens := TokensAfter(tokens, tokens, s.store, r.fetch)))
  {
    var inner: Outcome;
    if |s.store| == 0 {
      inner := FullSync(s, r, now);
    } else {
      inner := IncrementalSync(s, r, now);
    }
    var progress := [Note(Check)] + inner.progress;
    if inner.error.None? {
      progress := progress + [Note(Complete)];
    }
    o := inner.(progress := progress);
  }

  /** The pass overwrites the last message even with an older one. */
  lemma OlderPageStillOverwrites(c: Conversation, m: Message)
    requires m.timestamp < c.lastMessage.timestamp
    ensures Refreshed(c, Some(Page([m], ""))).lastMessage.timestamp < c.lastMessage.timestamp
    ensures Refreshed(c, Some(Page([m], ""))).lastMessage.messageId == m.messageId
  {
  }
}

=== FILE: sync_status.dfy ===
/** The global "a sync is running" flag the interface shows a spinner for,
    with the callbacks told about each change. */
module SyncStatus {
  import opened Listeners

  /** The service: the flag and the registered callbacks in insertion order. */
  datatype Service = Service(isSyncing: bool, listeners: seq<ListenerId>)

  /** One callback invocation with the value it was given. */
  datatype Call = Call(listener: ListenerId, value: bool)

  /** The service after an update and the calls the update made. */
  datatype Outcome = Outcome(service: Service, calls: seq<Call>)

  /** The shared instance as created: not syncing, nobody listening. */
  function New(): (s: Service)
    ensures !GetIsSyncing(s) && s.listeners == []
  {
    Service(false, [])
  }

  /** `getIsSyncing` */
  function GetIsSyncing(s: Service): bool {
    s.isSyncing
  }

  /** Each callback of `ls`, in order, called with `v`. */
  function CallsWith(ls: seq<ListenerId>, v: bool): (r: seq<Call>)
    ensures |r| == |ls|
    ensures forall i :: 0 <= i < |r| ==> r[i] == Call(ls[i], v)
  {
    if |ls| == 0 then [] else [Call(ls[0], v)] + CallsWith(ls[1..], v)
  }

  /** `setSyncing`: a change of value is stored and every callback is told
      the new value, each in its own `try`, so the callbacks in `throwing`
      stop nobody; setting the value it already has does nothing. */
  function SetSyncing(s: Service, v: bool, throwing: set<ListenerId>): (r: Outcome)
    ensures GetIsSyncing(r.service) == v && r.service.listeners == s.listeners
    ensures GetIsSyncing(s) == v ==> r.calls == []
    ensures GetIsSyncing(s) != v ==> |r.calls| == |s.listeners|
    ensures GetIsSyncing(s) != v ==> forall i :: 0 <= i < |r.calls| ==> r.calls[i] == Call(s.listeners[i], v)
  {
    if s.isSyncing == v then Outcome(s, [])
    else Outcome(Service(v, s.listeners), CallsWith(CallIsolated(s.listeners, throwing).called, v))
  }

  /** `subscribe`: the callback is registered once; the flag is untouched. */
  function Subscribe(s: Service, l: ListenerId): (r: Service)
    ensures r.isSyncing == s.isSyncing
    ensures forall x :: x in r.listeners <==> x in s.listeners || x == l
    ensures NoDuplicates(s.listeners) ==> NoDuplicates(r.listeners)
  {
    Service(s.isSyncing, Add(s.listeners, l))
  }

  /** The function `subscribe` returns: unregisters the callback. */
  function Unsubscribe(s: Service, l: ListenerId): (r: Service)
    ensures r.isSyncing == s.isSyncing
    ensures forall x :: x in r.listeners <==> x in s.listeners && x != l
  {
    Service(s.isSyncing, Remove(s.listeners, l))
  }

  /** A subscriber hears about every change, whichever callbacks throw. */
  lemma ChangeReachesSubscriber(s: Service, l: ListenerId, v: bool, throwing: set<ListenerId>)
    requires GetIsSyncing(s) != v
    ensures Call(l, v) in SetSyncing(Subscribe(s, l), v, throwing).calls
  {
    var t := Subscribe(s, l);
    var i :| 0 <= i < |t.listeners| && t.listeners[i] == l;
    assert SetSyncing(t, v, throwing).calls[i] == Call(l, v);
  }

  /** An unsubscribed callback is never called again. */
  lemma UnsubscribedIsNotCalled(s: Service, l: ListenerId, v: bool, throwing: set<ListenerId>)
    ensures forall c :: c in SetSyncing(Unsubscribe(s, l), v, throwing).calls ==> c.listener != l
  {
    var t := Unsubscribe(s, l);
    var cs := SetSyncing(t, v, throwing).calls;
    forall c | c in cs ensures c.listener != l {
      var i :| 0 <= i < |cs| && cs[i] == c;
      assert t.listeners[i] in t.listeners;
    }
  }

  // ------------------------------------------------------------ a run of updates

  /** The service after the updates `vs` one by one, with all the calls made. */
  function Run(s: Service, vs: seq<bool>, throwing: set<ListenerId>): Outcome
    decreases |vs|
  {
    if |vs| == 0 then Outcome(s, [])
    else
      var first := SetSyncing(s, vs[0], throwing);
      var rest := Run(first.service, vs[1..], throwing);
      Outcome(rest.service, first.calls + rest.calls)
  }

  /** How many of the values `vs` differ from the one before them, the first
      being compared with `start`. */
  function Changes(start: bool, vs: seq<bool>): nat
    decreases |vs|
  {
    if |vs| == 0 then 0
    else (if vs[0] != start then 1 else 0) + Changes(vs[0], vs[1..])
  }

  /** After a run the flag holds the last value set, the callbacks are those
      registered before, and each callback was called once per change of
      value and never for a repeated one. */
  lemma {:induction false} RunNotifiesOncePerChange(s: Service, vs: seq<bool>, throwing: set<ListenerId>)
    ensures Run(s, vs, throwing).service.listeners == s.listeners
    ensures GetIsSyncing(Run(s, vs, throwing).service) == (if |vs| == 0 then s.isSyncing else vs[|vs| - 1])
    ensures |Run(s, vs, throwing).calls| == Changes(s.isSyncing, vs) * |s.listeners|
    decreases |vs|
  {
    if |vs| > 0 {
      var first := SetSyncing(s, vs[0], throwing);
      var rest := Run(first.service, vs[1..], throwing);
      RunNotifiesOncePerChange(first.service, vs[1..], throwing);
      assert Run(s, vs, throwing) == Outcome(rest.service, first.calls + rest.calls);
      OneMoreRound(vs[0] != s.isSyncing, Changes(vs[0], vs[1..]), |s.listeners|);
    }
  }

  lemma OneMoreRound(changed: bool, c: nat, n: nat)
    ensures (if changed then n else 0) + c * n == ((if changed then 1 else 0) + c) * n
  {
  }
}

=== FILE: text.dfy ===
/** The JavaScript string operations the client relies on, over `seq<char>`
    (characters are Unicode scalar values). Lower-casing is ASCII only. */
module Text {
  import opened Wrappers

  /** The characters `String.prototype.trim` removes: WhiteSpace and
      LineTerminator of ECMAScript (section 12.2 and 12.3 of ECMA-262). */
  predicate IsJsWhitespace(c: char) {
    var n := c as int;
    n == 0x09 || n == 0x0A || n == 0x0B || n == 0x0C || n == 0x0D || n == 0x20
    || n == 0xA0 || n == 0x1680 || (0x2000 <= n <= 0x200A) || n == 0x2028
    || n == 0x2029 || n == 0x202F || n == 0x205F || n == 0x3000 || n == 0xFEFF
  }

  /** The characters a regular-expression `.` does not match (no `s` flag). */
  predicate IsLineTerminator(c: char) {
    var n := c as int;
    n == 0x0A || n == 0x0D || n == 0x2028 || n == 0x2029
  }

  /** Every character of `s` is JavaScript whitespace. */
  predicate AllWhitespace(s: string) {
    forall i :: 0 <= i < |s| ==> IsJsWhitespace(s[i])
  }

  function TrimStart(s: string): (r: string)
    ensures |r| <= |s| && r == s[|s| - |r|..]
    ensures AllWhitespace(s[..|s| - |r|])
    ensures r == [] || !IsJsWhitespace(r[0])
  {
    if |s| == 0 || !IsJsWhitespace(s[0]) then s else TrimStart(s[1..])
  }

  function TrimEnd(s: string): (r: string)
    ensures |r| <= |s| && r == s[..|r|]
    ensures AllWhitespace(s[|r|..])
    ensures r == [] || !IsJsWhitespace(r[|r| - 1])
  {
    if |s| == 0 || !IsJsWhitespace(s[|s| - 1]) then s else TrimEnd(s[..|s| - 1])
  }

  /** `s.trim()` */
  function Trim(s: string): string {
    TrimEnd(TrimStart(s))
  }

  /** `s.trim() === s` holds exactly when neither end of `s` is whitespace. */
  lemma TrimIsIdentity(s: string)
    ensures Trim(s) == s <==> (s == [] || (!IsJsWhitespace(s[0]) && !IsJsWhitespace(s[|s| - 1])))
  {
    if s != [] && !IsJsWhitespace(s[0]) && !IsJsWhitespace(s[|s| - 1]) {
      assert TrimStart(s) == s;
      assert TrimEnd(s) == s;
    }
  }

  /** `s.trim().length === 0` holds exactly when every character is whitespace. */
  lemma TrimEmptyIffAllWhitespace(s: string)
    ensures Trim(s) == [] <==> AllWhitespace(s)
  {
    var t := TrimStart(s);
    if Trim(s) == [] {
      assert AllWhitespace(s[..|s| - |t|]);
      assert AllWhitespace(t[|TrimEnd(t)|..]);
      assert t == s[|s| - |t|..];
      forall i | 0 <= i < |s| ensures IsJsWhitespace(s[i]) {
        if i < |s| - |t| {
          assert s[..|s| - |t|][i] == s[i];
        } else {
          assert t[i - (|s| - |t|)] == s[i];
        }
      }
    }
    if AllWhitespace(s) {
      assert t == s[|s| - |t|..];
    }
  }

  /** Trimming twice trims nothing more. */
  lemma TrimIsIdempotent(s: string)
    ensures Trim(Trim(s)) == Trim(s)
  {
    var t := TrimStart(s);
    var r := TrimEnd(t);
    if r != [] {
      assert r[0] == t[0];
    }
    TrimIsIdentity(r);
  }

  /** A body that is absent, empty or whitespace only (`!b || b.trim().length === 0`). */
  predicate IsBlank(s: string) {
    Trim(s) == []
  }

  predicate IsAsciiUpper(c: char) {
    'A' <= c <= 'Z'
  }

  function LowerChar(c: char): char {
    if IsAsciiUpper(c) then (c as int + 32) as char else c
  }

  /** `s.toLowerCase()`, restricted to ASCII letters. */
  function Lower(s: string): (r: string)
    ensures |r| == |s|
    ensures forall i :: 0 <= i < |s| ==> r[i] == LowerChar(s[i])
  {
    if |s| == 0 then [] else [LowerChar(s[0])] + Lower(s[1..])
  }

  lemma LowerIsIdempotent(s: string)
    ensures Lower(Lower(s)) == Lower(s)
    ensures forall i :: 0 <= i < |s| ==> !IsAsciiUpper(Lower(s)[i])
  {
  }

  /** Lower-casing leaves every character that is not an ASCII capital alone. */
  lemma LowerKeepsOthers(s: string, c: char)
    requires !IsAsciiUpper(c) && !IsAsciiUpper(LowerChar(c)) && ('a' > c || c > 'z')
    ensures c in Lower(s) <==> c in s
  {
    if c in s {
      var i :| 0 <= i < |s| && s[i] == c;
      assert Lower(s)[i] == c;
    }
    if c in Lower(s) {
      var i :| 0 <= i < |s| && Lower(s)[i] == c;
      assert s[i] == c;
    }
  }

  lemma LowerOfLowerCase(s: string)
    requires forall i :: 0 <= i < |s| ==> !IsAsciiUpper(s[i])
    ensures Lower(s) == s
  {
  }

  lemma LowerOfSlice(s: string, i: nat, j: nat)
    requires i <= j <= |s|
    ensures Lower(s)[i..j] == Lower(s[i..j])
  {
  }

  lemma LowerOfConcat(a: string, b: string)
    ensures Lower(a + b) == Lower(a) + Lower(b)
  {
  }

  /** Index of the first occurrence of `c` (`s.indexOf(c)`, with `None` for -1). */
  function Find(s: string, c: char): (r: Option<nat>)
    ensures r.None? <==> c !in s
    ensures r.Some? ==> r.value < |s| && s[r.value] == c && c !in s[..r.value]
  {
    if |s| == 0 then None
    else if s[0] == c then Some(0)
    else match Find(s[1..], c)
      case None => None
      case Some(j) =>
        assert s[..j + 1] == [s[0]] + s[1..][..j];
        Some(j + 1)
  }

  /** The first occurrence is unique: any first-occurrence index is the one `Find` gives. */
  lemma FindIsFirst(s: string, c: char, i: nat)
    requires i < |s| && s[i] == c && c !in s[..i]
    ensures Find(s, c) == Some(i)
  {
    var j := Find(s, c).value;
    assert forall k :: 0 <= k < i ==> s[..i][k] == s[k];
    assert forall k :: 0 <= k < j ==> s[..j][k] == s[k];
  }

  /** `s.split(c)[0]`: the text before the first `c`, or all of `s`. */
  function Before(s: string, c: char): (r: string)
    ensures c !in r
    ensures r <= s
    ensures c !in s ==> r == s
    ensures c in s ==> |r| < |s| && s[|r|] == c
  {
    match Find(s, c)
    case None => s
    case Some(i) => s[..i]
  }

  lemma BeforeOfFree(s: string, c: char)
    requires c !in s
    ensures Before(s, c) == s
  {
  }

  lemma BeforeOfConcat(a: string, c: char, b: string)
    requires c !in a
    ensures Before(a + [c] + b, c) == a
  {
    var s := a + [c] + b;
    assert s[..|a|] == a;
    FindIsFirst(s, c, |a|);
  }

  /** `s.startsWith(p)` */
  predicate StartsWith(s: string, p: string) {
    p <= s
  }

  /** `s.length`: JavaScript counts UTF-16 code units, so a character above
      U+FFFF counts twice. */
  function Utf16Length(s: string): (n: nat)
    ensures |s| <= n <= 2 * |s|
  {
    if |s| == 0 then 0 else (if s[0] as int >= 0x1_0000 then 2 else 1) + Utf16Length(s[1..])
  }

  lemma Utf16LengthOfLower(s: string)
    ensures Utf16Length(Lower(s)) == Utf16Length(s)
  {
    if |s| > 0 {
      assert Lower(s)[1..] == Lower(s[1..]);
      Utf16LengthOfLower(s[1..]);
    }
  }
}

=== FILE: wrappers.dfy ===
/** Option and Result, the shapes the model uses for JavaScript's
    `undefined`/`null` and for functions that throw. */
module Wrappers {

  datatype Option<+T> = None | Some(value: T) {

    /** The value, or `default` when there is none (JavaScript's `x ?? d`). */
    function GetOr(default: T): T {
      match this
      case Some(v) => v
      case None => default
    }
  }

  /** `Failure` stands for a thrown exception, `Success` for a normal return. */
  datatype Result<+R, +E> = Success(value: R) | Failure(error: E) {

    predicate IsFailure() {
      Failure?
    }

    function PropagateFailure<U>(): Result<U, E>
      requires Failure?
    {
      Failure(error)
    }

    function Extract(): R
      requires Success?
    {
      value
    }

    /** `try { return f() } catch { return null }` */
    function ToOption(): Option<R> {
      match this
      case Success(v) => Some(v)
      case Failure(_) => None
    }
  }
}
